=== FILE: README.md ===
# projeto-agente-ia: a verified model of the routing and orchestration core

This project is a Dafny model of the decision and transformation logic of a Flask/CrewAI/LangGraph document assistant. The logic it models sits between "a user sent a message" and "a reply and possibly a generated document were stored":

- **Placeholder inventory of a DOCX template** (`DocxPlaceholders`). This covers:
  - the loop map;
  - the plain, dotted and collection names;
  - the required top-level names, with loop variables replaced by their collections.
- **Deterministic tool logic** (`Tools`). This covers:
  - the recursive context cleaner;
  - the template inspector's block sanitiser;
  - the simple generator's line splitting and format dispatch;
  - the template filler's default output filename.
- **Tool-response record** (`ToolResponses`): `to_dict`, the success and error constructors, and the closed set of error codes.
- **File writers' input normalisation** (`FileGenerators`): the `topicos` normalisation and the `;` row splitter of the spreadsheet writer.
- **Model fallback chain** (`LlmFallback`): construction, tool binding, and the retry, abort and exhaustion rules of `invoke`.
- **Hybrid keyword router** (`IntentRouter`): four phases with fixed confidences.
- **Tool-calling router** (`IntelligentRouter`): the post-processing of the model's tool calls and the three-turn history window.
- **Request graph**:
  - `GraphNodes`: each node as a map from the state record to a partial update, and the final responder that turns tool outputs into reply text;
  - `GraphBuilder`: the graph's topology and one complete run.
- **Legacy crew orchestrator** (`IaProcessor`):
  - intent routing with the 0.4 escalation threshold;
  - template-name extraction;
  - per-intent pipeline selection;
  - document-id extraction from the crew's answer;
  - the whole request.
- **Short-term conversation memory** (`MemoryManager`): the update from a crew output and the injection of the context into the history text.

`Common`, `Text` and `Json` hold the shared vocabulary:
- `Option`/`Result` and the conversation turn;
- Python string operations with their edge cases written out (`isspace`, `strip`, `split`, `replace`, `sorted(set(...))`);
- the JSON-like value the Python code passes around as dicts.

Everything outside the program is a function-typed parameter of the model:
- the language models;
- the regular-expression engine;
- MongoDB and GridFS;
- `json.loads`;
- the clock;
- the crew run.

Python's behaviour is written out where it matters:
- truthiness;
- `dict.get` defaults;
- `str.strip` whitespace;
- `.get` on a value that is not a dict, which raises `AttributeError`;
- `sep.join` over a string (its characters) and over a list holding a non-string (`TypeError`);
- `+=` on a message that is not a string;
- an exception swallowed halfway through a sequence of assignments, which leaves the in-process state partly assigned but skips the save that follows them.

The files disagree with each other in places, and the model keeps those disagreements as written. Lemmas then exhibit them:
- the graph nodes read tool results under a nested `data` key, while the tools return flat dicts (`GraphNodes.RequiredFieldsAlwaysEmpty`, `GraphNodes.ReadContentLost`, `GraphNodes.CreatedDocumentIdNotSurfaced`);
- in particular the template lister returns its names at the top level, so the listing reply always says there are no templates and a missing-template error never gains suggestions (`GraphNodes.RealListerNeverLists`);
- the tools never set `error_code` (`GraphNodes.ToolErrorPassedThrough`);
- without a model the router node sets no routed tool call, yet the branch function reads one (`GraphBuilder.NoModelNoAnswer`);
- the memory reads only a nested `data` dict, so the orchestrator stores a generated id that the memory never remembers (`MemoryManager.OutputWithoutDataIgnored`, `IaProcessor.CreatedIdStoredNotRemembered`).

Further facts about the code that the model keeps:
- **Cleaner.** Blank strings become `None` and are dropped from lists. Non-blank strings are kept untrimmed.
- **Missing fields.** No node or tool fills missing collections with empty lists or reports missing scalar fields.
- **Template name of the fill flow.** The fill flow takes the template name from a filename search over the prompt. It does not read the routed tool call's arguments.
- **Generated id.** The final responder can set `None` as the generated document id.
- **Listing branch.** The general-chat flow's listing branch is keyed on the `intent` state key. No node ever sets that key.

## Model

| member | source | states |
|---|---|---|
| Common.LastWithRole | src/tasks/ia_processor.py:64-68 | the index of the last turn with the role, no later turn has that role, and `None` exactly when no turn has it |
| Text.Strip | src/tasks/tools.py:42-44 | the result is empty exactly when the input is whitespace-only in Python's `isspace` sense, carries no surrounding whitespace, and equals an input that has none |
| Text.Split | src/tasks/file_generators.py:81 | one more segment than there are separators, and no segment contains the separator |
| Text.SplitAppend | src/tasks/tools.py:193 | splitting `a + sep + b` gives the segments of `a` followed by those of `b` |
| Text.JoinSplit | src/tasks/file_generators.py:81 | joining the segments of a split with the same separator gives back the text |
| Text.SplitHead | src/tasks/tools.py:252 | the first segment is the prefix before the first separator, or the whole text when there is none |
| Text.SplitLastSegment | src/tasks/tools.py:194 | the last segment of `a + sep + b` is `b` when `b` holds no separator |
| Text.ReplaceAllSkips | src/tasks/tools.py:156 | a prefix without the pattern's first character passes through `replace` untouched |
| Text.LastChars | src/tasks/graph/nodes.py:199 | `s[-n:]`: the last `n` characters, or all of `s` when it is shorter |
| Text.SortedSet | src/utils/docx_placeholders.py:78-82 | `sorted(set(xs))`: strictly increasing in Python's string order and holding exactly the members of the input |
| Text.StrictlySortedDistinct | src/utils/docx_placeholders.py:78-82 | a strictly sorted list holds no duplicates |
| Json.PyGet | src/tasks/graph/nodes.py:153 | `.get` succeeds exactly on a dict, with the dict's value or the default; anything else raises `AttributeError` naming its type |
| Json.PyDataField | src/tasks/graph/nodes.py:156 | the nested lookup succeeds exactly when the value and its `data` entry are dicts, and then is the nested value or the default; otherwise the first non-dict raises |
| Json.FirstNonString | src/tasks/graph/nodes.py:220 | the first position holding a non-string, with only strings before it, or `None` iff every item is a string |
| Json.PyJoin | src/tasks/graph/nodes.py:220 | a list of strings joins its items and a string joins its characters; a list holding a non-string, or a non-iterable, raises `TypeError` |
| ToolResponses.ToDict | src/models/tool_response.py:18-20 | the dict holds exactly the fields whose value is not `None`, each with its value |
| ToolResponses.ToDictKeys | src/models/tool_response.py:18-20 | the key set is `status` plus each optional field that is present, and `status` is always there |
| ToolResponses.Success | src/models/tool_response.py:22-25 | status "success", message and data as given, and no `error_code` in the dict |
| ToolResponses.Error | src/models/tool_response.py:27-30 | status "error", the mandatory message in the dict, and the optional error code and data as given |
| ToolResponses.ParseCode | src/models/tool_response.py:33-40 | only the seven code strings read back, each as the code it names |
| ToolResponses.ErrorCodesClosed | src/models/tool_response.py:33-40 | exactly seven codes with pairwise distinct strings, each of which reads back as itself |
| DocxPlaceholders.ForMap | src/utils/docx_placeholders.py:61 | the keys are exactly the loop variables, and each maps to the collection of its last `for` |
| DocxPlaceholders.BoundCollections | src/utils/docx_placeholders.py:65 | holds exactly the values of the loop map |
| DocxPlaceholders.PlainNames | src/utils/docx_placeholders.py:58 | holds exactly the captured names without a '.' |
| DocxPlaceholders.SubstitutedBases | src/utils/docx_placeholders.py:63-73 | holds exactly the substituted base of each dotted captured name |
| DocxPlaceholders.Inventorize | src/utils/docx_placeholders.py:57-83 | each output field has the members the set algebra gives it, and every list is strictly sorted |
| DocxPlaceholders.Extract | src/utils/docx_placeholders.py:43-55 | an unreadable archive re-raises its error, and otherwise the inventory comes from the runs joined without a separator |
| DocxPlaceholders.VariablesWithinDotted | src/utils/docx_placeholders.py:57-58 | every plain variable is also reported among the dotted names |
| DocxPlaceholders.CollectionsAndVariablesRequired | src/utils/docx_placeholders.py:75 | collections and plain variables are all required names |
| DocxPlaceholders.DottedBaseContribution | src/utils/docx_placeholders.py:63-73 | a dotted base that is a loop variable requires that loop's collection, and any other dotted base requires itself |
| DocxPlaceholders.RequiredNames | src/utils/docx_placeholders.py:63-75 | a name is required iff it is a collection, a plain variable, or a dotted base that is no loop variable |
| DocxPlaceholders.LaterLoopWins | src/utils/docx_placeholders.py:61-65 | a second `for` over the same variable replaces the first, whose collection is then lost |
| DocxPlaceholders.EmptyTemplate | src/utils/docx_placeholders.py:57-83 | a template without placeholders gives an inventory of empty lists, not an error |
| FileTypes.Parse | src/services/intelligent_router.py:21 | exactly "docx", "xlsx" and "pdf" are accepted, each as the format whose extension it is |
| FileTypes.ParseExtension | src/services/intelligent_router.py:21 | every format reads back from its extension |
| FileTypes.Requested | src/tasks/ia_processor.py:140-146 | XLSX exactly when "xlsx", "planilha" or "excel" occurs in the lower-cased text, and PDF only when "pdf" occurs; the same test is repeated in src/tasks/graph/nodes.py:191-197 |
| FileTypes.RequestedCases | src/tasks/ia_processor.py:140-146 | XLSX iff a spreadsheet word occurs, PDF iff none does and "pdf" does, DOCX otherwise |
| FileTypes.SpreadsheetBeatsPdf | src/tasks/ia_processor.py:143-144 | a text naming both a spreadsheet word and "pdf" asks for XLSX |
| FileGenerators.NormalizeTopicos | src/tasks/file_generators.py:17-26 | `None` gives no items, a non-iterable raises the fixed message, and an iterable keeps length and order with `None` items as "" |
| FileGenerators.Cells | src/tasks/file_generators.py:81 | one stripped cell per ';'-separated segment, so as many cells as separators plus one |
| FileGenerators.XlsxRows | src/tasks/file_generators.py:76-83 | never more rows than lines, and every row is the cells of one of the lines |
| FileGenerators.XlsxRowsAppend | src/tasks/file_generators.py:76-83 | the rows of consecutive blocks of lines are the first block's rows followed by the second's, so line order is kept |
| FileGenerators.XlsxRowsOfLine | src/tasks/file_generators.py:79-83 | a blank line gives no row, and any other line gives one row of `;` count plus one cells |
| FileGenerators.CellsRoundTrip | src/tasks/file_generators.py:81 | joining a row of already-trimmed segments with ';' gives back the line |
| Tools.DropNulls | src/tasks/tools.py:49 | the `None`s are removed and every other element is kept with its multiplicity and relative order |
| Tools.CleanEach | src/tasks/tools.py:48 | every element is cleaned in place, and the results are in cleaned form |
| Tools.Clean | src/tasks/tools.py:35-60 | a blank string becomes `None` and any other string is kept untrimmed; a list never grows; a dict keeps its key set; other values are unchanged; the result is in cleaned form |
| Tools.CleanList | src/tasks/tools.py:46-49 | a cleaned list is the element-wise cleaning with exactly the `None`s removed, order kept |
| Tools.CleanDict | src/tasks/tools.py:51-57 | every key survives, also when its value becomes `None`, with its value cleaned |
| Tools.CleanFixesCleaned | src/tasks/tools.py:42-60 | a value in cleaned form is returned unchanged |
| Tools.CleanIdempotent | src/tasks/tools.py:42-60 | cleaning twice is cleaning once |
| Tools.RemoveMarkup | src/tasks/tools.py:252 | no brace, '%' or whitespace is left, and the result is never longer |
| Tools.BlockNameShape | src/tasks/tools.py:252 | the reported name is the longest prefix of the de-marked block without a '\|' or a '.' |
| Tools.ReportedNames | src/tasks/tools.py:250-255 | holds exactly the names of blocks whose name is non-empty and not a control keyword |
| Tools.Inspect | src/tasks/tools.py:231-264 | an unknown template is an error before any parsing, and a read failure is an error with its text; otherwise success with the reported names sorted and unique, and a message exactly when there are none |
| Tools.KeywordsNotReported | src/tasks/tools.py:254 | `if`, `for`, `in`, `endif`, `endfor` and the empty name are never reported |
| Tools.ContentLines | src/tasks/tools.py:193 | every kept line is non-empty and stripped, and there are no more than the text's lines |
| Tools.FileFormat | src/tasks/tools.py:194 | the format is a lower-cased text without '.', and a name without '.' is its own format, lower-cased |
| Tools.ContentLinesAppend | src/tasks/tools.py:193 | the lines of `a + "\n" + b` are the lines of `a` followed by those of `b`, so every line is kept in order |
| Tools.ContentLinesOfLine | src/tasks/tools.py:193 | a single line is kept, stripped, exactly when it is not blank |
| Tools.FileFormatAfterLastDot | src/tasks/tools.py:194 | the format is the text after the last '.', lower-cased |
| Tools.GenerateSimple | src/tasks/tools.py:184-219 | an invalid owner is an error with nothing stored; an unsupported format is an error with nothing stored; a document is stored iff owner, format and storage all succeed, under the given name with the stripped lines; success iff stored |
| Tools.SpreadsheetRows | src/tasks/tools.py:193-205 | an `.xlsx` request stores a spreadsheet with one row per non-blank content line, in order |
| Tools.StoredAsSpreadsheet | src/tasks/tools.py:193-219 | an `.xlsx` request with a valid owner and working storage stores the content lines as a spreadsheet under the given name |
| Tools.RowPerLine | src/tasks/file_generators.py:76-83 | lines without surrounding whitespace give exactly one row each, the cells of that line, in order |
| Tools.ListerOutput | src/tasks/tools.py:271-282 | success with the names at the top level under `templates`, or the error dict with the exception text; never a `data` key |
| Tools.DefaultOutputFilename | src/tasks/tools.py:154-157 | the default name starts with the template name stripped of ".docx" and ".doc", then `_preenchido_` and the date, and its format is always "docx" |
| Tools.OutputFilename | src/tasks/tools.py:154-157 | a given non-empty name is kept, and only an absent or empty one is replaced by the default |
| Tools.DefaultFilenameOfTemplate | src/tasks/tools.py:156-157 | `base.docx` and `base.doc` both default to `base_preenchido_<date>.docx` |
| Tools.FillTemplate | src/tasks/tools.py:124-171 | the owner check comes first, then the template lookup; a stored document has the chosen filename and a cleaned context with the caller's keys; a successful render stores the cleaned context under the chosen name and reports the created dict; a failed render or store reports "Erro excepcional ao preencher o template: " with the exception text and stores nothing; success iff stored |
| LlmFallback.New | src/tasks/llm_fallback.py:18-34 | an empty model list raises `ValueError` with its message; otherwise one unbound runnable per model, in order |
| LlmFallback.BindTools | src/tasks/llm_fallback.py:36-43 | one runnable per model, in model order, each with the same tools bound |
| LlmFallback.BindToolsReplaces | src/tasks/llm_fallback.py:42 | a second binding replaces the first instead of stacking |
| LlmFallback.Classify | src/tasks/llm_fallback.py:62-85 | a reply is accepted iff its finish reason is not SAFETY; the four transient errors retry; a safety block raises `ValueError`; any other error aborts as it is |
| LlmFallback.RunSkipsRetries | src/tasks/llm_fallback.py:75-81 | after `j` recoverable failures the chain continues with the remaining runnables and remembers the last error |
| LlmFallback.FirstDecisiveAttempt | src/tasks/llm_fallback.py:60-85 | the first attempt that is not a recoverable failure decides: its reply is returned or its error raised, and later models are never called |
| LlmFallback.AllRetriedRaisesLast | src/tasks/llm_fallback.py:87-90 | when every model fails recoverably, the last model's error is raised |
| LlmFallback.RunReturnsSafeReply | src/tasks/llm_fallback.py:67-73 | a returned reply was not safety-blocked and is the reply of one of the runnables |
| LlmFallback.Invoke | src/tasks/llm_fallback.py:45-90 | the loop's outcome is the reference chain's; every model before the deciding one failed recoverably; a returned reply is the last attempted model's |
| IntentRouter.ValuesDistinct | src/services/intent_router.py:9-14 | the five intents have distinct string values |
| IntentRouter.PresentGroups | src/services/intent_router.py:54 | holds exactly the groups that are not `None`, never more than there are groups |
| IntentRouter.PresentGroupsAppend | src/services/intent_router.py:54 | the present groups of a concatenation are those of each part, in order |
| IntentRouter.PresentGroupsOfOne | src/services/intent_router.py:54 | a single group is kept exactly when it is not `None` |
| IntentRouter.FirstMatch | src/services/intent_router.py:49-52 | the first pattern in dict order that matches; no earlier pattern matches; `None` iff none does |
| IntentRouter.KeywordRoute | src/services/intent_router.py:72-90 | "template" with a listing word gives listing at 0.7, "template" alone gives fill at 0.6 with clarification, read words give 0.6 before create words do, and otherwise chat at 0.3 requiring a model |
| IntentRouter.Route | src/services/intent_router.py:39-90 | the pattern phase fires iff some pattern matches, with 0.95 and the present groups; the context phase fires iff none matches and the last assistant turn plus a confirming word agree; otherwise the keyword phases decide |
| IntentRouter.ConfidenceLevels | src/services/intent_router.py:49-90 | each of the five confidence levels belongs to exactly one phase |
| IntentRouter.LowConfidenceIffNoRule | src/services/intent_router.py:88-90 | confidence is below 0.4 iff no rule fired, and such a decision is chat requiring a model |
| IntentRouter.PatternsBeatContext | src/services/intent_router.py:49-56 | a matching pattern decides regardless of the history |
| IntentRouter.NoAssistantNoContext | src/services/intent_router.py:59-64 | a history without assistant turns plays no part |
| IntentRouter.OnlyLastAssistantTurn | src/services/intent_router.py:60-66 | only the last assistant turn is consulted for "template" |
| IntentRouter.ListBeatsFill | src/services/intent_router.py:73-76 | a listing word wins over the fill default once "template" is mentioned |
| IntelligentRouter.SchemaNamed | src/services/intelligent_router.py:46 | a name refers to a bound schema iff it is one of the four schema names |
| IntelligentRouter.SchemaNamesRoundTrip | src/services/intelligent_router.py:46 | each bound schema is found back by its name |
| IntelligentRouter.RecentWindow | src/services/intelligent_router.py:63 | the last three turns, or the whole history when shorter |
| IntelligentRouter.Route | src/services/intelligent_router.py:125-137 | no tool call gives general chat with the prompt; otherwise the first call, with later calls ignored |
| IntelligentRouter.OlderTurnsIgnored | src/services/intelligent_router.py:63 | turns older than the last three never influence the decision |
| IntelligentRouter.RouteConforms | src/services/intelligent_router.py:132-137 | the fallback call conforms to its schema, so a model that only answers with conforming calls gives a conforming decision |
| GraphNodes.Apply | src/tasks/graph/nodes.py:9-12 | a node's update overwrites exactly the keys it returns, and the input keys never change |
| GraphNodes.ApplyNoChange | src/tasks/graph/nodes.py:246-248 | the empty update leaves the state as it is |
| GraphNodes.RouterNode | src/tasks/graph/nodes.py:63-83 | without a model only the fixed error reply is set, with no routed call; otherwise the routed call is the router's decision on the prompt, history and attachment flag |
| GraphNodes.FillTemplateFlow | src/tasks/graph/nodes.py:85-139 | no template name gives the request for one; an inspector error passes through as tool output; a JSON failure gives the rephrase request; a non-dict context raises; a dict context gives the filler's output; a node sets either a reply or a tool output, never both |
| GraphNodes.RequiredFieldsAlwaysEmpty | src/tasks/graph/nodes.py:106 | the inspector's names are never found under `data`, so the model is always asked for the keys `[]` |
| GraphNodes.FillTemplateStores | src/tasks/graph/nodes.py:132-139 | a successful fill stores the cleaned context under the default filename and reports the filler's success dict |
| GraphNodes.ReadDocumentFlow | src/tasks/graph/nodes.py:141-168 | no attachment gives the request for one; a non-dict reader result raises; a reader error passes through; a non-dict `data` raises; otherwise the model's answer on the content under `data` |
| GraphNodes.ReadContentLost | src/tasks/graph/nodes.py:156 | a reader dict with its text at the top level reaches the model as the empty text |
| GraphNodes.GeneratedFilename | src/tasks/graph/nodes.py:199 | "documento_gerado_", then the last six characters of the conversation id (all of it when shorter), then '.' and the extension |
| GraphNodes.GeneratedFilenameFormat | src/tasks/graph/nodes.py:199 | the generated name's extension is the requested format, so the generator always accepts it |
| GraphNodes.CreateDocumentFlow | src/tasks/graph/nodes.py:170-207 | the node sets only a tool output, which is a success iff the owner is valid and storage succeeds |
| GraphNodes.CreateDocumentSucceeds | src/tasks/graph/nodes.py:190-207 | a valid owner with working storage stores the content lines in the requested format |
| GraphNodes.GeneralChatFlow | src/tasks/graph/nodes.py:209-237 | without the listing intent, the model's reply; with it, a failing lookup or join raises, an empty list gives the apology, and otherwise the joined list; never a tool output |
| GraphNodes.TemplateListText | src/tasks/graph/nodes.py:218-222 | a falsy value gives the apology; a truthy one gives the intro and the joined items, or raises as the join does |
| GraphNodes.TemplateListing | src/tasks/graph/nodes.py:218-222 | a non-empty list of names is answered with every name on its own bullet |
| GraphNodes.WithSuggestions | src/tasks/graph/nodes.py:264-268 | a lister lookup that raises propagates; an empty list keeps the message; otherwise the joined names follow the suggestion line, appended to a string, extended into a list, or raising on any other message |
| GraphNodes.TemplateListingOfString | src/tasks/graph/nodes.py:218-220 | a string value is listed one character per bullet |
| GraphNodes.RealListerNeverLists | src/tasks/graph/nodes.py:216-222 | with the template lister's own output, the listing reply is always the apology and the suggestions step never changes the message |
| GraphNodes.FinalResponseNode | src/tasks/graph/nodes.py:239-270 | an existing reply is kept; no tool output gives the apology; a non-dict tool output raises; success gives its message and `data.document_id`, raising on a non-dict `data`; errors without the not-found code give their message; the not-found error gives the message with the suggestions step applied |
| GraphNodes.SuggestionsAppended | src/tasks/graph/nodes.py:262-270 | a not-found error with a string message and a non-empty list of names replies with the message followed by the suggestions |
| GraphNodes.SuggestionsOfNames | src/tasks/graph/nodes.py:264-268 | a non-empty list of names is appended to a string message after the suggestion line, one per bullet |
| GraphNodes.CreatedDocumentIdNotSurfaced | src/tasks/graph/nodes.py:254-260 | a tool success with a top-level `document_id` yields its message and a `None` document id |
| GraphNodes.ToolErrorPassedThrough | src/tasks/graph/nodes.py:261-270 | a tool's error dict carries no code, so its message is passed on and the list is never consulted |
| GraphBuilder.Branch | src/tasks/graph/builder.py:57-67 | a tool name has a branch iff it names one of the four schemas, and the branch is a flow node |
| GraphBuilder.BranchIsBijective | src/tasks/graph/builder.py:57-67 | the four schema names all have branches, and distinct schemas go to distinct flows |
| GraphBuilder.EveryFlowReachable | src/tasks/graph/builder.py:57-67 | every flow node is the target of the conditional edge for some schema |
| GraphBuilder.Edge | src/tasks/graph/builder.py:73-79 | every flow leads to the final responder, and the final responder leads to the end |
| GraphBuilder.Dispatch | src/tasks/graph/builder.py:59 | the branch read from a routed tool call, which must be present, exists iff the tool names a schema and is then a flow |
| GraphBuilder.Run | src/tasks/graph/builder.py:42-79 | a completed run visits the router, exactly one flow and the final responder, and it completes iff the routed call exists, has a branch, and no node raises |
| GraphBuilder.NoModelNoAnswer | src/tasks/graph/builder.py:59 | without a model the branch function finds no routed tool call, and the run fails |
| GraphBuilder.RoutedFlowRuns | src/tasks/graph/builder.py:57-67 | a conforming routed call never misses a branch, and a completed run went through the flow its tool names |
| GraphBuilder.GeneralChatCompletes | src/tasks/graph/builder.py:73-79 | a general-chat request with a non-empty reply completes with that reply through router, chat flow and final responder |
| MemoryManager.JoinedTemplates | src/services/memory_manager.py:74 | a list of strings joins its items, a string joins its characters, and anything else fails to join |
| MemoryManager.SingleTemplate | src/services/memory_manager.py:75-76 | the single template of a one-element list, or of a one-character string |
| MemoryManager.RecordDocumentId | src/services/memory_manager.py:79-80 | a truthy `document_id` is remembered and nothing else changes; otherwise nothing changes |
| MemoryManager.RecordTemplates | src/services/memory_manager.py:72-77 | succeeds iff the join does; the list is recorded and the sentence naming it appended; a single template also becomes the main one with its own sentence |
| MemoryManager.ApplyToolData | src/services/memory_manager.py:70-80 | the context only grows; no truthy templates means only the id step runs; a failing join keeps the recorded list and stops; a successful join is followed by the id step |
| MemoryManager.UpdateFromToolOutput | src/services/memory_manager.py:58-84 | the in-process `_state` afterwards: anything but a success dict changes nothing, a non-dict `data` changes nothing, and the context only grows |
| MemoryManager.SavedState | src/services/memory_manager.py:58-84 | the state `_save_state` persists: the in-process state when no exception occurs, the earlier state when the join raises; it differs from the in-process state at most in the available list and never records a list that cannot be joined |
| MemoryManager.InjectContext | src/services/memory_manager.py:86-92 | the history is a prefix of the result, which equals the history iff the context is empty and otherwise ends in the header and the context |
| MemoryManager.FreshStateInjectsNothing | src/services/memory_manager.py:33-38 | a fresh conversation adds nothing to the history text |
| MemoryManager.SuccessData | src/services/memory_manager.py:68-70 | a success dict's `data` dict drives the update |
| MemoryManager.TemplatesOnly | src/services/memory_manager.py:72-77 | a `data` dict holding only joinable templates applies exactly the templates step |
| MemoryManager.ListingRemembered | src/services/memory_manager.py:72-74 | several listed names become the available list, and their sentence is appended with nothing else changed |
| MemoryManager.RecordManyTemplates | src/services/memory_manager.py:72-74 | several names are recorded with one sentence and no main template |
| MemoryManager.SingleListingRemembered | src/services/memory_manager.py:75-77 | a single listed name also becomes the last mentioned template, with a second sentence |
| MemoryManager.CreatedDocumentRemembered | src/services/memory_manager.py:79-80 | a created document's id is remembered and nothing else changes |
| MemoryManager.PartialUpdateOnUnjoinableTemplates | src/services/memory_manager.py:72-84 | an unjoinable list is recorded in the in-process state, but neither the context nor the document id is reached, and the saved memory is unchanged |
| MemoryManager.RepeatedListingGrows | src/services/memory_manager.py:74 | the same listing twice appends its sentence twice, so the update is not idempotent |
| MemoryManager.OutputWithoutDataIgnored | src/services/memory_manager.py:70 | an output without a `data` key, as the tools return it, changes nothing |
| MemoryManager.InjectAfterUpdate | src/services/memory_manager.py:86-92 | after any update the injected text still starts with the history, header and earlier context |
| IaProcessor.RouteIntent | src/tasks/ia_processor.py:60-86 | no user turn gives general chat; low confidence gives the stripped classifier answer with empty metadata; otherwise the hybrid router's intent value and metadata; matched groups only from a pattern match |
| IaProcessor.ModelIffNoRule | src/tasks/ia_processor.py:80-83 | the classifier is asked iff there is a user turn and no rule fires on its text |
| IaProcessor.PatternDecides | src/tasks/ia_processor.py:85-86 | a pattern match fixes the intent and the groups, whatever the classifier would say |
| IaProcessor.ExtractTemplateName | src/tasks/ia_processor.py:111-138 | a non-empty first matched group wins; otherwise the filename search on the last user turn; `None` without one |
| IaProcessor.RoutedNameWins | src/tasks/ia_processor.py:116-120 | the group a fill pattern captured is the template name, and a classifier decision falls back to the search |
| IaProcessor.SpecificPipeline | src/tasks/ia_processor.py:193-247 | fill and read either build their tasks, keeping intent and text, or downgrade to conversation with the text only extended |
| IaProcessor.BuildPipeline | src/tasks/ia_processor.py:183-276 | the task list is never empty, each task takes at most the previous one as context, the intent is kept or downgraded to conversation, and the last task is the reviewer's |
| IaProcessor.CrewMatchesSteps | src/tasks/ia_processor.py:279-281 | the crew is exactly the set of agents the tasks name |
| IaProcessor.FillCases | src/tasks/ia_processor.py:193-209 | with a non-empty name: extraction, filling and review; without one, or with an empty one: conversation with the downgrade note |
| IaProcessor.ReadCases | src/tasks/ia_processor.py:211-247 | a found document is read and presented; no filename means silent conversation, and an unknown document means conversation with a note |
| IaProcessor.CreateCase | src/tasks/ia_processor.py:249-260 | the whole creation pipeline: intent `CRIAR_DOCUMENTO_SIMPLES` and the text kept; the reviewer writes in the format the history text requests, the document specialist creates with the owner in that format from the writing task, the reviewer reviews the creation task; the crew is the reviewer and the document specialist |
| IaProcessor.OtherIntentsConverse | src/tasks/ia_processor.py:262-276 | any other intent string gets the single conversation task |
| IaProcessor.QuotedId | src/tasks/ia_processor.py:306-308 | a found id is 24 hex digits quoted after the key, and there is none iff the pattern matches nowhere |
| IaProcessor.QuotedIdRoundTrip | src/tasks/ia_processor.py:306-308 | an id written after the key is found back |
| IaProcessor.ParseCrewResult | src/tasks/ia_processor.py:292-308 | undecodable text falls back to the id pattern; a parsed reply that is not a success dict with an id gives none; a string id is returned iff valid, and an invalid one escapes |
| IaProcessor.ParsedReplyIgnoresQuotedId | src/tasks/ia_processor.py:297-308 | a quoted id counts only when the text does not parse as JSON, or parses to a success dict whose truthy `document_id` is not a string (the `TypeError` from `ObjectId` falls back to the pattern); a parsed reply that reports no document yields no id |
| IaProcessor.CreatedIdStoredNotRemembered | src/tasks/ia_processor.py:287-302 | a generator's own success dict gives the stored reply its id, but leaves the memory, in process and saved, unchanged |
| IaProcessor.HistoryText | src/tasks/ia_processor.py:180 | the history text is empty for no turns and a single `role: content` line for one turn |
| IaProcessor.HistoryTextCons | src/tasks/ia_processor.py:180 | with more turns, the text is the first turn's line, a newline, then the text of the remaining turns |
| IaProcessor.HistoryTextLines | src/tasks/ia_processor.py:180 | when no turn holds a newline, splitting the history text on newlines gives back exactly one `role: content` line per turn, in order |
| IaProcessor.Process | src/tasks/ia_processor.py:160-335 | a raising crew run fails with the memory unchanged; a run whose answer parses stores it with its id and the memory saved after the update; "Sucesso" or "Falha", failing iff the error reply is stored; a stored id is a valid ObjectId; the memory context only grows |
| IaProcessor.SuccessStoresOutput | src/tasks/ia_processor.py:285-322 | a success stores the crew output verbatim, with the memory saved after the update from that output |
| IaProcessor.InvalidIdFailsAfterMemoryUpdate | src/tasks/ia_processor.py:287-335 | an invalid reported id fails the request after the memory has already been updated and saved |

## Left out

- **I/O and storage.** The following are parameters or absent:
  - MongoDB and GridFS reads and writes;
  - the database write of `_save_state` (which state it writes is `MemoryManager.SavedState`) and `_load_state`, together with the property setters and `init_conversation_states_collection` of the memory manager;
  - message and conversation inserts.
- **Opaque collaborators.** These are function parameters:
  - language-model calls (`llm.invoke`, `chain.invoke`, `runnable.invoke`, `Crew.kickoff`), the router system prompt text, and agent construction;
  - the Python regular-expression engine, as opaque matchers;
  - `datetime.utcnow`, as a date-string parameter.
- **Archives.** ZIP/XML reading and the token regexes of the placeholder extractor are left out, because they are byte-level parsing of a foreign format.
- **Writers.** The bytes produced by the DOCX, XLSX and PDF writers are not modelled. Writer exceptions are folded into the storage outcome.
- **Reading tool.** `FileReaderTool._run` enters the graph nodes as the value it returns, because its work is storage and document parsing. The template lister enters as a value too; `Tools.ListerOutput` gives the dict it returns. `DatabaseQueryTool` is used nowhere in the core and is not modelled.
- **Tool instances.** The graph nodes import lowercase tool instances that `src/tasks/tools.py` does not define. The model treats them as instances of the tool classes.
- Text.Lower: only ASCII letters are lower-cased, because Unicode case mapping is outside the model.
- **Numbers.** Every Python number is an `Int`. The router confidences are Dafny reals. Floating point is not modelled.
- LlmFallback.NamesRepr: Python's `repr` of the model-name list is simplified to single quotes around each name, without escaping.
- Json.PyJoin: a dict is treated as a failing join, although Python would join its keys, because dict key order is not represented. This carries over to `MemoryManager.JoinedTemplates` and to the listings of the graph nodes.
- **Exception texts.** Raised messages follow CPython's wording for `AttributeError` and `TypeError`. The `pydantic` validation error for a non-dict context is shortened to its first line.
- GraphNodes.FinalResponseNode: a list message extended by `+=` is the very list held in the tool output, so Python also grows the state's tool output. The model extends only the reply.
- **History text.** `msg.get('role')` and `msg.get('content')` would render a missing key as `None`. Every modelled turn has both keys, because stored messages are outside the model.
- **Loaded memory state.** A state loaded from the database is assumed to hold all four keys, because loading is outside the model. A stored state with missing keys would make the injection raise `KeyError`. The branch for an output that is not a string is also not modelled, because the orchestrator always passes `str(...)`.
- GraphNodes.RouterNode: the router is called twice and only the second answer is kept. Both calls are modelled as one, because the model call is a pure parameter.
- **Unused state keys.** `generation`, `required_fields` and `suggested_filename` are omitted, because no node reads or writes them.
- IaProcessor.Process: only two failures are modelled: the crew run raising, and an invalid id escaping. The following failures are not modelled, because they happen in storage or agent code outside the model:
  - the message lookup failing, including `ObjectId(message_id)`;
  - agent creation;
  - the classifier crew raising;
  - `ObjectId(user_id)` failing in the document lookup or the insert.

  The generated id is kept as its string.
- IaProcessor.ParseCrewResult: the `str(resultado_crew)` conversion is the identity, because the crew output is modelled as text.
- Tools.GenerateSimple: `_to_objectid_if_possible` is modelled as the 24-hex-digit check on the owner string, because the owner always arrives as a string.
- Text.IsObjectIdString: `ObjectId(str)` is modelled as "exactly 24 hexadecimal digits" wherever the code converts a string: the owner checks of `Tools.GenerateSimple`, `Tools.FillTemplate` and `GraphNodes.CreateDocumentFlow`, and the id check of `IaProcessor.ParseCrewResult`. bson decodes with `bytes.fromhex`, which skips ASCII whitespace between digit pairs, so bson does not reject some 24-character strings holding spaces, such as `"aabbccddeeff00112233  44"`, which the model rejects; the byte-level decoder is outside the model.

=== FILE: common.dfy ===
/** Small shared vocabulary: optional values, results, and the conversation
    turn record that every router and orchestrator reads. */
module Common {

  /** Python's `None` / a present value. */
  datatype Option<+T> = None | Some(value: T)
  {
    function GetOr(default: T): T
    {
      match this
      case Some(v) => v
      case None => default
    }
  }

  /** A computation that either produced a value or raised. */
  datatype Result<+T, +E> = Ok(value: T) | Err(error: E)

  /** One stored chat message. `content` is what `msg.get('content', '')`
      yields, so a message without content is represented with "". */
  datatype Turn = Turn(role: string, content: string)

  /** Index of the last turn whose role is `role`, if any: the Python idiom
      `next((m for m in reversed(history) if m.get('role') == role), None)`. */
  function LastWithRole(history: seq<Turn>, role: string): (r: Option<nat>)
    ensures r.Some? ==> r.value < |history| && history[r.value].role == role
    ensures r.Some? ==> forall j :: r.value < j < |history| ==> history[j].role != role
    ensures r.None? <==> forall j :: 0 <= j < |history| ==> history[j].role != role
  {
    if |history| == 0 then None
    else if history[|history| - 1].role == role then Some(|history| - 1)
    else LastWithRole(history[..|history| - 1], role)
  }
}

=== FILE: docx_placeholders.dfy ===
/** The placeholder inventory of a DOCX template
    (src/utils/docx_placeholders.py). Reading the archive and the two regular
    expressions are collaborators: the archive read yields the text runs of
    the document parts (or the exception it raised), and the regexes are
    functions from the reconstructed text to their `findall` captures. */
module DocxPlaceholders {
  import opened Common
  import opened Text

  /** `re.findall` over `{% for var in coll %}`: (loop variable, collection) pairs. */
  type LoopFinder = string -> seq<(string, string)>
  /** `re.findall` over `{{ name }}` / `{{ name.attr | filter }}`: captured names. */
  type NameFinder = string -> seq<string>

  datatype Inventory = Inventory(
    variables: seq<string>,
    collections: seq<string>,
    dotted: seq<string>,
    forMap: map<string, string>,
    allBases: seq<string>)

  /** Binding `i` is the last `for` over its loop variable. */
  predicate IsLastBinding(loops: seq<(string, string)>, i: int)
  {
    0 <= i < |loops| && forall j :: i < j < |loops| ==> loops[j].0 != loops[i].0
  }

  /** Some `for` binds `v`. */
  predicate IsLoopVariable(loops: seq<(string, string)>, v: string)
  {
    exists i :: 0 <= i < |loops| && loops[i].0 == v
  }

  /** The loop variables of a non-empty list: those of all but the last
      binding, plus the last binding's. */
  lemma LoopVariablesSnoc(loops: seq<(string, string)>)
    requires |loops| > 0
    ensures forall v :: IsLoopVariable(loops, v) <==>
      IsLoopVariable(loops[..|loops| - 1], v) || v == loops[|loops| - 1].0
  {
    var init := loops[..|loops| - 1];
    forall v | IsLoopVariable(loops, v) && v != loops[|loops| - 1].0 ensures IsLoopVariable(init, v) {
      var i :| 0 <= i < |loops| && loops[i].0 == v;
      assert init[i].0 == v;
    }
    forall v | IsLoopVariable(init, v) ensures IsLoopVariable(loops, v) {
      var i :| 0 <= i < |init| && init[i].0 == v;
      assert loops[i].0 == v;
    }
  }

  /** `{var: coll for (var, coll) in loops}`: every loop variable is a key,
      and it maps to the collection of its LAST occurrence. */
  function ForMap(loops: seq<(string, string)>): (m: map<string, string>)
    ensures forall v :: v in m <==> IsLoopVariable(loops, v)
    ensures forall i :: IsLastBinding(loops, i) ==> loops[i].0 in m && m[loops[i].0] == loops[i].1
  {
    if |loops| == 0 then map[]
    else
      var init := loops[..|loops| - 1];
      var last := loops[|loops| - 1];
      var m := ForMap(init)[last.0 := last.1];
      LoopVariablesSnoc(loops);
      assert forall i :: IsLastBinding(loops, i) && i < |loops| - 1 ==> IsLastBinding(init, i);
      m
  }

  /** The collection each binding ends up mapped to; together they are
      exactly `for_map.values()`. */
  function BoundCollections(loops: seq<(string, string)>): (r: seq<string>)
    ensures forall c :: c in r <==> c in ForMap(loops).Values
  {
    var m := ForMap(loops);
    var r := seq(|loops|, i requires 0 <= i < |loops| => m[loops[i].0]);
    assert forall c :: c in m.Values ==> c in r by {
      forall c | c in m.Values ensures c in r {
        var v :| v in m && m[v] == c;
        var i :| 0 <= i < |loops| && loops[i].0 == v;
        assert r[i] == c;
      }
    }
    r
  }

  /** Captured names with no '.' in them. */
  function PlainNames(names: seq<string>): (r: seq<string>)
    ensures forall x :: x in r <==> x in names && '.' !in x
  {
    if |names| == 0 then []
    else
      var rest := PlainNames(names[1..]);
      assert forall x :: x in names <==> x == names[0] || x in names[1..] by {
        assert names == [names[0]] + names[1..];
      }
      if '.' in names[0] then rest else [names[0]] + rest
  }

  /** The part of a dotted name before its first '.': `d.split('.')[0]`. */
  function Base(d: string): string
  {
    Split(d, '.')[0]
  }

  /** The required top-level name a dotted reference contributes: its loop's
      collection when the base is a loop variable, otherwise the base itself. */
  function Substitute(base: string, forMap: map<string, string>): string
  {
    if base in forMap then forMap[base] else base
  }

  /** `substituted_bases`, one entry per dotted captured name. */
  function SubstitutedBases(names: seq<string>, forMap: map<string, string>): (r: seq<string>)
    ensures forall x :: x in r <==>
      exists d :: d in names && '.' in d && x == Substitute(Base(d), forMap)
  {
    if |names| == 0 then []
    else
      var rest := SubstitutedBases(names[1..], forMap);
      assert forall d :: d in names <==> d == names[0] || d in names[1..] by {
        assert names == [names[0]] + names[1..];
      }
      if '.' in names[0] then [Substitute(Base(names[0]), forMap)] + rest else rest
  }

  /** The set algebra applied to the two capture lists (lines 57-83). */
  function Inventorize(loops: seq<(string, string)>, names: seq<string>): (inv: Inventory)
    ensures inv.forMap == ForMap(loops)
    ensures forall x :: x in inv.variables <==> x in names && '.' !in x
    ensures forall x :: x in inv.dotted <==> x in names
    ensures forall x :: x in inv.collections <==> x in inv.forMap.Values
    ensures forall x :: x in inv.allBases <==>
      x in inv.collections || x in inv.variables || x in SubstitutedBases(names, inv.forMap)
    ensures StrictlySorted(inv.variables) && StrictlySorted(inv.collections)
    ensures StrictlySorted(inv.dotted) && StrictlySorted(inv.allBases)
  {
    var forMap := ForMap(loops);
    var plain := PlainNames(names);
    var colls := BoundCollections(loops);
    var subst := SubstitutedBases(names, forMap);
    Inventory(
      SortedSet(plain),
      SortedSet(colls),
      SortedSet(names),
      forMap,
      SortedSet(colls + plain + subst))
  }

  /** `extract_placeholders_from_docx_bytes`: an unreadable archive re-raises;
      otherwise the regexes run over the runs joined without a separator. */
  function Extract(archive: Result<seq<string>, string>, findLoops: LoopFinder, findNames: NameFinder)
    : (r: Result<Inventory, string>)
    ensures archive.Err? ==> r == Err(archive.error)
    ensures archive.Ok? ==> r.Ok?
    ensures archive.Ok? ==>
      var text := Join(archive.value, "");
      r.value == Inventorize(findLoops(text), findNames(text))
  {
    match archive
    case Err(e) => Err(e)
    case Ok(runs) =>
      var text := Join(runs, "");
      Ok(Inventorize(findLoops(text), findNames(text)))
  }

  // ---------------------------------------------------------------------
  // Properties of the inventory
  // ---------------------------------------------------------------------

  /** Every plain variable is also reported among the dotted names. */
  lemma VariablesWithinDotted(loops: seq<(string, string)>, names: seq<string>)
    ensures var inv := Inventorize(loops, names);
      forall x :: x in inv.variables ==> x in inv.dotted
  {
  }

  /** Collections and plain variables are both required top-level names. */
  lemma CollectionsAndVariablesRequired(loops: seq<(string, string)>, names: seq<string>)
    ensures var inv := Inventorize(loops, names);
      (forall x :: x in inv.collections ==> x in inv.allBases)
      && (forall x :: x in inv.variables ==> x in inv.allBases)
  {
  }

  /** A dotted name whose base is a loop variable requires that loop's
      collection (the one of the variable's last `for`), never the loop
      variable itself; any other dotted base is required as it is. */
  lemma {:induction false} DottedBaseContribution(loops: seq<(string, string)>, names: seq<string>, d: string)
    requires d in names && '.' in d
    ensures var inv := Inventorize(loops, names);
      var b := Base(d);
      (b in inv.forMap ==> inv.forMap[b] in inv.allBases && inv.forMap[b] in inv.collections)
      && (b !in inv.forMap ==> b in inv.allBases)
  {
    var inv := Inventorize(loops, names);
    assert Substitute(Base(d), inv.forMap) in SubstitutedBases(names, inv.forMap);
  }

  /** The required set is the collections, the plain variables and the
      dotted bases that are not loop variables: a substituted base never adds
      a name that is not already a collection. */
  lemma {:induction false} RequiredNames(loops: seq<(string, string)>, names: seq<string>, x: string)
    ensures var inv := Inventorize(loops, names);
      x in inv.allBases <==>
        || x in inv.collections
        || x in inv.variables
        || (exists d :: d in names && '.' in d && Base(d) == x && x !in inv.forMap)
  {
    var inv := Inventorize(loops, names);
    if x in SubstitutedBases(names, inv.forMap) {
      var d :| d in names && '.' in d && x == Substitute(Base(d), inv.forMap);
      if Base(d) in inv.forMap {
        assert x in inv.forMap.Values;
      }
    }
    if exists d :: d in names && '.' in d && Base(d) == x && x !in inv.forMap {
      var d :| d in names && '.' in d && Base(d) == x && x !in inv.forMap;
      assert Substitute(Base(d), inv.forMap) == x;
    }
  }

  /** A later `for` over the same loop variable replaces an earlier one: the
      earlier collection is no longer a collection. */
  lemma LaterLoopWins(v: string, first: string, second: string)
    requires first != second
    ensures var inv := Inventorize([(v, first), (v, second)], []);
      inv.forMap == map[v := second] && second in inv.collections && first !in inv.collections
  {
    var loops := [(v, first), (v, second)];
    var inv := Inventorize(loops, []);
    assert IsLastBinding(loops, 1);
    assert inv.forMap.Keys == {v};
    assert inv.forMap == map[v := second];
  }

  /** A template without placeholders yields an empty inventory, not an error. */
  lemma EmptyTemplate(runs: seq<string>, findLoops: LoopFinder, findNames: NameFinder)
    requires findLoops(Join(runs, "")) == [] && findNames(Join(runs, "")) == []
    ensures Extract(Ok(runs), findLoops, findNames)
      == Ok(Inventory([], [], [], map[], []))
  {
  }
}

=== FILE: file_generators.dfy ===
/** The input normalisation shared by the DOCX/XLSX/PDF writers and the
    spreadsheet row splitting (src/tasks/file_generators.py). The writers'
    byte output is not modelled. */
module FileGenerators {
  import opened Common
  import opened Text

  /** One element of the `topicos` iterable: Python `None`, or any other
      object given by the text `str(item)` produces for it. */
  datatype Topico = PyNone | PyObject(text: string)

  /** The `topicos` argument: `None`, an iterable of items, or an object
      that cannot be iterated. */
  datatype TopicosArg = NoTopicos | Items(items: seq<Topico>) | NotIterable

  const NotIterableMessage := "topicos deve ser um iterável ou None"

  function TopicoText(t: Topico): string
  {
    match t
    case PyNone => ""
    case PyObject(s) => s
  }

  /** `_normalize_topicos`. */
  function NormalizeTopicos(arg: TopicosArg): (r: Result<seq<string>, string>)
    ensures arg.NoTopicos? ==> r == Ok([])
    ensures arg.NotIterable? ==> r == Err(NotIterableMessage)
    ensures arg.Items? ==> r.Ok? && |r.value| == |arg.items|
    ensures arg.Items? ==> forall i :: 0 <= i < |arg.items| ==>
      (arg.items[i].PyNone? ==> r.value[i] == "")
      && (arg.items[i].PyObject? ==> r.value[i] == arg.items[i].text)
  {
    match arg
    case NoTopicos => Ok([])
    case NotIterable => Err(NotIterableMessage)
    case Items(items) => Ok(seq(|items|, i requires 0 <= i < |items| => TopicoText(items[i])))
  }

  /** One spreadsheet row: the `;`-separated segments of a line, each stripped. */
  function Cells(line: string): (r: seq<string>)
    ensures |r| == Count(line, ';') + 1
    ensures forall i :: 0 <= i < |r| ==> r[i] == Strip(Split(line, ';')[i])
  {
    var parts := Split(line, ';');
    seq(|parts|, i requires 0 <= i < |parts| => Strip(parts[i]))
  }

  /** The row each line would give, line by line. */
  function CellsOf(lines: seq<string>): (r: seq<seq<string>>)
    ensures |r| == |lines|
    ensures forall i :: 0 <= i < |lines| ==> r[i] == Cells(lines[i])
  {
    seq(|lines|, i requires 0 <= i < |lines| => Cells(lines[i]))
  }

  /** The rows `criar_xlsx_stream` appends: blank lines are skipped, and
      every row is the cells of one of the lines. */
  function XlsxRows(lines: seq<string>): (rows: seq<seq<string>>)
    ensures |rows| <= |lines|
    ensures forall k :: 0 <= k < |rows| ==> rows[k] in CellsOf(lines)
  {
    if |lines| == 0 then []
    else
      var rest := XlsxRows(lines[1..]);
      assert CellsOf(lines) == [Cells(lines[0])] + CellsOf(lines[1..]);
      if Strip(lines[0]) != "" then [Cells(lines[0])] + rest else rest
  }

  /** Row order follows line order: the rows of two consecutive blocks of
      lines are the rows of the first block followed by those of the second. */
  lemma {:induction false} XlsxRowsAppend(a: seq<string>, b: seq<string>)
    ensures XlsxRows(a + b) == XlsxRows(a) + XlsxRows(b)
  {
    if |a| > 0 {
      assert (a + b)[1..] == a[1..] + b;
      assert (a + b)[0] == a[0];
      XlsxRowsAppend(a[1..], b);
    } else {
      assert a + b == b;
    }
  }

  /** A blank line contributes no row; a non-blank one contributes exactly
      one row with one cell per `;`-separated segment. */
  lemma XlsxRowsOfLine(line: string)
    ensures IsBlank(line) ==> XlsxRows([line]) == []
    ensures !IsBlank(line) ==> XlsxRows([line]) == [Cells(line)]
    ensures !IsBlank(line) ==> |XlsxRows([line])[0]| == Count(line, ';') + 1
  {
    assert [line][1..] == [];
  }

  /** When no segment of a line carries surrounding whitespace, joining the
      row's cells with ';' gives back the line. */
  lemma CellsRoundTrip(line: string)
    requires forall i :: 0 <= i < |Split(line, ';')| ==> Strip(Split(line, ';')[i]) == Split(line, ';')[i]
    ensures Join(Cells(line), ";") == line
  {
    assert Cells(line) == Split(line, ';');
    JoinSplit(line, ';');
  }
}

=== FILE: file_types.dfy ===
/** The three output formats a generated document can take, and the keyword
    rule both orchestrators use to pick one from the user's wording
    (src/tasks/ia_processor.py `_extrair_extensao_desejada`, repeated inline
    in src/tasks/graph/nodes.py `create_document_flow_node`). */
module FileTypes {
  import opened Common
  import opened Text

  datatype FileType = Docx | Xlsx | Pdf

  function Extension(t: FileType): string
  {
    match t
    case Docx => "docx"
    case Xlsx => "xlsx"
    case Pdf => "pdf"
  }

  /** The `Literal["docx", "xlsx", "pdf"]` check: exactly three strings are
      accepted, and each reads back as the format it names. */
  function Parse(s: string): (r: Option<FileType>)
    ensures r.Some? <==> s == "docx" || s == "xlsx" || s == "pdf"
    ensures r.Some? ==> Extension(r.value) == s
  {
    if s == "docx" then Some(Docx)
    else if s == "xlsx" then Some(Xlsx)
    else if s == "pdf" then Some(Pdf)
    else None
  }

  lemma {:induction false} ParseExtension(t: FileType)
    ensures Parse(Extension(t)) == Some(t)
  {
    match t
    case Docx =>
    case Xlsx =>
    case Pdf =>
  }

  const SpreadsheetWords: seq<string> := ["xlsx", "planilha", "excel"]

  /** The format a request asks for: spreadsheet words win over "pdf", and
      everything else is a DOCX. */
  function Requested(text: string): (r: FileType)
    ensures r == Xlsx <==>
      Contains(Lower(text), "xlsx") || Contains(Lower(text), "planilha") || Contains(Lower(text), "excel")
    ensures r == Pdf ==> Contains(Lower(text), "pdf")
  {
    var t := Lower(text);
    assert ContainsAny(t, SpreadsheetWords) <==> Contains(t, "xlsx") || Contains(t, "planilha") || Contains(t, "excel") by {
      assert SpreadsheetWords[0] == "xlsx" && SpreadsheetWords[1] == "planilha" && SpreadsheetWords[2] == "excel";
    }
    if ContainsAny(t, SpreadsheetWords) then Xlsx
    else if Contains(t, "pdf") then Pdf
    else Docx
  }

  /** The three outcomes of `Requested`, each with the exact condition that
      produces it. */
  lemma RequestedCases(text: string)
    ensures Requested(text) == Xlsx <==> ContainsAny(Lower(text), SpreadsheetWords)
    ensures Requested(text) == Pdf <==>
      !ContainsAny(Lower(text), SpreadsheetWords) && Contains(Lower(text), "pdf")
    ensures Requested(text) == Docx <==>
      !ContainsAny(Lower(text), SpreadsheetWords) && !Contains(Lower(text), "pdf")
  {
  }

  /** A text that mentions both a spreadsheet word and "pdf" asks for XLSX. */
  lemma SpreadsheetBeatsPdf(text: string, w: string)
    requires w in SpreadsheetWords && Contains(Lower(text), w) && Contains(Lower(text), "pdf")
    ensures Requested(text) == Xlsx
  {
    var i :| 0 <= i < |SpreadsheetWords| && SpreadsheetWords[i] == w;
  }
}

=== FILE: graph_builder.dfy ===
/** The topology of the request graph (src/tasks/graph/builder.py): entry at
    the router, a conditional branch on the routed tool's name to one of four
    flows, and every flow converging on the final responder before the end. */
module GraphBuilder {
  import opened Common
  import opened Json
  import GraphNodes
  import IntelligentRouter

  datatype Node = Router | FillTemplateFlow | ReadDocumentFlow | CreateDocumentFlow | GeneralChatFlow | FinalResponder

  function NodeName(n: Node): string
  {
    match n
    case Router => "router"
    case FillTemplateFlow => "fill_template_flow"
    case ReadDocumentFlow => "read_document_flow"
    case CreateDocumentFlow => "create_document_flow"
    case GeneralChatFlow => "general_chat_flow"
    case FinalResponder => "final_responder"
  }

  const Entry: Node := Router

  predicate IsFlow(n: Node)
  {
    n.FillTemplateFlow? || n.ReadDocumentFlow? || n.CreateDocumentFlow? || n.GeneralChatFlow?
  }

  /** The conditional edge map out of the router, keyed by tool name. */
  function Branch(tool: string): (r: Option<Node>)
    ensures r.Some? <==> IntelligentRouter.SchemaNamed(tool).Some?
    ensures r.Some? ==> IsFlow(r.value)
  {
    if tool == "FillTemplate" then Some(FillTemplateFlow)
    else if tool == "CreateDocument" then Some(CreateDocumentFlow)
    else if tool == "ReadDocument" then Some(ReadDocumentFlow)
    else if tool == "GeneralChat" then Some(GeneralChatFlow)
    else None
  }

  /** The map covers exactly the four bound schemas and sends them to four
      distinct flows. */
  lemma BranchIsBijective(a: IntelligentRouter.Schema, b: IntelligentRouter.Schema)
    ensures Branch(IntelligentRouter.SchemaName(a)).Some?
    ensures a != b ==> Branch(IntelligentRouter.SchemaName(a)) != Branch(IntelligentRouter.SchemaName(b))
  {
  }

  /** Every flow node is the target of the conditional edge for some tool
      schema, so the router can send a request to it. */
  lemma EveryFlowReachable(n: Node)
    requires IsFlow(n)
    ensures exists s: IntelligentRouter.Schema :: Branch(IntelligentRouter.SchemaName(s)) == Some(n)
  {
    match n
    case FillTemplateFlow => assert Branch(IntelligentRouter.SchemaName(IntelligentRouter.FillTemplateSchema)) == Some(n);
    case ReadDocumentFlow => assert Branch(IntelligentRouter.SchemaName(IntelligentRouter.ReadDocumentSchema)) == Some(n);
    case CreateDocumentFlow => assert Branch(IntelligentRouter.SchemaName(IntelligentRouter.CreateDocumentSchema)) == Some(n);
    case GeneralChatFlow => assert Branch(IntelligentRouter.SchemaName(IntelligentRouter.GeneralChatSchema)) == Some(n);
  }

  /** The unconditional edges: flows to the final responder, the final
      responder to the end (`None`). */
  function Edge(n: Node): (r: Option<Node>)
    requires n != Router
    ensures IsFlow(n) <==> r == Some(FinalResponder)
    ensures n == FinalResponder <==> r.None?
  {
    if n == FinalResponder then None else Some(FinalResponder)
  }

  /** The branch function `state["routed_tool_call"]["tool"]`; the state
      must carry a routed tool call. */
  function Dispatch(s: GraphNodes.GraphState): (r: Option<Node>)
    requires s.routedToolCall.Some?
    ensures r.Some? <==> IntelligentRouter.SchemaNamed(s.routedToolCall.value.name).Some?
    ensures r.Some? ==> IsFlow(r.value) && NodeName(r.value) != "final_responder"
  {
    Branch(s.routedToolCall.value.name)
  }

  datatype RunError =
    | MissingRoutedToolCall
    | UnknownBranch(tool: string)
    | NodeRaised(node: Node, message: string)

  /** One flow node's update. */
  function RunFlow(n: Node, s: GraphNodes.GraphState, env: GraphNodes.Env): GraphNodes.NodeResult
    requires IsFlow(n)
  {
    match n
    case FillTemplateFlow => GraphNodes.FillTemplateFlow(s, env)
    case ReadDocumentFlow => GraphNodes.ReadDocumentFlow(s, env)
    case CreateDocumentFlow => GraphNodes.Updated(GraphNodes.CreateDocumentFlow(s, env))
    case GeneralChatFlow => GraphNodes.GeneralChatFlow(s, env)
  }

  /** A finished run: the final state and the nodes visited, in order. */
  datatype Finished = Finished(state: GraphNodes.GraphState, trace: seq<Node>)

  /** One invocation of the compiled graph from an initial state. */
  function Run(s0: GraphNodes.GraphState, env: GraphNodes.Env): (r: Result<Finished, RunError>)
    ensures r.Ok? ==> (|r.value.trace| == 3 && r.value.trace[0] == Entry
                       && IsFlow(r.value.trace[1]) && r.value.trace[2] == FinalResponder)
    ensures var s1 := GraphNodes.Apply(s0, GraphNodes.RouterNode(s0, env));
      r.Ok? <==> && s1.routedToolCall.Some?
                 && Branch(s1.routedToolCall.value.name).Some?
                 && RunFlow(Branch(s1.routedToolCall.value.name).value, s1, env).Updated?
                 && GraphNodes.FinalResponseNode(
                      GraphNodes.Apply(s1, RunFlow(Branch(s1.routedToolCall.value.name).value, s1, env).update),
                      env).Updated?
  {
    var s1 := GraphNodes.Apply(s0, GraphNodes.RouterNode(s0, env));
    if s1.routedToolCall.None? then Err(MissingRoutedToolCall)
    else
      match Dispatch(s1)
      case None => Err(UnknownBranch(s1.routedToolCall.value.name))
      case Some(flow) =>
        match RunFlow(flow, s1, env)
        case Raised(m) => Err(NodeRaised(flow, m))
        case Updated(u) =>
          var s2 := GraphNodes.Apply(s1, u);
          match GraphNodes.FinalResponseNode(s2, env)
          case Raised(m) => Err(NodeRaised(FinalResponder, m))
          case Updated(v) => Ok(Finished(GraphNodes.Apply(s2, v), [Router, flow, FinalResponder]))
  }

  /** Without a model the router only sets the error reply, and the branch
      that follows has no routed tool call to read: the run fails instead of
      answering. */
  lemma NoModelNoAnswer(s0: GraphNodes.GraphState, env: GraphNodes.Env)
    requires !env.llmAvailable && s0.routedToolCall.None?
    ensures Run(s0, env) == Err(MissingRoutedToolCall)
  {
  }

  /** With a model, the flow is the one the routed tool names: a tool the
      router invents is the only way to miss a branch. */
  lemma RoutedFlowRuns(s0: GraphNodes.GraphState, env: GraphNodes.Env)
    requires env.llmAvailable
    ensures var s1 := GraphNodes.Apply(s0, GraphNodes.RouterNode(s0, env));
      var call := s1.routedToolCall.value;
      && (IntelligentRouter.ConformsToSchema(call) ==> Run(s0, env) != Err(UnknownBranch(call.name)))
      && (Run(s0, env).Ok? ==> Run(s0, env).value.trace[1] == Branch(call.name).value)
  {
  }

  /** A general-chat request always completes with the chat reply, which
      the final responder leaves untouched when it is non-empty. */
  lemma GeneralChatCompletes(s0: GraphNodes.GraphState, env: GraphNodes.Env)
    requires env.llmAvailable && s0.intent != Some("LISTAR_TEMPLATES")
    requires GraphNodes.RouterNode(s0, env).routedToolCall.value.name == "GeneralChat"
    requires env.chatReply(s0.conversationHistory, s0.prompt) != ""
    ensures Run(s0, env).Ok?
    ensures Run(s0, env).value.state.finalResponse == Str(env.chatReply(s0.conversationHistory, s0.prompt))
    ensures Run(s0, env).value.trace == [Router, GeneralChatFlow, FinalResponder]
  {
    var reply := env.chatReply(s0.conversationHistory, s0.prompt);
    var s1 := GraphNodes.Apply(s0, GraphNodes.RouterNode(s0, env));
    assert Dispatch(s1) == Some(GeneralChatFlow);
    var u := GraphNodes.GeneralChatFlow(s1, env).update;
    var s2 := GraphNodes.Apply(s1, u);
    assert s2.finalResponse == Str(reply);
    assert GraphNodes.FinalResponseNode(s2, env) == GraphNodes.Updated(GraphNodes.NoChange);
    RunThrough(s0, env, GeneralChatFlow, u);
    GraphNodes.ApplyNoChange(s2);
  }

  /** A run whose flow updates and whose final responder leaves the state
      alone finishes in the flow's state. */
  lemma RunThrough(s0: GraphNodes.GraphState, env: GraphNodes.Env, flow: Node, u: GraphNodes.Update)
    requires var s1 := GraphNodes.Apply(s0, GraphNodes.RouterNode(s0, env));
      && s1.routedToolCall.Some? && Dispatch(s1) == Some(flow)
      && RunFlow(flow, s1, env) == GraphNodes.Updated(u)
      && GraphNodes.FinalResponseNode(GraphNodes.Apply(s1, u), env) == GraphNodes.Updated(GraphNodes.NoChange)
    ensures var s2 := GraphNodes.Apply(GraphNodes.Apply(s0, GraphNodes.RouterNode(s0, env)), u);
      Run(s0, env) == Ok(Finished(GraphNodes.Apply(s2, GraphNodes.NoChange), [Router, flow, FinalResponder]))
  {
  }
}

=== FILE: graph_nodes.dfy ===
/** The nodes of the request graph (src/tasks/graph/nodes.py) over the state
    record of src/tasks/graph/state.py. Each node maps a state to the keys it
    updates. Model calls, the prompt's filename search, the file reader and
    the template lister are collaborators gathered in `Env`; the inspector,
    filler and simple generator are the `Tools` model, fed by their own
    storage collaborators. */
module GraphNodes {
  import opened Common
  import opened Text
  import opened Json
  import FileTypes
  import Tools
  import IntelligentRouter

  /** The keys of `GraphState` the nodes read or write. `Null` stands for a
      key that is absent or `None`. `generation`, `required_fields` and
      `suggested_filename` are never read or written by a node. */
  datatype GraphState = GraphState(
    userId: string,
    conversationId: string,
    prompt: string,
    inputDocumentId: Option<string>,
    conversationHistory: seq<Turn>,
    intent: Option<string>,
    routedToolCall: Option<IntelligentRouter.ToolCall>,
    toolOutput: Value,
    finalResponse: Value,
    generatedDocumentId: Value)

  /** The dict a node returns: a `Some` field is a key it sets. */
  datatype Update = Update(
    finalResponse: Option<Value>,
    toolOutput: Option<Value>,
    routedToolCall: Option<IntelligentRouter.ToolCall>,
    generatedDocumentId: Option<Value>)

  const NoChange := Update(None, None, None, None)

  function SetFinal(text: string): Update
  {
    Update(Some(Str(text)), None, None, None)
  }

  function SetToolOutput(v: Value): Update
  {
    Update(None, Some(v), None, None)
  }

  /** A node either returns its update or lets an exception escape. */
  datatype NodeResult = Updated(update: Update) | Raised(message: string)

  /** The graph merges a node's update into the state key by key. */
  function Apply(s: GraphState, u: Update): (t: GraphState)
    ensures t.userId == s.userId && t.conversationId == s.conversationId && t.prompt == s.prompt
    ensures t.inputDocumentId == s.inputDocumentId && t.conversationHistory == s.conversationHistory
    ensures t.intent == s.intent
    ensures t.finalResponse == u.finalResponse.GetOr(s.finalResponse)
    ensures t.toolOutput == u.toolOutput.GetOr(s.toolOutput)
    ensures t.routedToolCall == (if u.routedToolCall.Some? then u.routedToolCall else s.routedToolCall)
    ensures t.generatedDocumentId == u.generatedDocumentId.GetOr(s.generatedDocumentId)
  {
    s.(finalResponse := u.finalResponse.GetOr(s.finalResponse),
       toolOutput := u.toolOutput.GetOr(s.toolOutput),
       routedToolCall := if u.routedToolCall.Some? then u.routedToolCall else s.routedToolCall,
       generatedDocumentId := u.generatedDocumentId.GetOr(s.generatedDocumentId))
  }

  lemma ApplyNoChange(s: GraphState)
    ensures Apply(s, NoChange) == s
  {
  }

  /** The collaborators the nodes call. */
  datatype Env = Env(
    llmAvailable: bool,
    routerLlm: IntelligentRouter.RoutingRequest -> seq<IntelligentRouter.ToolCall>,
    templateInPrompt: string -> Option<string>,
    templateFound: string -> bool,
    templateBlocks: string -> Result<seq<string>, string>,
    generateJson: (seq<Turn>, string, string, Value) -> Result<Value, string>,
    renderAndStore: string -> (Value, string) -> Result<string, string>,
    today: string,
    readDocument: string -> Value,
    answer: (string, Value) -> string,
    writeContent: (seq<Turn>, string) -> string,
    storeSimple: (string, string) -> Result<string, string>,
    lister: Value,
    chatReply: (seq<Turn>, string) -> string)

  const LlmUnavailableMessage := "Erro crítico: O modelo de linguagem (LLM) não está disponível."
  const NoTemplateMessage := "Não consegui identificar qual template você gostaria de usar. Por favor, mencione o nome completo do arquivo (ex: 'proposta_comercial.docx')."
  const JsonFailureMessage := "Tive um problema ao estruturar os dados para o seu documento. Você poderia tentar reformular seu pedido?"
  const AttachMessage := "Por favor, anexe um documento para que eu possa lê-lo."
  const ListIntro := "Claro! Os templates disponíveis são:\n- "
  const NoTemplatesMessage := "No momento, não há templates disponíveis no sistema."
  const NotProcessedMessage := "Desculpe, não consegui processar seu pedido."
  const SuccessDefault := "Sua solicitação foi processada com sucesso!"
  const ErrorDefault := "Ocorreu um erro desconhecido."
  const SuggestIntro := "\n\nQue tal tentar um destes?:\n- "
  const ContextNotDictMessage := "context: Input should be a valid dictionary"

  // ---------------------------------------------------------------------
  // router_node
  // ---------------------------------------------------------------------

  /** `router_node`. The router is called twice with the same arguments and
      the second answer kept; with a pure model call both answers agree. */
  function RouterNode(s: GraphState, env: Env): (u: Update)
    ensures !env.llmAvailable ==> u == SetFinal(LlmUnavailableMessage) && u.routedToolCall.None?
    ensures env.llmAvailable ==>
      u == Update(None, None,
                  Some(IntelligentRouter.Route(s.prompt, s.conversationHistory,
                                               s.inputDocumentId.Some? && s.inputDocumentId.value != "",
                                               env.routerLlm)),
                  None)
  {
    if !env.llmAvailable then SetFinal(LlmUnavailableMessage)
    else
      var hasAttachment := s.inputDocumentId.Some? && s.inputDocumentId.value != "";
      var call := IntelligentRouter.Route(s.prompt, s.conversationHistory, hasAttachment, env.routerLlm);
      Update(None, None, Some(call), None)
  }

  // ---------------------------------------------------------------------
  // fill_template_flow_node
  // ---------------------------------------------------------------------

  /** `inspector_result.get("data", {}).get("required_top_level", [])`. */
  function RequiredFields(inspectorResult: Value): Value
  {
    DataField(inspectorResult, "required_top_level", List([]))
  }

  /** The inspector the node calls: `TemplateInspectorTool` on its storage. */
  function InspectTemplate(name: string, env: Env): Value
  {
    Tools.Inspect(name, env.templateFound(name), env.templateBlocks(name))
  }

  /** `fill_template_flow_node`. */
  function FillTemplateFlow(s: GraphState, env: Env): (r: NodeResult)
    ensures var name := env.templateInPrompt(s.prompt);
      name.None? || name.value == "" ==> r == Updated(SetFinal(NoTemplateMessage))
    ensures var name := env.templateInPrompt(s.prompt);
      name.Some? && name.value != "" && HasStatus(InspectTemplate(name.value, env), "error") ==>
        r == Updated(SetToolOutput(InspectTemplate(name.value, env)))
    ensures var name := env.templateInPrompt(s.prompt);
      name.Some? && name.value != "" && !HasStatus(InspectTemplate(name.value, env), "error") ==>
        var t := name.value;
        match env.generateJson(s.conversationHistory, s.prompt, t, RequiredFields(InspectTemplate(t, env)))
        case Err(_) => r == Updated(SetFinal(JsonFailureMessage))
        case Ok(context) =>
          && (!context.Dict? ==> r == Raised(ContextNotDictMessage))
          && (context.Dict? ==>
                r == Updated(SetToolOutput(Tools.FillTemplate(t, context, s.userId, None, env.templateFound(t),
                                                              env.today, env.renderAndStore(t)).output)))
    ensures r.Updated? ==> r.update.routedToolCall.None? && r.update.generatedDocumentId.None?
    ensures r.Updated? ==> (r.update.finalResponse.Some? <==> !r.update.toolOutput.Some?)
    ensures r.Raised? ==> r.message == ContextNotDictMessage
  {
    var name := env.templateInPrompt(s.prompt);
    if name.None? || name.value == "" then Updated(SetFinal(NoTemplateMessage))
    else
      var t := name.value;
      var inspection := InspectTemplate(t, env);
      if HasStatus(inspection, "error") then Updated(SetToolOutput(inspection))
      else
        match env.generateJson(s.conversationHistory, s.prompt, t, RequiredFields(inspection))
        case Err(_) => Updated(SetFinal(JsonFailureMessage))
        case Ok(context) =>
          if !context.Dict? then Raised(ContextNotDictMessage)
          else
            var filled := Tools.FillTemplate(t, context, s.userId, None, env.templateFound(t),
                                             env.today, env.renderAndStore(t));
            Updated(SetToolOutput(filled.output))
  }

  /** The inspector reports its names under "variables", never under
      "data", so the model is always asked for the keys `[]`. */
  lemma RequiredFieldsAlwaysEmpty(name: string, env: Env)
    ensures RequiredFields(InspectTemplate(name, env)) == List([])
  {
  }

  /** A successful fill stores the cleaned context under the default
      filename and reports it as tool output. */
  lemma FillTemplateStores(s: GraphState, env: Env, context: map<string, Value>)
    requires var name := env.templateInPrompt(s.prompt);
      && name.Some? && name.value != ""
      && env.templateFound(name.value)
      && !HasStatus(InspectTemplate(name.value, env), "error")
      && env.generateJson(s.conversationHistory, s.prompt, name.value, List([])) == Ok(Dict(context))
      && IsObjectIdString(s.userId)
      && env.renderAndStore(name.value)(Tools.Clean(Dict(context)),
                                        Tools.DefaultOutputFilename(name.value, env.today)).Ok?
    ensures var r := FillTemplateFlow(s, env);
      var name := env.templateInPrompt(s.prompt).value;
      var fname := Tools.DefaultOutputFilename(name, env.today);
      r == Updated(SetToolOutput(Tools.CreatedOutput(fname,
             env.renderAndStore(name)(Tools.Clean(Dict(context)), fname).value)))
  {
    RequiredFieldsAlwaysEmpty(env.templateInPrompt(s.prompt).value, env);
  }

  // ---------------------------------------------------------------------
  // read_document_flow_node
  // ---------------------------------------------------------------------

  /** `read_document_flow_node`. */
  function ReadDocumentFlow(s: GraphState, env: Env): (r: NodeResult)
    ensures s.inputDocumentId.None? || s.inputDocumentId.value == "" ==> r == Updated(SetFinal(AttachMessage))
    ensures s.inputDocumentId.Some? && s.inputDocumentId.value != "" ==>
      var out := env.readDocument(s.inputDocumentId.value);
      && (!out.Dict? ==> r == Raised(NoGetMessage(out)))
      && (out.Dict? && HasStatus(out, "error") ==> r == Updated(SetToolOutput(out)))
      && (out.Dict? && !HasStatus(out, "error") ==>
            match PyDataField(out, "content", Str(""))
            case Err(e) => r == Raised(e)
            case Ok(content) => r == Updated(SetFinal(env.answer(s.prompt, content))))
    ensures r.Updated? ==> r.update.finalResponse.Some? != r.update.toolOutput.Some?
  {
    if s.inputDocumentId.None? || s.inputDocumentId.value == "" then Updated(SetFinal(AttachMessage))
    else
      var out := env.readDocument(s.inputDocumentId.value);
      match PyGet(out, "status", Null)
      case Err(e) => Raised(e)
      case Ok(status) =>
        if status == Str("error") then Updated(SetToolOutput(out))
        else
          match PyDataField(out, "content", Str(""))
          case Err(e) => Raised(e)
          case Ok(content) => Updated(SetFinal(env.answer(s.prompt, content)))
  }

  /** A reader result with its text at the top level, as the file reader
      returns it, reaches the model as the empty text. */
  lemma ReadContentLost(s: GraphState, env: Env)
    requires s.inputDocumentId.Some? && s.inputDocumentId.value != ""
    requires var out := env.readDocument(s.inputDocumentId.value);
      out.Dict? && !HasStatus(out, "error") && "data" !in out.fields
    ensures ReadDocumentFlow(s, env) == Updated(SetFinal(env.answer(s.prompt, Str(""))))
  {
  }

  // ---------------------------------------------------------------------
  // create_document_flow_node
  // ---------------------------------------------------------------------

  const GeneratedPrefix := "documento_gerado_"

  /** `f"documento_gerado_{conversation_id[-6:]}.{ext}"`: the fixed prefix,
      the tail of the conversation id, then the extension after a dot. */
  function GeneratedFilename(conversationId: string, t: FileTypes.FileType): (r: string)
    ensures var ext := "." + FileTypes.Extension(t);
      && |r| == |GeneratedPrefix| + |LastChars(conversationId, 6)| + |ext|
      && r[..|GeneratedPrefix|] == GeneratedPrefix
      && r[|GeneratedPrefix|..|r| - |ext|] == LastChars(conversationId, 6)
      && r[|r| - |ext|..] == ext
  {
    var tail := LastChars(conversationId, 6);
    var ext := "." + FileTypes.Extension(t);
    ConcatSlicesOf(GeneratedPrefix, tail, ext)
  }

  /** `a + b + c`, whose three slices are the parts. */
  function ConcatSlicesOf(a: string, b: string, c: string): (r: string)
    ensures |r| == |a| + |b| + |c|
    ensures r[..|a|] == a && r[|a|..|r| - |c|] == b && r[|r| - |c|..] == c
  {
    a + b + c
  }

  /** The generated name always carries the requested format as its
      extension, so the generator never rejects it. */
  lemma GeneratedFilenameFormat(conversationId: string, t: FileTypes.FileType)
    ensures Tools.FileFormat(GeneratedFilename(conversationId, t)) == FileTypes.Extension(t)
    ensures FileTypes.Parse(Tools.FileFormat(GeneratedFilename(conversationId, t))) == Some(t)
  {
    var a := GeneratedPrefix + LastChars(conversationId, 6);
    var ext := FileTypes.Extension(t);
    assert GeneratedFilename(conversationId, t) == a + "." + ext;
    ExtensionShape(t);
    Tools.FileFormatAfterLastDot(a, ext);
    FileTypes.ParseExtension(t);
  }

  /** An extension has no dot and is already lower-case. */
  lemma ExtensionShape(t: FileTypes.FileType)
    ensures '.' !in FileTypes.Extension(t) && Lower(FileTypes.Extension(t)) == FileTypes.Extension(t)
  {
    match t
    case Docx =>
    case Xlsx =>
    case Pdf =>
  }

  /** `create_document_flow_node`. */
  function CreateDocumentFlow(s: GraphState, env: Env): (u: Update)
    ensures u.toolOutput.Some? && u.finalResponse.None?
    ensures u.routedToolCall.None? && u.generatedDocumentId.None?
    ensures var filename := GeneratedFilename(s.conversationId, FileTypes.Requested(s.prompt));
      HasStatus(u.toolOutput.value, "success") <==>
        IsObjectIdString(s.userId) && env.storeSimple(filename, env.writeContent(s.conversationHistory, s.prompt)).Ok?
  {
    var content := env.writeContent(s.conversationHistory, s.prompt);
    var t := FileTypes.Requested(s.prompt);
    var filename := GeneratedFilename(s.conversationId, t);
    GeneratedFilenameFormat(s.conversationId, t);
    SetToolOutput(Tools.GenerateSimple(filename, content, s.userId, env.storeSimple(filename, content)).output)
  }

  /** With a valid owner and working storage the create flow always stores a
      document in the requested format. */
  lemma CreateDocumentSucceeds(s: GraphState, env: Env)
    requires IsObjectIdString(s.userId)
    requires var t := FileTypes.Requested(s.prompt);
      var filename := GeneratedFilename(s.conversationId, t);
      env.storeSimple(filename, env.writeContent(s.conversationHistory, s.prompt)).Ok?
    ensures var t := FileTypes.Requested(s.prompt);
      var filename := GeneratedFilename(s.conversationId, t);
      var content := env.writeContent(s.conversationHistory, s.prompt);
      var run := Tools.GenerateSimple(filename, content, s.userId, env.storeSimple(filename, content));
      && run.stored.Some? && run.stored.value.format == t
      && run.stored.value.lines == Tools.ContentLines(content)
      && CreateDocumentFlow(s, env).toolOutput == Some(run.output)
      && HasStatus(run.output, "success")
  {
    GeneratedFilenameFormat(s.conversationId, FileTypes.Requested(s.prompt));
  }

  // ---------------------------------------------------------------------
  // general_chat_flow_node
  // ---------------------------------------------------------------------

  /** `lister_result.get("data", {}).get("templates", [])`. */
  function ListedTemplates(lister: Value): Result<Value, string>
  {
    PyDataField(lister, "templates", List([]))
  }

  /** The reply to a listing request for a templates value: the bullet list
      when it is truthy (raising when the join does), the apology otherwise. */
  function TemplateListText(templates: Value): (r: Result<string, string>)
    ensures !Truthy(templates) ==> r == Ok(NoTemplatesMessage)
    ensures Truthy(templates) && PyJoin(templates, "\n- ").Ok? ==> r == Ok(ListIntro + PyJoin(templates, "\n- ").value)
    ensures Truthy(templates) && PyJoin(templates, "\n- ").Err? ==> r == Err(PyJoin(templates, "\n- ").error)
  {
    if !Truthy(templates) then Ok(NoTemplatesMessage)
    else
      match PyJoin(templates, "\n- ")
      case Err(e) => Err(e)
      case Ok(joined) => Ok(ListIntro + joined)
  }

  /** `general_chat_flow_node`. */
  function GeneralChatFlow(s: GraphState, env: Env): (r: NodeResult)
    ensures s.intent != Some("LISTAR_TEMPLATES") ==>
      r == Updated(SetFinal(env.chatReply(s.conversationHistory, s.prompt)))
    ensures s.intent == Some("LISTAR_TEMPLATES") && ListedTemplates(env.lister).Err? ==>
      r == Raised(ListedTemplates(env.lister).error)
    ensures s.intent == Some("LISTAR_TEMPLATES") && ListedTemplates(env.lister).Ok? ==>
      var text := TemplateListText(ListedTemplates(env.lister).value);
      && (text.Ok? ==> r == Updated(SetFinal(text.value)))
      && (text.Err? ==> r == Raised(text.error))
    ensures r.Updated? ==> r.update.finalResponse.Some? && r.update.toolOutput.None?
  {
    if s.intent == Some("LISTAR_TEMPLATES") then
      match ListedTemplates(env.lister)
      case Err(e) => Raised(e)
      case Ok(templates) =>
        match TemplateListText(templates)
        case Err(e) => Raised(e)
        case Ok(text) => Updated(SetFinal(text))
    else Updated(SetFinal(env.chatReply(s.conversationHistory, s.prompt)))
  }

  /** The listing reply names every listed template, each on its own bullet. */
  lemma TemplateListing(names: seq<string>)
    requires |names| > 0
    ensures TemplateListText(Tools.StrList(names)) == Ok(ListIntro + Join(names, "\n- "))
  {
    Tools.StringsOfStrList(names);
  }

  /** A templates value that is a string is listed one character per bullet. */
  lemma TemplateListingOfString(name: string)
    requires name != ""
    ensures TemplateListText(Str(name)) == Ok(ListIntro + Join(Chars(name), "\n- "))
  {
  }

  /** The template lister returns its names at the top level, not under
      "data": a listing request always answers that there are no templates,
      and a missing-template error never gains suggestions. */
  lemma RealListerNeverLists(s: GraphState, env: Env, listing: Result<seq<string>, string>)
    requires env.lister == Tools.ListerOutput(listing)
    ensures ListedTemplates(env.lister) == Ok(List([]))
    ensures s.intent == Some("LISTAR_TEMPLATES") ==> GeneralChatFlow(s, env) == Updated(SetFinal(NoTemplatesMessage))
    ensures forall message :: WithSuggestions(message, env.lister) == Ok(message)
  {
  }

  // ---------------------------------------------------------------------
  // final_response_node
  // ---------------------------------------------------------------------

  /** `error_message += suffix`: a string message grows, a list message is
      extended by the suffix's characters, and any other value raises
      `TypeError`. */
  function AppendText(message: Value, suffix: string): Result<Value, string>
  {
    match message
    case Str(m) => Ok(Str(m + suffix))
    case List(xs) => Ok(List(xs + Tools.StrList(Chars(suffix)).items))
    case _ => Err("unsupported operand type(s) for +=: '" + TypeName(message) + "' and 'str'")
  }

  /** The suggestions step of a missing-template error: the lister's
      templates, when there are any, are appended to the message as a
      bullet list. */
  function WithSuggestions(message: Value, lister: Value): (r: Result<Value, string>)
    ensures ListedTemplates(lister).Err? ==> r == Err(ListedTemplates(lister).error)
    ensures ListedTemplates(lister).Ok? && !Truthy(ListedTemplates(lister).value) ==> r == Ok(message)
    ensures ListedTemplates(lister).Ok? && Truthy(ListedTemplates(lister).value) ==>
      var joined := PyJoin(ListedTemplates(lister).value, "\n- ");
      && (joined.Err? ==> r == Err(joined.error))
      && (joined.Ok? && message.Str? ==> r == Ok(Str(message.s + SuggestIntro + joined.value)))
      && (joined.Ok? && message.List? ==>
            r == Ok(List(message.items + Tools.StrList(Chars(SuggestIntro + joined.value)).items)))
      && (joined.Ok? && !message.Str? && !message.List? ==>
            r == Err("unsupported operand type(s) for +=: '" + TypeName(message) + "' and 'str'"))
  {
    match ListedTemplates(lister)
    case Err(e) => Err(e)
    case Ok(templates) =>
      if !Truthy(templates) then Ok(message)
      else
        match PyJoin(templates, "\n- ")
        case Err(e) => Err(e)
        case Ok(joined) =>
          assert message.Str? ==> message.s + SuggestIntro + joined == message.s + (SuggestIntro + joined);
          AppendText(message, SuggestIntro + joined)
  }

  predicate NotFoundError(toolOutput: Value)
  {
    Get(toolOutput, "error_code") == Some(Str("TEMPLATE_NOT_FOUND"))
  }

  /** `final_response_node`. */
  function FinalResponseNode(s: GraphState, env: Env): (r: NodeResult)
    ensures Truthy(s.finalResponse) ==> r == Updated(NoChange)
    ensures !Truthy(s.finalResponse) && !Truthy(s.toolOutput) ==> r == Updated(SetFinal(NotProcessedMessage))
    ensures !Truthy(s.finalResponse) && Truthy(s.toolOutput) && !s.toolOutput.Dict? ==>
      r == Raised(NoGetMessage(s.toolOutput))
    ensures !Truthy(s.finalResponse) && Truthy(s.toolOutput) && s.toolOutput.Dict? && HasStatus(s.toolOutput, "success") ==>
      match PyDataField(s.toolOutput, "document_id", Null)
      case Err(e) => r == Raised(e)
      case Ok(id) => r == Updated(Update(Some(GetOr(s.toolOutput, "message", Str(SuccessDefault))), None, None, Some(id)))
    ensures !Truthy(s.finalResponse) && Truthy(s.toolOutput) && s.toolOutput.Dict? && !HasStatus(s.toolOutput, "success")
            && !NotFoundError(s.toolOutput) ==>
      r == Updated(Update(Some(GetOr(s.toolOutput, "message", Str(ErrorDefault))), None, None, None))
    ensures !Truthy(s.finalResponse) && Truthy(s.toolOutput) && s.toolOutput.Dict? && !HasStatus(s.toolOutput, "success")
            && NotFoundError(s.toolOutput) ==>
      match WithSuggestions(GetOr(s.toolOutput, "message", Str(ErrorDefault)), env.lister)
      case Err(e) => r == Raised(e)
      case Ok(message) => r == Updated(Update(Some(message), None, None, None))
    ensures r.Updated? ==> r.update.toolOutput.None? && r.update.routedToolCall.None?
  {
    if Truthy(s.finalResponse) then Updated(NoChange)
    else if !Truthy(s.toolOutput) then Updated(SetFinal(NotProcessedMessage))
    else
      match PyGet(s.toolOutput, "status", Null)
      case Err(e) => Raised(e)
      case Ok(status) =>
        if status == Str("success") then
          var message := GetOr(s.toolOutput, "message", Str(SuccessDefault));
          match PyDataField(s.toolOutput, "document_id", Null)
          case Err(e) => Raised(e)
          case Ok(id) => Updated(Update(Some(message), None, None, Some(id)))
        else
          var message := GetOr(s.toolOutput, "message", Str(ErrorDefault));
          if NotFoundError(s.toolOutput) then
            match WithSuggestions(message, env.lister)
            case Err(e) => Raised(e)
            case Ok(m) => Updated(Update(Some(m), None, None, None))
          else Updated(Update(Some(message), None, None, None))
  }

  /** A missing-template error whose message is a string, with a lister
      that reports a non-empty list of names under "data", carries the
      names as suggestions after the message. */
  lemma SuggestionsAppended(s: GraphState, env: Env, message: string, names: seq<string>)
    requires !Truthy(s.finalResponse) && s.toolOutput.Dict?
    requires !HasStatus(s.toolOutput, "success") && NotFoundError(s.toolOutput)
    requires Get(s.toolOutput, "message") == Some(Str(message))
    requires ListedTemplates(env.lister) == Ok(Tools.StrList(names)) && |names| > 0
    ensures FinalResponseNode(s, env) == Updated(SetFinal(message + SuggestIntro + Join(names, "\n- ")))
  {
    SuggestionsOfNames(message, env.lister, names);
    assert Truthy(s.toolOutput);
  }

  lemma SuggestionsOfNames(message: string, lister: Value, names: seq<string>)
    requires ListedTemplates(lister) == Ok(Tools.StrList(names)) && |names| > 0
    ensures WithSuggestions(Str(message), lister) == Ok(Str(message + SuggestIntro + Join(names, "\n- ")))
  {
    var templates := Tools.StrList(names);
    assert Truthy(templates);
    assert PyJoin(templates, "\n- ") == Ok(Join(names, "\n- ")) by { Tools.StringsOfStrList(names); }
  }

  /** A tool success reported with a top-level `document_id`, as the filler
      and the generator report it, yields the tool's message and a `None`
      document id: the id is looked up under "data". */
  lemma CreatedDocumentIdNotSurfaced(s: GraphState, env: Env, filename: string, id: string)
    requires !Truthy(s.finalResponse) && s.toolOutput == Tools.CreatedOutput(filename, id)
    ensures FinalResponseNode(s, env)
      == Updated(Update(Some(Str(Tools.CreatedMessage(filename))), None, None, Some(Null)))
  {
  }

  /** Tool errors carry no `error_code`, so their message is passed on as it
      is and the template list is never consulted. */
  lemma ToolErrorPassedThrough(s: GraphState, env: Env, message: string)
    requires !Truthy(s.finalResponse) && s.toolOutput == Tools.ErrorOutput(message)
    ensures FinalResponseNode(s, env) == Updated(SetFinal(message))
  {
  }
}

=== FILE: ia_processor.dfy ===
/** The legacy crew orchestrator (src/tasks/ia_processor.py): route the
    last user message, build a sequential pipeline of agent tasks for the
    intent, run it, feed the output to the conversation memory, and store
    the reply with the id of any document it reports. Regular-expression
    searches, the model classifier, the document lookup, `json.loads` and
    the crew run are parameters. */
module IaProcessor {
  import opened Common
  import opened Text
  import opened Json
  import FileTypes
  import IntentRouter
  import MemoryManager
  import Tools

  const FillIntent := "PREENCHER_TEMPLATE"
  const ReadIntent := "LER_DOCUMENTO"
  const CreateIntent := "CRIAR_DOCUMENTO_SIMPLES"
  const ChatIntent := "CONVERSA_GERAL"

  /** Below this hybrid confidence the model classifier decides. */
  const LowConfidence: real := 0.4

  // ---------------------------------------------------------------------
  // Routing
  // ---------------------------------------------------------------------

  /** An intent string and the metadata dict that travels with it. */
  datatype Routing = Routing(intent: string, meta: IntentRouter.Metadata)

  /** The hybrid router is unsure about the last user message, so the model
      classifier is asked. */
  predicate ConsultsModel(history: seq<Turn>, search: IntentRouter.Search)
  {
    var u := LastWithRole(history, "user");
    u.Some? && IntentRouter.Route(history[u.value].content, history, search).confidence < LowConfidence
  }

  /** `_rotear_intencao`. `classify` is the crew classifier, whose answer is
      stripped of surrounding whitespace and otherwise taken as is. */
  function RouteIntent(history: seq<Turn>, search: IntentRouter.Search, classify: seq<Turn> -> string): (r: Routing)
    ensures LastWithRole(history, "user").None? ==> r == Routing(ChatIntent, IntentRouter.NoMetadata)
    ensures ConsultsModel(history, search) ==> r == Routing(Strip(classify(history)), IntentRouter.NoMetadata)
    ensures LastWithRole(history, "user").Some? && !ConsultsModel(history, search) ==>
      var d := IntentRouter.Route(history[LastWithRole(history, "user").value].content, history, search);
      r == Routing(IntentRouter.Value(d.intent), d.meta)
    ensures LastWithRole(history, "user").Some? && !ConsultsModel(history, search) ==>
      exists i :: r.intent == IntentRouter.Value(i)
    ensures r.meta.MatchedGroups? ==>
      && LastWithRole(history, "user").Some?
      && IntentRouter.FirstMatch(history[LastWithRole(history, "user").value].content, search, 0).Some?
  {
    match LastWithRole(history, "user")
    case None => Routing(ChatIntent, IntentRouter.NoMetadata)
    case Some(u) =>
      var d := IntentRouter.Route(history[u].content, history, search);
      if d.confidence < LowConfidence then Routing(Strip(classify(history)), IntentRouter.NoMetadata)
      else Routing(IntentRouter.Value(d.intent), d.meta)
  }

  /** The classifier is asked exactly when some user message exists and no
      rule of the hybrid router fires on the last one; it is never asked for
      a message a pattern matches. */
  lemma ModelIffNoRule(history: seq<Turn>, search: IntentRouter.Search)
    ensures ConsultsModel(history, search) <==>
      var u := LastWithRole(history, "user");
      && u.Some?
      && var m := history[u.value].content;
         && IntentRouter.FirstMatch(m, search, 0).None?
         && !IntentRouter.ContextConfirms(m, history)
         && !Contains(Lower(m), "template")
         && !ContainsAny(Lower(m), IntentRouter.ReadWords)
         && !ContainsAny(Lower(m), IntentRouter.CreateWords)
  {
    var u := LastWithRole(history, "user");
    if u.Some? {
      IntentRouter.LowConfidenceIffNoRule(history[u.value].content, history, search);
    }
  }

  /** A pattern match on the last user message fixes the intent to the
      pattern's and hands its groups on, whatever the classifier would say. */
  lemma PatternDecides(history: seq<Turn>, search: IntentRouter.Search, classify: seq<Turn> -> string)
    requires LastWithRole(history, "user").Some?
    requires IntentRouter.FirstMatch(history[LastWithRole(history, "user").value].content, search, 0).Some?
    ensures var m := history[LastWithRole(history, "user").value].content;
      var k := IntentRouter.FirstMatch(m, search, 0).value;
      RouteIntent(history, search, classify)
        == Routing(IntentRouter.Value(IntentRouter.Patterns[k].0),
                   IntentRouter.MatchedGroups(IntentRouter.PresentGroups(search(IntentRouter.Patterns[k].1, m).value)))
  {
  }

  // ---------------------------------------------------------------------
  // Template name
  // ---------------------------------------------------------------------

  /** `metadata.get('matched_groups')` is truthy and so is its first entry. */
  predicate HasRoutedName(meta: IntentRouter.Metadata)
  {
    meta.MatchedGroups? && |meta.groups| > 0 && meta.groups[0] != ""
  }

  /** `_extrair_template_da_ultima_mensagem`. `findName` is the filename
      search (`['"]?([\w\d_\-]+\.docx?)['"]?`, case-insensitive) yielding
      its first group. */
  function ExtractTemplateName(history: seq<Turn>, meta: IntentRouter.Metadata,
                               findName: string -> Option<string>): (r: Option<string>)
    ensures HasRoutedName(meta) ==> r == Some(meta.groups[0])
    ensures !HasRoutedName(meta) && LastWithRole(history, "user").None? ==> r.None?
    ensures !HasRoutedName(meta) && LastWithRole(history, "user").Some? ==>
      r == findName(history[LastWithRole(history, "user").value].content)
    ensures r.Some? ==> HasRoutedName(meta) || LastWithRole(history, "user").Some?
  {
    if HasRoutedName(meta) then Some(meta.groups[0])
    else
      match LastWithRole(history, "user")
      case None => None
      case Some(u) => findName(history[u].content)
  }

  lemma PresentGroupsHead(groups: seq<Option<string>>)
    requires |groups| > 0 && groups[0].Some?
    ensures |IntentRouter.PresentGroups(groups)| > 0
    ensures IntentRouter.PresentGroups(groups)[0] == groups[0].value
  {
  }

  /** The name a fill pattern captured wins over the filename search, and a
      classifier decision (empty metadata) always falls back to it. */
  lemma RoutedNameWins(history: seq<Turn>, search: IntentRouter.Search, classify: seq<Turn> -> string,
                       findName: string -> Option<string>)
    requires LastWithRole(history, "user").Some?
    ensures var r := RouteIntent(history, search, classify);
      var m := history[LastWithRole(history, "user").value].content;
      && (r.meta.MatchedGroups? && IntentRouter.FirstMatch(m, search, 0).Some? ==>
            var groups := search(IntentRouter.Patterns[IntentRouter.FirstMatch(m, search, 0).value].1, m).value;
            (|groups| > 0 && groups[0].Some? && groups[0].value != "" ==>
               ExtractTemplateName(history, r.meta, findName) == groups[0]))
      && (ConsultsModel(history, search) ==> ExtractTemplateName(history, r.meta, findName) == findName(m))
  {
    var r := RouteIntent(history, search, classify);
    var m := history[LastWithRole(history, "user").value].content;
    if r.meta.MatchedGroups? && IntentRouter.FirstMatch(m, search, 0).Some? {
      var groups := search(IntentRouter.Patterns[IntentRouter.FirstMatch(m, search, 0).value].1, m).value;
      if |groups| > 0 && groups[0].Some? {
        PresentGroupsHead(groups);
      }
    }
  }

  // ---------------------------------------------------------------------
  // Pipeline
  // ---------------------------------------------------------------------

  datatype Agent = ContentAnalyst | DocumentSpecialist | FinalReviewer

  /** What each task asks of its agent, with the values its description
      interpolates. */
  datatype Job =
    | ExtractData(templateName: string, history: string)
    | FillTemplate(templateName: string, ownerId: string)
    | ReadDocument(documentId: string)
    | PresentContent
    | Write(format: FileTypes.FileType, history: string)
    | CreateDocument(ownerId: string, format: FileTypes.FileType)
    | FinalReview
    | Converse(history: string)

  /** A task: its job, its agent, and the indices of the tasks whose output
      it is given as context. */
  datatype Step = Step(job: Job, agent: Agent, context: seq<nat>)

  /** The crew about to run: the intent after any downgrade, the history
      text after any note, the tasks in order, and `set(crew_agents)`. */
  datatype Pipeline = Pipeline(intent: string, history: string, steps: seq<Step>, crew: set<Agent>)

  /** The lookups pipeline selection makes: the template-name search, the
      `.docx` name search over the history text, and the `documents`
      collection lookup by filename and owner, yielding the id. */
  datatype Lookups = Lookups(findTemplate: string -> Option<string>,
                             findDocName: string -> Option<string>,
                             findDocument: (string, string) -> Option<string>)

  const FillDowngradeNote := "\n\nsystem: A intenção era preencher um template, mas o nome do arquivo .docx não foi encontrado. A intenção foi alterada para CONVERSA_GERAL para pedir esclarecimento."

  function ReadMissingNote(docName: string): string
  {
    "\n\nsystem: O usuário pediu para ler o documento '" + docName + "', mas ele não foi encontrado no banco de dados."
  }

  /** The agents of a task list. */
  function AgentsOf(steps: seq<Step>): set<Agent>
  {
    set i | 0 <= i < |steps| :: steps[i].agent
  }

  /** Each task takes at most the one task before it as context. */
  predicate Chained(steps: seq<Step>)
  {
    forall i :: 0 <= i < |steps| ==> steps[i].context == [] || (i > 0 && steps[i].context == [i - 1])
  }

  /** The branch for `PREENCHER_TEMPLATE` and `LER_DOCUMENTO`: the intent,
      the history text and the tasks it leaves behind (possibly none). A
      template name that is absent or empty is falsy and downgrades the
      request to conversation. */
  function SpecificPipeline(intent: string, meta: IntentRouter.Metadata, history: seq<Turn>,
                            text: string, userId: string, lk: Lookups): (r: (string, string, seq<Step>))
    ensures r.2 != [] ==> r.0 == intent && r.1 == text
    ensures r.2 == [] ==> r.0 == ChatIntent || (intent != FillIntent && intent != ReadIntent && r == (intent, text, []))
    ensures IsPrefix(text, r.1)
  {
    if intent == FillIntent then
      var name := ExtractTemplateName(history, meta, lk.findTemplate);
      if name.None? || name.value == "" then (ChatIntent, text + FillDowngradeNote, [])
      else
        (intent, text, [Step(ExtractData(name.value, text), ContentAnalyst, []),
                        Step(FillTemplate(name.value, userId), DocumentSpecialist, [0]),
                        Step(FinalReview, FinalReviewer, [1])])
    else if intent == ReadIntent then
      match lk.findDocName(text)
      case None => (ChatIntent, text, [])
      case Some(doc) =>
        match lk.findDocument(doc, userId)
        case None => (ChatIntent, text + ReadMissingNote(doc), [])
        case Some(id) =>
          (intent, text, [Step(ReadDocument(id), DocumentSpecialist, []),
                          Step(PresentContent, FinalReviewer, [0])])
    else (intent, text, [])
  }

  /** Steps 2 of `processar_solicitacao_ia`: pipeline selection. The crew is
      the set of the listed agents, which the source keeps in a list beside
      the tasks. */
  function BuildPipeline(intent: string, meta: IntentRouter.Metadata, history: seq<Turn>,
                         text: string, userId: string, lk: Lookups): (p: Pipeline)
    ensures |p.steps| > 0
    ensures Chained(p.steps)
    ensures p.intent == intent || p.intent == ChatIntent
    ensures IsPrefix(text, p.history)
    ensures p.steps[|p.steps| - 1].agent == FinalReviewer
  {
    var (intent1, text1, steps1) := SpecificPipeline(intent, meta, history, text, userId, lk);
    if intent1 == CreateIntent then
      var format := FileTypes.Requested(text1);
      Pipeline(intent1, text1, [Step(Write(format, text1), FinalReviewer, []),
                                Step(CreateDocument(userId, format), DocumentSpecialist, [0]),
                                Step(FinalReview, FinalReviewer, [1])],
               {FinalReviewer, DocumentSpecialist, FinalReviewer})
    else if steps1 == [] then
      Pipeline(intent1, text1, [Step(Converse(text1), FinalReviewer, [])], {FinalReviewer})
    else if intent1 == FillIntent then
      Pipeline(intent1, text1, steps1, {ContentAnalyst, DocumentSpecialist, FinalReviewer})
    else
      Pipeline(intent1, text1, steps1, {DocumentSpecialist, FinalReviewer})
  }

  /** Every crew holds exactly the agents its tasks name. */
  lemma CrewMatchesSteps(intent: string, meta: IntentRouter.Metadata, history: seq<Turn>,
                         text: string, userId: string, lk: Lookups)
    ensures var p := BuildPipeline(intent, meta, history, text, userId, lk);
      p.crew == AgentsOf(p.steps)
  {
    var p := BuildPipeline(intent, meta, history, text, userId, lk);
    if |p.steps| == 1 {
      assert p.steps[0].agent == FinalReviewer;
    } else if |p.steps| == 2 {
      assert p.steps[0].agent == DocumentSpecialist && p.steps[1].agent == FinalReviewer;
    } else if p.intent == FillIntent {
      assert p.steps[0].agent == ContentAnalyst && p.steps[1].agent == DocumentSpecialist;
    } else {
      assert p.steps[1].agent == DocumentSpecialist;
    }
  }

  /** Filling with a known name: extraction, filling and review; without a
      name the request becomes a conversation whose history carries the
      note that says why. */
  lemma FillCases(meta: IntentRouter.Metadata, history: seq<Turn>, text: string, userId: string, lk: Lookups)
    ensures var p := BuildPipeline(FillIntent, meta, history, text, userId, lk);
      var name := ExtractTemplateName(history, meta, lk.findTemplate);
      if name.Some? && name.value != "" then
        p.intent == FillIntent && p.history == text
        && p.steps == [Step(ExtractData(name.value, text), ContentAnalyst, []),
                       Step(FillTemplate(name.value, userId), DocumentSpecialist, [0]),
                       Step(FinalReview, FinalReviewer, [1])]
      else
        p.intent == ChatIntent && p.history == text + FillDowngradeNote
        && p.steps == [Step(Converse(text + FillDowngradeNote), FinalReviewer, [])]
  {
  }

  /** Reading: a found document is read and presented; a missing name falls
      back to conversation silently, an unknown document with a note. */
  lemma ReadCases(meta: IntentRouter.Metadata, history: seq<Turn>, text: string, userId: string, lk: Lookups)
    ensures var p := BuildPipeline(ReadIntent, meta, history, text, userId, lk);
      match lk.findDocName(text)
      case None =>
        p.intent == ChatIntent && p.steps == [Step(Converse(text), FinalReviewer, [])]
      case Some(doc) =>
        match lk.findDocument(doc, userId)
        case None =>
          p.intent == ChatIntent && p.steps == [Step(Converse(text + ReadMissingNote(doc)), FinalReviewer, [])]
        case Some(id) =>
          p.intent == ReadIntent
          && p.steps == [Step(ReadDocument(id), DocumentSpecialist, []), Step(PresentContent, FinalReviewer, [0])]
  {
  }

  /** Creation keeps its intent: the reviewer writes the content, the
      document specialist creates it in the requested format with the owner,
      and the reviewer reviews; the format comes from the whole history text. */
  lemma CreateCase(meta: IntentRouter.Metadata, history: seq<Turn>, text: string, userId: string, lk: Lookups)
    ensures var f := FileTypes.Requested(text);
      BuildPipeline(CreateIntent, meta, history, text, userId, lk)
        == Pipeline(CreateIntent, text, [Step(Write(f, text), FinalReviewer, []),
                                         Step(CreateDocument(userId, f), DocumentSpecialist, [0]),
                                         Step(FinalReview, FinalReviewer, [1])],
                    {FinalReviewer, DocumentSpecialist})
  {
  }

  /** Any other intent string, including the listing intent and whatever the
      classifier answers, gets the single conversation task. */
  lemma OtherIntentsConverse(intent: string, meta: IntentRouter.Metadata, history: seq<Turn>,
                             text: string, userId: string, lk: Lookups)
    requires intent !in {FillIntent, ReadIntent, CreateIntent}
    ensures BuildPipeline(intent, meta, history, text, userId, lk)
      == Pipeline(intent, text, [Step(Converse(text), FinalReviewer, [])], {FinalReviewer})
  {
  }

  // ---------------------------------------------------------------------
  // Result parsing
  // ---------------------------------------------------------------------

  /** The literal text before the id in `document_id': '([a-fA-F0-9]{24})'`. */
  const DocIdKey := "document_id': '"

  /** The id pattern matches at index `i`. */
  predicate QuotedIdAt(s: string, i: nat)
  {
    && i + |DocIdKey| + 25 <= |s|
    && s[i..i + |DocIdKey|] == DocIdKey
    && IsObjectIdString(s[i + |DocIdKey|..i + |DocIdKey| + 24])
    && s[i + |DocIdKey| + 24] == '\''
  }

  /** Leftmost match of the id pattern at or after `from`. */
  function FirstQuotedId(s: string, from: nat): (r: Option<nat>)
    ensures r.Some? ==> from <= r.value && QuotedIdAt(s, r.value)
    ensures r.Some? ==> forall k :: from <= k < r.value ==> !QuotedIdAt(s, k)
    ensures r.None? <==> forall k :: from <= k ==> !QuotedIdAt(s, k)
    decreases |s| - from
  {
    if from >= |s| then
      assert forall k :: from <= k ==> !QuotedIdAt(s, k);
      None
    else if QuotedIdAt(s, from) then Some(from)
    else FirstQuotedId(s, from + 1)
  }

  /** `re.search(r"document_id': '([a-fA-F0-9]{24})'", s).group(1)`. */
  function QuotedId(s: string): (r: Option<string>)
    ensures r.Some? ==> IsObjectIdString(r.value)
    ensures r.Some? ==> exists i: nat :: QuotedIdAt(s, i) && r.value == s[i + |DocIdKey|..i + |DocIdKey| + 24]
    ensures r.None? <==> forall i: nat :: !QuotedIdAt(s, i)
  {
    match FirstQuotedId(s, 0)
    case None => None
    case Some(i) => Some(s[i + |DocIdKey|..i + |DocIdKey| + 24])
  }

  /** An id written after the key is found back. */
  lemma QuotedIdRoundTrip(id: string, rest: string)
    requires IsObjectIdString(id)
    ensures QuotedId(DocIdKey + id + "'" + rest) == Some(id)
  {
    var s := DocIdKey + id + "'" + rest;
    assert s[..|DocIdKey|] == DocIdKey;
    assert s[|DocIdKey|..|DocIdKey| + 24] == id;
    assert QuotedIdAt(s, 0);
  }

  /** The parsed reply is a success dict with a truthy `document_id`. */
  predicate ReportsDocument(v: Value)
  {
    v.Dict? && HasStatus(v, "success") && Truthy(GetOr(v, "document_id", Null))
  }

  /** Step 4 of `processar_solicitacao_ia`: the generated document id, or an
      escaping `InvalidId` carrying the rejected string. A decoding error,
      or a reported id that is not a string (`ObjectId` raises `TypeError`),
      falls back to the id pattern over the raw text. */
  function ParseCrewResult(result: string, loads: string -> Option<Value>): (r: Result<Option<string>, string>)
    ensures r.Ok? && r.value.Some? ==> IsObjectIdString(r.value.value)
    ensures loads(result).None? ==> r == Ok(QuotedId(result))
    ensures loads(result).Some? && !ReportsDocument(loads(result).value) ==> r == Ok(None)
    ensures r.Err? <==>
      loads(result).Some? && ReportsDocument(loads(result).value)
      && GetOr(loads(result).value, "document_id", Null).Str?
      && !IsObjectIdString(GetOr(loads(result).value, "document_id", Null).s)
    ensures loads(result).Some? && ReportsDocument(loads(result).value)
            && GetOr(loads(result).value, "document_id", Null).Str?
            && IsObjectIdString(GetOr(loads(result).value, "document_id", Null).s) ==>
      r == Ok(Some(GetOr(loads(result).value, "document_id", Null).s))
  {
    match loads(result)
    case None => Ok(QuotedId(result))
    case Some(v) =>
      if !ReportsDocument(v) then Ok(None)
      else
        match GetOr(v, "document_id", Null)
        case Str(id) => if IsObjectIdString(id) then Ok(Some(id)) else Err(id)
        case _ => Ok(QuotedId(result))
  }

  /** Text that parses as JSON never goes through the id pattern unless it
      reports a non-string id: a parsed reply that is not a success dict
      yields no id even if it quotes one, while a success dict whose truthy
      `document_id` is not a string makes `ObjectId` raise `TypeError`, and
      the pattern finds the quoted id. */
  lemma ParsedReplyIgnoresQuotedId(result: string, loads: string -> Option<Value>, id: string, rest: string)
    requires IsObjectIdString(id) && result == DocIdKey + id + "'" + rest
    ensures loads(result).None? ==> ParseCrewResult(result, loads) == Ok(Some(id))
    ensures loads(result).Some? && !ReportsDocument(loads(result).value) ==> ParseCrewResult(result, loads) == Ok(None)
    ensures loads(result).Some? && ReportsDocument(loads(result).value)
            && !GetOr(loads(result).value, "document_id", Null).Str? ==>
      ParseCrewResult(result, loads) == Ok(Some(id))
  {
    QuotedIdRoundTrip(id, rest);
  }

  /** When the crew's answer is a generator's own success dict, the id is
      stored with the reply, but the memory, which reads only a nested
      `data` dict, does not remember it. */
  lemma CreatedIdStoredNotRemembered(out: string, loads: string -> Option<Value>, filename: string, id: string,
                                     memory: MemoryManager.ConvState)
    requires IsObjectIdString(id) && loads(out) == Some(Tools.CreatedOutput(filename, id))
    ensures ParseCrewResult(out, loads) == Ok(Some(id))
    ensures MemoryManager.UpdateFromToolOutput(memory, out, loads) == memory
    ensures MemoryManager.SavedState(memory, out, loads) == memory
  {
    var v := Tools.CreatedOutput(filename, id);
    assert GetOr(v, "document_id", Null) == Str(id);
    MemoryManager.OutputWithoutDataIgnored(memory, out, loads, v.fields);
  }

  // ---------------------------------------------------------------------
  // The whole request
  // ---------------------------------------------------------------------

  /** One turn as the history text shows it. */
  function TurnLine(t: Turn): string
  {
    t.role + ": " + t.content
  }

  /** `"\n".join(f"{role}: {content}" ...)`: the turns' lines in order,
      separated by newlines. */
  function HistoryText(history: seq<Turn>): (r: string)
    ensures history == [] ==> r == ""
    ensures |history| == 1 ==> r == TurnLine(history[0])
  {
    Join(seq(|history|, i requires 0 <= i < |history| => TurnLine(history[i])), "\n")
  }

  /** A longer history is its first turn's line, a newline, and the text of
      the rest. */
  lemma HistoryTextCons(history: seq<Turn>)
    requires |history| > 1
    ensures HistoryText(history) == TurnLine(history[0]) + "\n" + HistoryText(history[1..])
  {
    var lines := seq(|history|, i requires 0 <= i < |history| => TurnLine(history[i]));
    assert lines[1..] == seq(|history| - 1, i requires 0 <= i < |history| - 1 => TurnLine(history[1..][i]));
  }

  /** When no turn contains a newline, splitting the history text on
      newlines gives back one line per turn. */
  lemma {:induction false} HistoryTextLines(history: seq<Turn>)
    requires |history| > 0
    requires forall i :: 0 <= i < |history| ==> '\n' !in TurnLine(history[i])
    ensures Split(HistoryText(history), '\n') == seq(|history|, i requires 0 <= i < |history| => TurnLine(history[i]))
  {
    SplitWithoutSep(TurnLine(history[0]), '\n');
    if |history| > 1 {
      var rest := history[1..];
      HistoryTextLines(rest);
      HistoryTextCons(history);
      SplitAppend(TurnLine(history[0]), '\n', HistoryText(rest));
      assert TurnLine(history[0]) + "\n" + HistoryText(rest) == TurnLine(history[0]) + ['\n'] + HistoryText(rest);
    }
  }

  const ErrorReplyText := "Ocorreu um erro interno grave."

  /** The assistant message stored for the request. */
  datatype AssistantReply = AssistantReply(content: string, generatedDocumentId: Option<string>, isError: bool)

  /** The returned status, the stored reply and the memory saved for the
      next request. */
  datatype Outcome = Outcome(status: string, reply: AssistantReply, memory: MemoryManager.ConvState)

  /** Everything outside the orchestrator: routing searches and classifier,
      lookups, `json.loads`, and the crew run (`None` when it raises). */
  datatype World = World(search: IntentRouter.Search, classify: seq<Turn> -> string, lookups: Lookups,
                         loads: string -> Option<Value>, kickoff: Pipeline -> Option<string>)

  const ErrorReply := AssistantReply(ErrorReplyText, None, true)

  /** The pipeline the orchestrator runs for a history and a memory. */
  function RequestPipeline(history: seq<Turn>, userId: string, memory: MemoryManager.ConvState, w: World): Pipeline
  {
    var routing := RouteIntent(history, w.search, w.classify);
    BuildPipeline(routing.intent, routing.meta, history,
                  MemoryManager.InjectContext(memory, HistoryText(history)), userId, w.lookups)
  }

  /** `processar_solicitacao_ia` for a message that was found. */
  function Process(history: seq<Turn>, userId: string, memory: MemoryManager.ConvState, w: World): (o: Outcome)
    ensures w.kickoff(RequestPipeline(history, userId, memory, w)).None? ==> o == Outcome("Falha", ErrorReply, memory)
    ensures var out := w.kickoff(RequestPipeline(history, userId, memory, w));
      out.Some? && ParseCrewResult(out.value, w.loads).Ok? ==>
        o == Outcome("Sucesso", AssistantReply(out.value, ParseCrewResult(out.value, w.loads).value, false),
                     MemoryManager.SavedState(memory, out.value, w.loads))
    ensures o.status == "Sucesso" || o.status == "Falha"
    ensures o.status == "Falha" <==> o.reply == ErrorReply
    ensures o.status == "Sucesso" ==> !o.reply.isError
    ensures o.reply.generatedDocumentId.Some? ==> IsObjectIdString(o.reply.generatedDocumentId.value)
    ensures IsPrefix(memory.extraContext, o.memory.extraContext)
  {
    match w.kickoff(RequestPipeline(history, userId, memory, w))
    case None => Outcome("Falha", ErrorReply, memory)
    case Some(out) => Conclude(memory, out, w.loads)
  }

  /** What follows a crew run that returned: the memory is updated and
      saved, then the answer is parsed for a document id. */
  function Conclude(memory: MemoryManager.ConvState, out: string, loads: string -> Option<Value>): (o: Outcome)
    ensures o.memory == MemoryManager.SavedState(memory, out, loads)
    ensures ParseCrewResult(out, loads).Ok? ==>
      o.status == "Sucesso" && o.reply == AssistantReply(out, ParseCrewResult(out, loads).value, false)
    ensures ParseCrewResult(out, loads).Err? ==> o.status == "Falha" && o.reply == ErrorReply
  {
    var memory1 := MemoryManager.SavedState(memory, out, loads);
    match ParseCrewResult(out, loads)
    case Err(_) => Outcome("Falha", ErrorReply, memory1)
    case Ok(id) => Outcome("Sucesso", AssistantReply(out, id, false), memory1)
  }

  /** A successful run stores the crew output verbatim, and the memory has
      seen that output. */
  lemma SuccessStoresOutput(history: seq<Turn>, userId: string, memory: MemoryManager.ConvState, w: World)
    ensures var o := Process(history, userId, memory, w);
      var p := RequestPipeline(history, userId, memory, w);
      o.status == "Sucesso" ==>
        && w.kickoff(p).Some?
        && o.reply.content == w.kickoff(p).value
        && o.memory == MemoryManager.SavedState(memory, w.kickoff(p).value, w.loads)
  {
  }

  /** An invalid reported id fails the request after the memory was
      already updated from the same output. */
  lemma InvalidIdFailsAfterMemoryUpdate(history: seq<Turn>, userId: string, memory: MemoryManager.ConvState,
                                        w: World)
    ensures var p := RequestPipeline(history, userId, memory, w);
      w.kickoff(p).Some? && ParseCrewResult(w.kickoff(p).value, w.loads).Err? ==>
        Process(history, userId, memory, w)
          == Outcome("Falha", ErrorReply, MemoryManager.SavedState(memory, w.kickoff(p).value, w.loads))
  {
  }
}

=== FILE: intelligent_router.dfy ===
/** The tool-calling router (src/services/intelligent_router.py): a chat
    model bound to four intent schemas picks one of them. The model call is
    a parameter from the request it sees to the tool calls of its reply;
    the system prompt text is not modelled, only what it carries that varies:
    the recent history and the attachment flag. */
module IntelligentRouter {
  import opened Common
  import FileTypes

  /** The four pydantic schemas bound as tools. */
  datatype Schema = FillTemplateSchema | CreateDocumentSchema | ReadDocumentSchema | GeneralChatSchema

  function SchemaName(s: Schema): string
  {
    match s
    case FillTemplateSchema => "FillTemplate"
    case CreateDocumentSchema => "CreateDocument"
    case ReadDocumentSchema => "ReadDocument"
    case GeneralChatSchema => "GeneralChat"
  }

  /** The fields each schema declares. */
  function SchemaFields(s: Schema): set<string>
  {
    match s
    case FillTemplateSchema => {"template_name", "topic"}
    case CreateDocumentSchema => {"topic", "file_type"}
    case ReadDocumentSchema => {"question"}
    case GeneralChatSchema => {"user_request"}
  }

  /** `self.tools`, in binding order, with `tool_choice="any"`. */
  const BoundTools: seq<Schema> := [FillTemplateSchema, CreateDocumentSchema, ReadDocumentSchema, GeneralChatSchema]
  const ToolChoice := "any"

  /** The schema a tool name refers to, if any. */
  function SchemaNamed(name: string): (r: Option<Schema>)
    ensures r.Some? ==> SchemaName(r.value) == name && r.value in BoundTools
    ensures r.None? ==> forall s: Schema :: SchemaName(s) != name
  {
    if name == "FillTemplate" then Some(FillTemplateSchema)
    else if name == "CreateDocument" then Some(CreateDocumentSchema)
    else if name == "ReadDocument" then Some(ReadDocumentSchema)
    else if name == "GeneralChat" then Some(GeneralChatSchema)
    else None
  }

  lemma {:induction false} SchemaNamesRoundTrip(s: Schema)
    ensures SchemaNamed(SchemaName(s)) == Some(s)
  {
    match s
    case FillTemplateSchema =>
    case CreateDocumentSchema =>
    case ReadDocumentSchema =>
    case GeneralChatSchema =>
  }

  /** One tool call of the model's reply: the tool's name and its
      arguments, as the model produced them. */
  datatype ToolCall = ToolCall(name: string, args: map<string, string>)

  /** A call that matches a bound schema: known name, exactly the declared
      fields, and for `CreateDocument` a `file_type` among the literal three. */
  predicate ConformsToSchema(c: ToolCall)
  {
    && SchemaNamed(c.name).Some?
    && c.args.Keys == SchemaFields(SchemaNamed(c.name).value)
    && (c.name == "CreateDocument" ==> FileTypes.Parse(c.args["file_type"]).Some?)
  }

  /** What the routing model is shown besides the fixed instructions. */
  datatype RoutingRequest = RoutingRequest(recent: seq<Turn>, hasAttachment: bool, prompt: string)

  /** `conversation_history[-3:]`. */
  function RecentWindow(history: seq<Turn>): (r: seq<Turn>)
    ensures |r| == if |history| < 3 then |history| else 3
    ensures r == history[|history| - |r|..]
  {
    if |history| <= 3 then history else history[|history| - 3..]
  }

  /** `IntelligentRouter.route`: the model's first tool call, or general chat
      with the prompt when the reply holds no tool call. Names and arguments
      the model produces are passed on unchecked. */
  function Route(prompt: string, history: seq<Turn>, hasAttachment: bool,
                 llm: RoutingRequest -> seq<ToolCall>): (r: ToolCall)
    ensures var calls := llm(RoutingRequest(RecentWindow(history), hasAttachment, prompt));
      && (calls == [] ==> r.name == "GeneralChat" && r.args == map["user_request" := prompt])
      && (calls != [] ==> r in calls && r == calls[0])
  {
    var calls := llm(RoutingRequest(RecentWindow(history), hasAttachment, prompt));
    if calls == [] then ToolCall("GeneralChat", map["user_request" := prompt]) else calls[0]
  }

  /** Turns older than the last three never influence the decision. */
  lemma OlderTurnsIgnored(prompt: string, older: seq<Turn>, recent: seq<Turn>, hasAttachment: bool,
                          llm: RoutingRequest -> seq<ToolCall>)
    requires |recent| >= 3
    ensures Route(prompt, older + recent, hasAttachment, llm) == Route(prompt, recent, hasAttachment, llm)
  {
    var h := older + recent;
    assert RecentWindow(h) == RecentWindow(recent) by {
      assert h[|h| - 3..] == recent[|recent| - 3..];
    }
  }

  /** The fallback call is always a well-formed general-chat call, and a
      model that only ever answers with conforming calls yields a conforming
      decision. */
  lemma RouteConforms(prompt: string, history: seq<Turn>, hasAttachment: bool,
                      llm: RoutingRequest -> seq<ToolCall>)
    requires forall c :: c in llm(RoutingRequest(RecentWindow(history), hasAttachment, prompt)) ==> ConformsToSchema(c)
    ensures ConformsToSchema(Route(prompt, history, hasAttachment, llm))
  {
  }
}

=== FILE: intent_router.dfy ===
/** The hybrid keyword router (src/services/intent_router.py): high-confidence
    regular expressions first, then the previous assistant turn, then plain
    keywords, and finally a low-confidence answer that asks for a model.
    Regular-expression search is a parameter: given a pattern and the
    message it yields the groups of the first match, or `None`. */
module IntentRouter {
  import opened Common
  import opened Text

  datatype Intent = FillTemplate | ReadDoc | CreateDoc | ListTemplates | Chat

  /** The enum's string values. */
  function Value(i: Intent): string
  {
    match i
    case FillTemplate => "PREENCHER_TEMPLATE"
    case ReadDoc => "LER_DOCUMENTO"
    case CreateDoc => "CRIAR_DOCUMENTO_SIMPLES"
    case ListTemplates => "LISTAR_TEMPLATES"
    case Chat => "CONVERSA_GERAL"
  }

  lemma ValuesDistinct(a: Intent, b: Intent)
    requires a != b
    ensures Value(a) != Value(b)
  {
  }

  /** The metadata dict that accompanies a routing decision. */
  datatype Metadata =
    | MatchedGroups(groups: seq<string>)
    | ContextBased
    | NeedsClarification
    | NoMetadata
    | RequiresLlm

  datatype Routed = Routed(intent: Intent, confidence: real, meta: Metadata)

  /** `re.search(pattern, message, re.IGNORECASE)`: the match's groups, each
      possibly `None`, or `None` when there is no match. */
  type Search = (string, string) -> Option<seq<Option<string>>>

  /** `PATTERNS`, flattened in dict order. */
  const Patterns: seq<(Intent, string)> := [
    (FillTemplate, "(?:use|usar|preencha|preencher)\\s+(?:o\\s+)?template\\s+['\"]?([\\w\\d_-]+\\.docx?)['\"]?"),
    (FillTemplate, "template\\s+['\"]?([\\w\\d_-]+\\.docx?)['\"]?.*(?:para|com|sobre)"),
    (ReadDoc, "(?:leia|ler|abrir|abra)\\s+(?:o\\s+)?(?:arquivo|documento)\\s+['\"]?([\\w\\d_-]+\\.\\w+)['\"]?"),
    (CreateDoc, "(?:crie|criar|gere|gerar)\\s+(?:um\\s+)?(?:documento|arquivo|planilha|relat[óo]rio)"),
    (ListTemplates, "(?:liste|listar|mostre|mostrar|quais)\\s+.*templates?")
  ]

  const ConfirmWords: seq<string> := ["sim", "isso", "correto", "exato", "ok", "use"]
  const ListWords: seq<string> := ["listar", "quais", "mostrar", "disponíveis"]
  const ReadWords: seq<string> := ["ler", "leia", "abrir"]
  const CreateWords: seq<string> := ["criar", "gerar", "fazer"]

  /** `tuple(g for g in match.groups() if g is not None)`. */
  function PresentGroups(groups: seq<Option<string>>): (r: seq<string>)
    ensures |r| <= |groups|
    ensures forall x :: x in r <==> Some(x) in groups
  {
    if |groups| == 0 then []
    else
      var rest := PresentGroups(groups[1..]);
      assert forall g :: g in groups <==> g == groups[0] || g in groups[1..] by {
        assert groups == [groups[0]] + groups[1..];
      }
      if groups[0].Some? then [groups[0].value] + rest else rest
  }

  /** The present groups keep the groups' order: those of a concatenation
      are those of the first part followed by those of the second. */
  lemma {:induction false} PresentGroupsAppend(a: seq<Option<string>>, b: seq<Option<string>>)
    ensures PresentGroups(a + b) == PresentGroups(a) + PresentGroups(b)
  {
    if |a| == 0 {
      assert a + b == b;
    } else {
      assert (a + b)[0] == a[0] && (a + b)[1..] == a[1..] + b;
      PresentGroupsAppend(a[1..], b);
    }
  }

  /** A single group is kept exactly when it is present. */
  lemma PresentGroupsOfOne(g: Option<string>)
    ensures PresentGroups([g]) == if g.Some? then [g.value] else []
  {
    assert [g][1..] == [];
  }

  /** Index of the first pattern that matches, if any. */
  function FirstMatch(message: string, search: Search, from: nat): (r: Option<nat>)
    requires from <= |Patterns|
    ensures r.Some? ==> from <= r.value < |Patterns| && search(Patterns[r.value].1, message).Some?
    ensures r.Some? ==> forall k :: from <= k < r.value ==> search(Patterns[k].1, message).None?
    ensures r.None? <==> forall k :: from <= k < |Patterns| ==> search(Patterns[k].1, message).None?
    decreases |Patterns| - from
  {
    if from == |Patterns| then None
    else if search(Patterns[from].1, message).Some? then Some(from)
    else FirstMatch(message, search, from + 1)
  }

  /** Phase 2: the last assistant turn mentions a template and the message
      confirms. */
  predicate ContextConfirms(message: string, history: seq<Turn>)
  {
    var last := LastWithRole(history, "assistant");
    && last.Some?
    && Contains(Lower(history[last.value].content), "template")
    && ContainsAny(Lower(message), ConfirmWords)
  }

  /** Phases 3 and 4: keyword rules on the lower-cased message. */
  function KeywordRoute(message: string): (r: Routed)
    ensures var m := Lower(message);
      && (Contains(m, "template") ==>
            r == if ContainsAny(m, ListWords) then Routed(ListTemplates, 0.7, NoMetadata)
                 else Routed(FillTemplate, 0.6, NeedsClarification))
      && (!Contains(m, "template") && ContainsAny(m, ReadWords) ==> r == Routed(ReadDoc, 0.6, NoMetadata))
      && (!Contains(m, "template") && !ContainsAny(m, ReadWords) && ContainsAny(m, CreateWords) ==>
            r == Routed(CreateDoc, 0.6, NoMetadata))
      && (!Contains(m, "template") && !ContainsAny(m, ReadWords) && !ContainsAny(m, CreateWords) ==>
            r == Routed(Chat, 0.3, RequiresLlm))
  {
    var m := Lower(message);
    if Contains(m, "template") then
      if ContainsAny(m, ListWords) then Routed(ListTemplates, 0.7, NoMetadata)
      else Routed(FillTemplate, 0.6, NeedsClarification)
    else if ContainsAny(m, ReadWords) then Routed(ReadDoc, 0.6, NoMetadata)
    else if ContainsAny(m, CreateWords) then Routed(CreateDoc, 0.6, NoMetadata)
    else Routed(Chat, 0.3, RequiresLlm)
  }

  /** `HybridIntentRouter.route`. */
  function Route(message: string, history: seq<Turn>, search: Search): (r: Routed)
    ensures r.meta.MatchedGroups? <==> FirstMatch(message, search, 0).Some?
    ensures r.meta.MatchedGroups? ==>
      var k := FirstMatch(message, search, 0).value;
      r == Routed(Patterns[k].0, 0.95, MatchedGroups(PresentGroups(search(Patterns[k].1, message).value)))
    ensures r.meta.ContextBased? <==> FirstMatch(message, search, 0).None? && ContextConfirms(message, history)
    ensures r.meta.ContextBased? ==> r.intent == FillTemplate && r.confidence == 0.8
    ensures !r.meta.MatchedGroups? && !r.meta.ContextBased? ==> r == KeywordRoute(message)
  {
    match FirstMatch(message, search, 0)
    case Some(k) =>
      Routed(Patterns[k].0, 0.95, MatchedGroups(PresentGroups(search(Patterns[k].1, message).value)))
    case None =>
      if ContextConfirms(message, history) then Routed(FillTemplate, 0.8, ContextBased)
      else KeywordRoute(message)
  }

  // ---------------------------------------------------------------------
  // Properties of the routing decision
  // ---------------------------------------------------------------------

  /** Every decision carries one of five confidence levels, and each level
      belongs to a fixed phase. */
  lemma ConfidenceLevels(message: string, history: seq<Turn>, search: Search)
    ensures var r := Route(message, history, search);
      && (r.confidence == 0.95 <==> r.meta.MatchedGroups?)
      && (r.confidence == 0.8 <==> r.meta.ContextBased?)
      && (r.confidence == 0.7 <==> r.intent == ListTemplates && r.meta.NoMetadata?)
      && (r.confidence == 0.6 <==> r.meta.NeedsClarification? || (r.meta.NoMetadata? && r.intent != ListTemplates))
      && (r.confidence == 0.3 <==> r.meta.RequiresLlm?)
  {
  }

  /** A decision falls below the 0.4 threshold the orchestrator uses exactly
      when no rule fired; such a decision is always general chat. */
  lemma LowConfidenceIffNoRule(message: string, history: seq<Turn>, search: Search)
    ensures var r := Route(message, history, search);
      var m := Lower(message);
      (r.confidence < 0.4 <==>
        && FirstMatch(message, search, 0).None?
        && !ContextConfirms(message, history)
        && !Contains(m, "template") && !ContainsAny(m, ReadWords) && !ContainsAny(m, CreateWords))
      && (r.confidence < 0.4 ==> r == Routed(Chat, 0.3, RequiresLlm))
  {
  }

  /** A matching pattern decides regardless of the conversation so far. */
  lemma PatternsBeatContext(message: string, h1: seq<Turn>, h2: seq<Turn>, search: Search)
    requires FirstMatch(message, search, 0).Some?
    ensures Route(message, h1, search) == Route(message, h2, search)
  {
  }

  /** Without an earlier assistant turn the history plays no part. */
  lemma NoAssistantNoContext(message: string, history: seq<Turn>, search: Search)
    requires forall j :: 0 <= j < |history| ==> history[j].role != "assistant"
    ensures Route(message, history, search) == Route(message, [], search)
  {
  }

  /** Only the LAST assistant turn counts: an older one that mentioned a
      template does not make a confirmation a template request. */
  lemma OnlyLastAssistantTurn(message: string, older: string, latest: string, search: Search)
    requires FirstMatch(message, search, 0).None?
    requires !Contains(Lower(latest), "template")
    ensures Route(message, [Turn("assistant", older), Turn("assistant", latest)], search) == KeywordRoute(message)
  {
    var h := [Turn("assistant", older), Turn("assistant", latest)];
    assert LastWithRole(h, "assistant") == Some(1);
  }

  /** A listing word wins over the fill default once "template" is mentioned. */
  lemma ListBeatsFill(message: string, history: seq<Turn>, search: Search, w: string)
    requires FirstMatch(message, search, 0).None? && !ContextConfirms(message, history)
    requires Contains(Lower(message), "template") && w in ListWords && Contains(Lower(message), w)
    ensures Route(message, history, search) == Routed(ListTemplates, 0.7, NoMetadata)
  {
    var i :| 0 <= i < |ListWords| && ListWords[i] == w;
  }
}

=== FILE: json.dfy ===
/** The JSON-like values the Python code passes around as plain dicts,
    lists and scalars (tool outputs, LLM-generated contexts, parsed replies). */
module Json {
  import opened Common
  import opened Text

  /** `Int` stands for every Python number; floats are not distinguished. */
  datatype Value =
    | Null
    | Bool(b: bool)
    | Int(n: int)
    | Str(s: string)
    | List(items: seq<Value>)
    | Dict(fields: map<string, Value>)

  /** Python truthiness of a value (`if v:`). */
  predicate Truthy(v: Value)
  {
    match v
    case Null => false
    case Bool(b) => b
    case Int(n) => n != 0
    case Str(s) => s != ""
    case List(xs) => |xs| > 0
    case Dict(m) => |m| > 0
  }

  /** `v.get(key)` on a dict; `None` for a missing key (and for a value that
      is not a dict, where Python would raise instead). */
  function Get(v: Value, key: string): (r: Option<Value>)
    ensures r.Some? <==> v.Dict? && key in v.fields
    ensures r.Some? ==> r.value == v.fields[key]
  {
    if v.Dict? && key in v.fields then Some(v.fields[key]) else None
  }

  /** `v.get(key, default)`. */
  function GetOr(v: Value, key: string, default: Value): (r: Value)
    ensures v.Dict? && key in v.fields ==> r == v.fields[key]
    ensures !(v.Dict? && key in v.fields) ==> r == default
  {
    Get(v, key).GetOr(default)
  }

  /** `v.get("status") == expected`. */
  predicate HasStatus(v: Value, expected: string)
  {
    Get(v, "status") == Some(Str(expected))
  }

  /** `v.get("data", {}).get(key, default)`: the nested lookup `nodes.py`
      uses to read tool results. */
  function DataField(v: Value, key: string, default: Value): Value
  {
    GetOr(GetOr(v, "data", Dict(map[])), key, default)
  }

  /** The string items of a list value, in order: what `"\n- ".join(xs)`
      consumes when every item is a string. */
  function Strings(v: Value): (r: seq<string>)
    ensures v.List? && (forall i :: 0 <= i < |v.items| ==> v.items[i].Str?) ==> |r| == |v.items|
  {
    if v.List? then StringItems(v.items) else []
  }

  function StringItems(xs: seq<Value>): (r: seq<string>)
    ensures |r| <= |xs|
    ensures (forall i :: 0 <= i < |xs| ==> xs[i].Str?) ==> |r| == |xs|
  {
    if |xs| == 0 then []
    else (if xs[0].Str? then [xs[0].s] else []) + StringItems(xs[1..])
  }


  // ---------------------------------------------------------------------
  // The same operations as Python runs them on values of any type
  // ---------------------------------------------------------------------

  /** The name Python's exception messages give the type of a value. */
  function TypeName(v: Value): string
  {
    match v
    case Null => "NoneType"
    case Bool(_) => "bool"
    case Int(_) => "int"
    case Str(_) => "str"
    case List(_) => "list"
    case Dict(_) => "dict"
  }

  /** The `AttributeError` raised by `v.get(..)` on a value that is not a dict. */
  function NoGetMessage(v: Value): string
  {
    "'" + TypeName(v) + "' object has no attribute 'get'"
  }

  /** `v.get(key, default)` on a value of any type. */
  function PyGet(v: Value, key: string, default: Value): (r: Result<Value, string>)
    ensures r.Ok? <==> v.Dict?
    ensures r.Ok? ==> r.value == GetOr(v, key, default)
    ensures r.Err? ==> r.error == NoGetMessage(v)
  {
    if v.Dict? then Ok(GetOr(v, key, default)) else Err(NoGetMessage(v))
  }

  /** `v.get("data", {}).get(key, default)` on a value of any type: the outer
      value and its `data` entry must both be dicts. */
  function PyDataField(v: Value, key: string, default: Value): (r: Result<Value, string>)
    ensures r.Ok? <==> v.Dict? && GetOr(v, "data", Dict(map[])).Dict?
    ensures r.Ok? ==> r.value == DataField(v, key, default)
    ensures !v.Dict? ==> r == Err(NoGetMessage(v))
    ensures v.Dict? && !GetOr(v, "data", Dict(map[])).Dict? ==> r == Err(NoGetMessage(GetOr(v, "data", Dict(map[]))))
  {
    match PyGet(v, "data", Dict(map[]))
    case Err(e) => Err(e)
    case Ok(data) => PyGet(data, key, default)
  }

  /** The position of the first item that is not a string, if any. */
  function FirstNonString(xs: seq<Value>): (r: Option<nat>)
    ensures r.None? <==> forall i :: 0 <= i < |xs| ==> xs[i].Str?
    ensures r.Some? ==> r.value < |xs| && !xs[r.value].Str? && forall j :: 0 <= j < r.value ==> xs[j].Str?
  {
    if |xs| == 0 then None
    else if !xs[0].Str? then Some(0)
    else
      match FirstNonString(xs[1..])
      case None => None
      case Some(k) => Some(k + 1)
  }

  /** `sep.join(v)`: a list of strings joins its items and a string joins its
      characters; a list holding anything else, or a value that is not
      iterable, raises `TypeError`. A dict, whose keys Python joins in
      insertion order, counts as raising: `Dict` keeps no order. */
  function PyJoin(v: Value, sep: string): (r: Result<string, string>)
    ensures v.List? && (forall i :: 0 <= i < |v.items| ==> v.items[i].Str?) ==> r == Ok(Join(Strings(v), sep))
    ensures v.List? && (exists i :: 0 <= i < |v.items| && !v.items[i].Str?) ==> r.Err?
    ensures v.Str? ==> r == Ok(Join(Chars(v.s), sep))
    ensures !v.List? && !v.Str? ==> r.Err?
  {
    match v
    case List(xs) =>
      (match FirstNonString(xs)
       case None => Ok(Join(StringItems(xs), sep))
       case Some(i) =>
         Err("sequence item " + Decimal(i) + ": expected str instance, " + TypeName(xs[i]) + " found"))
    case Str(s) => Ok(Join(Chars(s), sep))
    case _ => Err("can only join an iterable")
  }
}

=== FILE: llm_fallback.dfy ===
/** The fallback chain of chat models (src/tasks/llm_fallback.py): models are
    tried in configuration order, transient provider errors move on to the
    next model, anything else aborts, and a reply blocked by the safety
    filter counts as an abort. The remote call is a parameter from the
    runnable tried to what that call did. */
module LlmFallback {
  import opened Common
  import opened Text

  /** The exception classes the chain distinguishes. The first four are the
      recoverable `google.api_core.exceptions` classes. */
  datatype ErrorKind =
    | ResourceExhausted
    | ServiceUnavailable
    | InternalServerError
    | DeadlineExceeded
    | ValueError
    | RuntimeError
    | OtherError(className: string)

  predicate Recoverable(k: ErrorKind)
  {
    k.ResourceExhausted? || k.ServiceUnavailable? || k.InternalServerError? || k.DeadlineExceeded?
  }

  datatype Exception = Exception(kind: ErrorKind, message: string)

  /** A model reply; `finishReason` is absent when the reply carries no
      `response_metadata` entry for it. */
  datatype Reply = Reply(content: string, finishReason: Option<string>)

  /** What one remote call did. */
  datatype Attempt = Returned(reply: Reply) | Raised(exception: Exception)

  /** One model, possibly with a tool schema list bound to it. */
  datatype Runnable = Runnable(model: string, tools: Option<seq<string>>)

  datatype FallbackLlm = FallbackLlm(modelNames: seq<string>, runnables: seq<Runnable>)

  /** The shape every instance keeps: one runnable per configured model, in
      order. */
  predicate Valid(f: FallbackLlm)
  {
    && |f.modelNames| > 0
    && |f.runnables| == |f.modelNames|
    && forall i :: 0 <= i < |f.runnables| ==> f.runnables[i].model == f.modelNames[i]
  }

  const EmptyListMessage := "A lista de modelos LLM não pode estar vazia."
  const SafetyMessage := "A solicitação foi bloqueada pelos filtros de segurança do modelo."

  /** The plain models, one per name, with nothing bound. */
  function PlainModels(names: seq<string>): (r: seq<Runnable>)
    ensures |r| == |names|
    ensures forall i :: 0 <= i < |r| ==> r[i] == Runnable(names[i], None)
  {
    seq(|names|, i requires 0 <= i < |names| => Runnable(names[i], None))
  }

  /** `FallbackLLM.__init__`: an empty model list raises. */
  function New(names: seq<string>): (r: Result<FallbackLlm, Exception>)
    ensures r.Err? <==> names == []
    ensures r.Err? ==> r.error == Exception(ValueError, EmptyListMessage)
    ensures r.Ok? ==> Valid(r.value) && r.value.modelNames == names
    ensures r.Ok? ==> forall i :: 0 <= i < |names| ==> r.value.runnables[i].tools.None?
  {
    if |names| == 0 then Err(Exception(ValueError, EmptyListMessage))
    else Ok(FallbackLlm(names, PlainModels(names)))
  }

  /** `bind_tools`: the runnables are rebuilt from the plain models, each with
      the same tools bound. */
  function BindTools(f: FallbackLlm, tools: seq<string>): (g: FallbackLlm)
    requires Valid(f)
    ensures Valid(g) && g.modelNames == f.modelNames
    ensures forall i :: 0 <= i < |g.runnables| ==> g.runnables[i] == Runnable(f.modelNames[i], Some(tools))
  {
    f.(runnables := seq(|f.modelNames|, i requires 0 <= i < |f.modelNames| => Runnable(f.modelNames[i], Some(tools))))
  }

  /** Binding does not stack: the last binding replaces any earlier one,
      because the runnables are always rebuilt from the plain models. */
  lemma BindToolsReplaces(f: FallbackLlm, first: seq<string>, second: seq<string>)
    requires Valid(f)
    ensures BindTools(BindTools(f, first), second) == BindTools(f, second)
  {
  }

  // ---------------------------------------------------------------------
  // invoke
  // ---------------------------------------------------------------------

  /** How the loop treats one attempt. */
  datatype Step = Accept(reply: Reply) | Retry(error: Exception) | Abort(error: Exception)

  /** `response_metadata.get("finish_reason", "UNSPECIFIED")`. */
  function FinishReason(r: Reply): string
  {
    r.finishReason.GetOr("UNSPECIFIED")
  }

  /** A reply blocked by the safety filter raises a `ValueError` inside the
      `try`, which the generic handler re-raises; a recoverable exception
      moves on; any other exception aborts. */
  function Classify(a: Attempt): (s: Step)
    ensures s.Accept? <==> a.Returned? && FinishReason(a.reply) != "SAFETY"
    ensures s.Accept? ==> s.reply == a.reply
    ensures s.Retry? <==> a.Raised? && Recoverable(a.exception.kind)
    ensures s.Retry? ==> s.error == a.exception
    ensures s.Abort? && a.Returned? ==> s.error == Exception(ValueError, SafetyMessage)
    ensures s.Abort? && a.Raised? ==> s.error == a.exception
  {
    match a
    case Returned(r) =>
      if FinishReason(r) == "SAFETY" then Abort(Exception(ValueError, SafetyMessage)) else Accept(r)
    case Raised(e) =>
      if Recoverable(e.kind) then Retry(e) else Abort(e)
  }

  /** The Python repr of the model name list used in the final message. */
  function NamesRepr(names: seq<string>): string
  {
    "[" + Join(Quoted(names), ", ") + "]"
  }

  function Quoted(names: seq<string>): (r: seq<string>)
    ensures |r| == |names|
  {
    if |names| == 0 then [] else ["'" + names[0] + "'"] + Quoted(names[1..])
  }

  /** Reference definition of `invoke`: the runnables still to try and the
      last recoverable error seen so far. */
  function Run(rs: seq<Runnable>, call: Runnable -> Attempt, last: Option<Exception>, names: seq<string>)
    : Result<Reply, Exception>
  {
    if |rs| == 0 then
      if last.Some? then Err(last.value)
      else Err(Exception(RuntimeError, "Todos os modelos de fallback falharam: " + NamesRepr(names)))
    else
      match Classify(call(rs[0]))
      case Accept(r) => Ok(r)
      case Abort(e) => Err(e)
      case Retry(e) => Run(rs[1..], call, Some(e), names)
  }

  /** The first `j` attempts were all recoverable failures. */
  predicate RetriedBefore(rs: seq<Runnable>, call: Runnable -> Attempt, j: int)
  {
    0 <= j <= |rs| && forall k :: 0 <= k < j ==> Classify(call(rs[k])).Retry?
  }

  /** After `j` recoverable failures the chain behaves like a fresh chain on
      the remaining runnables that remembers the `j`-th error. */
  lemma {:induction false} RunSkipsRetries(rs: seq<Runnable>, call: Runnable -> Attempt, last: Option<Exception>,
                                           names: seq<string>, j: int)
    requires RetriedBefore(rs, call, j) && j > 0
    ensures Run(rs, call, last, names) == Run(rs[j..], call, Some(Classify(call(rs[j - 1])).error), names)
    decreases j
  {
    if j > 1 {
      assert RetriedBefore(rs[1..], call, j - 1) by {
        forall k | 0 <= k < j - 1 ensures Classify(call(rs[1..][k])).Retry? {
          assert rs[1..][k] == rs[k + 1];
        }
      }
      RunSkipsRetries(rs[1..], call, Some(Classify(call(rs[0])).error), names, j - 1);
      assert rs[1..][j - 1..] == rs[j..];
      assert rs[1..][j - 2] == rs[j - 1];
    }
  }

  /** The first runnable whose attempt is not a recoverable failure decides
      the outcome: its reply is returned, or its error raised. */
  lemma FirstDecisiveAttempt(f: FallbackLlm, call: Runnable -> Attempt, j: int)
    requires Valid(f) && RetriedBefore(f.runnables, call, j) && j < |f.runnables|
    requires !Classify(call(f.runnables[j])).Retry?
    ensures var s := Classify(call(f.runnables[j]));
      Run(f.runnables, call, None, f.modelNames) == if s.Accept? then Ok(s.reply) else Err(s.error)
  {
    var rs := f.runnables;
    if j > 0 {
      RunSkipsRetries(rs, call, None, f.modelNames, j);
      assert rs[j..][0] == rs[j];
    }
  }

  /** When every model fails recoverably, the last model's error is raised;
      the generic `RuntimeError` is never reached for a valid instance. */
  lemma AllRetriedRaisesLast(f: FallbackLlm, call: Runnable -> Attempt)
    requires Valid(f) && RetriedBefore(f.runnables, call, |f.runnables|)
    ensures Run(f.runnables, call, None, f.modelNames)
      == Err(call(f.runnables[|f.runnables| - 1]).exception)
  {
    RunSkipsRetries(f.runnables, call, None, f.modelNames, |f.runnables|);
  }

  /** A returned reply was never blocked by the safety filter, and it is the
      reply of some runnable of the chain. */
  lemma {:induction false} RunReturnsSafeReply(rs: seq<Runnable>, call: Runnable -> Attempt,
                                               last: Option<Exception>, names: seq<string>)
    ensures var out := Run(rs, call, last, names);
      out.Ok? ==> (FinishReason(out.value) != "SAFETY"
                   && exists i :: 0 <= i < |rs| && call(rs[i]) == Returned(out.value))
  {
    if |rs| > 0 && Classify(call(rs[0])).Retry? {
      var out := Run(rs[1..], call, Some(Classify(call(rs[0])).error), names);
      RunReturnsSafeReply(rs[1..], call, Some(Classify(call(rs[0])).error), names);
      if out.Ok? {
        var i :| 0 <= i < |rs[1..]| && call(rs[1..][i]) == Returned(out.value);
        assert call(rs[i + 1]) == Returned(out.value);
      }
    }
  }

  /** `FallbackLLM.invoke`. `attempted` is how many models were called. */
  method Invoke(f: FallbackLlm, call: Runnable -> Attempt) returns (outcome: Result<Reply, Exception>, attempted: nat)
    requires Valid(f)
    ensures outcome == Run(f.runnables, call, None, f.modelNames)
    ensures 1 <= attempted <= |f.runnables|
    ensures RetriedBefore(f.runnables, call, attempted - 1)
    ensures attempted < |f.runnables| ==> !Classify(call(f.runnables[attempted - 1])).Retry?
    ensures outcome.Ok? ==> call(f.runnables[attempted - 1]) == Returned(outcome.value)
  {
    var rs := f.runnables;
    var last: Option<Exception> := None;
    var i := 0;
    while i < |rs|
      invariant 0 <= i <= |rs|
      invariant RetriedBefore(rs, call, i)
      invariant i == 0 ==> last.None?
      invariant i > 0 ==> last == Some(Classify(call(rs[i - 1])).error)
      invariant Run(rs, call, None, f.modelNames) == Run(rs[i..], call, last, f.modelNames)
    {
      var step := Classify(call(rs[i]));
      match step {
        case Accept(r) =>
          return Ok(r), i + 1;
        case Abort(e) =>
          return Err(e), i + 1;
        case Retry(e) =>
          assert rs[i..][1..] == rs[i + 1..];
          last := Some(e);
      }
      i := i + 1;
    }
    outcome := Err(last.value);
    attempted := |rs|;
  }
}

=== FILE: memory_manager.dfy ===
/** The short-term conversation memory (src/services/memory_manager.py): a
    four-key record that a crew's final output may update and whose
    accumulated context is appended to the history text shown to the
    agents. Loading from and saving to MongoDB are left out; `json.loads`
    is a parameter that yields `None` on a decoding error. */
module MemoryManager {
  import opened Common
  import opened Text
  import opened Json

  /** The `_state` dict. `Null` stands for Python's `None`; the three
      remembered values hold whatever JSON the tool output carried. */
  datatype ConvState = ConvState(lastTemplate: Value, lastDocumentId: Value,
                                 availableTemplates: Value, extraContext: string)

  /** The state of a conversation that has none stored yet. */
  const Initial: ConvState := ConvState(Null, Null, Null, "")

  const ContextHeader := "\n\n--- CONTEXTO ATUAL DA CONVERSA (MEMÓRIA DE CURTO PRAZO) ---\n"
  const TemplatesIntro := "\n- Os templates disponíveis no sistema são: "

  /** The sentence naming the single template as the main context. */
  function MainTemplateSentence(name: string): string
  {
    " O template '" + name + "' foi identificado como contexto principal."
  }

  /** `', '.join(v)`: a list of strings joins its items, a string joins its
      characters; anything else raises `TypeError` (`None`). */
  function JoinedTemplates(v: Value): (r: Option<string>)
    ensures v.List? && (forall i :: 0 <= i < |v.items| ==> v.items[i].Str?) ==> r == Some(Join(Strings(v), ", "))
    ensures v.List? && (exists i :: 0 <= i < |v.items| && !v.items[i].Str?) ==> r.None?
    ensures v.Str? ==> r == Some(Join(Chars(v.s), ", "))
    ensures !v.List? && !v.Str? ==> r.None?
  {
    match PyJoin(v, ", ")
    case Ok(joined) => Some(joined)
    case Err(_) => None
  }

  /** `len(v) == 1` and `v[0]` as text, for the values whose join succeeded. */
  function SingleTemplate(v: Value): (r: Option<(Value, string)>)
    ensures r.Some? ==> (v.List? && |v.items| == 1) || (v.Str? && |v.s| == 1)
    ensures v.List? && |v.items| == 1 && v.items[0].Str? ==> r == Some((v.items[0], v.items[0].s))
    ensures v.Str? && |v.s| == 1 ==> r == Some((v, v.s))
  {
    match v
    case List(xs) => if |xs| == 1 && xs[0].Str? then Some((xs[0], xs[0].s)) else None
    case Str(s) => if |s| == 1 then Some((Str(s), s)) else None
    case _ => None
  }

  /** The `document_id` step. */
  function RecordDocumentId(st: ConvState, toolData: Value): (r: ConvState)
    ensures r.lastTemplate == st.lastTemplate && r.availableTemplates == st.availableTemplates
    ensures r.extraContext == st.extraContext
    ensures Truthy(GetOr(toolData, "document_id", Null)) ==> r.lastDocumentId == GetOr(toolData, "document_id", Null)
    ensures !Truthy(GetOr(toolData, "document_id", Null)) ==> r == st
  {
    var id := GetOr(toolData, "document_id", Null);
    if Truthy(id) then st.(lastDocumentId := id) else st
  }

  /** The output is a JSON dict whose status is "success". */
  predicate IsSuccessOutput(output: string, loads: string -> Option<Value>)
  {
    loads(output).Some? && loads(output).value.Dict? && HasStatus(loads(output).value, "success")
  }

  /** The templates step, for a truthy `templates` value: the list is
      recorded first, so a failing join leaves it recorded and stops there
      (`None`); otherwise the context sentence, and for a single template its
      name, follow. */
  function RecordTemplates(st: ConvState, templates: Value): (r: Option<ConvState>)
    ensures r.Some? <==> JoinedTemplates(templates).Some?
    ensures r.Some? ==> r.value.availableTemplates == templates && r.value.lastDocumentId == st.lastDocumentId
    ensures r.Some? ==> IsPrefix(st.extraContext + TemplatesIntro + JoinedTemplates(templates).value + ".", r.value.extraContext)
    ensures r.Some? && SingleTemplate(templates).None? ==>
      r.value == st.(availableTemplates := templates,
                     extraContext := st.extraContext + TemplatesIntro + JoinedTemplates(templates).value + ".")
    ensures r.Some? && SingleTemplate(templates).Some? ==>
      r.value.lastTemplate == SingleTemplate(templates).value.0
      && r.value.extraContext == st.extraContext + TemplatesIntro + JoinedTemplates(templates).value + "."
                                 + MainTemplateSentence(SingleTemplate(templates).value.1)
  {
    match JoinedTemplates(templates)
    case None => None
    case Some(joined) =>
      var st2 := st.(availableTemplates := templates, extraContext := st.extraContext + TemplatesIntro + joined + ".");
      match SingleTemplate(templates)
      case None => Some(st2)
      case Some(single) =>
        Some(st2.(lastTemplate := single.0, extraContext := st2.extraContext + MainTemplateSentence(single.1)))
  }

  /** What a success output's `data` dict does to the state. */
  function ApplyToolData(st: ConvState, toolData: Value): (r: ConvState)
    requires toolData.Dict?
    ensures IsPrefix(st.extraContext, r.extraContext)
    ensures !Truthy(GetOr(toolData, "templates", Null)) ==> r == RecordDocumentId(st, toolData)
    ensures Truthy(GetOr(toolData, "templates", Null)) ==>
      r.availableTemplates == GetOr(toolData, "templates", Null)
    ensures Truthy(GetOr(toolData, "templates", Null)) && JoinedTemplates(GetOr(toolData, "templates", Null)).None? ==>
      r == st.(availableTemplates := GetOr(toolData, "templates", Null))
    ensures Truthy(GetOr(toolData, "templates", Null)) && JoinedTemplates(GetOr(toolData, "templates", Null)).Some? ==>
      r == RecordDocumentId(RecordTemplates(st, GetOr(toolData, "templates", Null)).value, toolData)
  {
    var templates := GetOr(toolData, "templates", Null);
    if !Truthy(templates) then RecordDocumentId(st, toolData)
    else
      match RecordTemplates(st, templates)
      case None => st.(availableTemplates := templates)
      case Some(st3) => RecordDocumentId(st3, toolData)
  }

  /** `update_from_tool_output`. Every exception is swallowed, so the result
      is a state and never an error; a step that raises halfway keeps the
      assignments made before it. A `data` entry that is not a dict makes
      the first `.get` raise before any assignment. */
  function UpdateFromToolOutput(st: ConvState, output: string, loads: string -> Option<Value>): (r: ConvState)
    ensures !IsSuccessOutput(output, loads) ==> r == st
    ensures IsPrefix(st.extraContext, r.extraContext)
    ensures IsSuccessOutput(output, loads) && !GetOr(loads(output).value, "data", Dict(map[])).Dict? ==> r == st
    ensures IsSuccessOutput(output, loads) && GetOr(loads(output).value, "data", Dict(map[])).Dict? ==>
      r == ApplyToolData(st, GetOr(loads(output).value, "data", Dict(map[])))
  {
    if !IsSuccessOutput(output, loads) then st
    else
      var toolData := GetOr(loads(output).value, "data", Dict(map[]));
      if !toolData.Dict? then st else ApplyToolData(st, toolData)
  }

  /** The one exception `update_from_tool_output` can meet after an
      assignment: a truthy `templates` entry whose join raises. Every other
      exception (a decoding error, `.get` on a `data` that is not a dict)
      comes before any assignment. */
  predicate JoinRaises(output: string, loads: string -> Option<Value>)
  {
    && IsSuccessOutput(output, loads)
    && GetOr(loads(output).value, "data", Dict(map[])).Dict?
    && Truthy(GetOr(GetOr(loads(output).value, "data", Dict(map[])), "templates", Null))
    && JoinedTemplates(GetOr(GetOr(loads(output).value, "data", Dict(map[])), "templates", Null)).None?
  }

  /** The state `_save_state` writes to the database, which is the memory the
      next request loads. `_save_state` is the last statement of the `try`,
      so an exception skips it and the stored state stays as it was; the
      in-process `_state` of `UpdateFromToolOutput` is then discarded. The
      saved state differs from the in-process one at most in the available
      list, and it never records a list that could not be joined. */
  function SavedState(st: ConvState, output: string, loads: string -> Option<Value>): (r: ConvState)
    ensures r == st || r == UpdateFromToolOutput(st, output, loads)
    ensures var u := UpdateFromToolOutput(st, output, loads);
      r == u.(availableTemplates := r.availableTemplates)
    ensures r.availableTemplates != st.availableTemplates ==> JoinedTemplates(r.availableTemplates).Some?
    ensures JoinRaises(output, loads) ==> r == st
    ensures IsPrefix(st.extraContext, r.extraContext)
  {
    if JoinRaises(output, loads) then st else UpdateFromToolOutput(st, output, loads)
  }

  /** `injectar_contexto_no_prompt`. */
  function InjectContext(st: ConvState, history: string): (r: string)
    ensures IsPrefix(history, r)
    ensures r == history <==> st.extraContext == ""
    ensures st.extraContext != "" ==> r[|history|..] == ContextHeader + st.extraContext
  {
    if st.extraContext == "" then history else history + ContextHeader + st.extraContext
  }

  // ---------------------------------------------------------------------
  // Properties of the memory
  // ---------------------------------------------------------------------

  /** A fresh conversation adds nothing to the history text. */
  lemma FreshStateInjectsNothing(history: string)
    ensures InjectContext(Initial, history) == history
  {
  }

  /** A success output reaches its `data` dict. */
  lemma SuccessData(st: ConvState, output: string, loads: string -> Option<Value>, toolData: Value)
    requires loads(output) == Some(Dict(map["status" := Str("success"), "data" := toolData]))
    requires toolData.Dict?
    ensures UpdateFromToolOutput(st, output, loads) == ApplyToolData(st, toolData)
  {
    assert IsSuccessOutput(output, loads) by {
      assert Get(loads(output).value, "status") == Some(Str("success"));
    }
    assert GetOr(loads(output).value, "data", Dict(map[])) == toolData;
  }

  /** A `data` dict holding only a joinable templates entry. */
  lemma TemplatesOnly(st: ConvState, templates: Value)
    requires Truthy(templates) && RecordTemplates(st, templates).Some?
    ensures ApplyToolData(st, Dict(map["templates" := templates])) == RecordTemplates(st, templates).value
  {
    var toolData := Dict(map["templates" := templates]);
    assert GetOr(toolData, "templates", Null) == templates;
    assert GetOr(toolData, "document_id", Null) == Null;
  }

  /** The tool listing's typical output with several names: they become the
      available list and the sentence naming them is appended; the last
      template and the last document stay as they were. */
  lemma ListingRemembered(st: ConvState, output: string, loads: string -> Option<Value>, items: seq<Value>)
    requires loads(output) == Some(Dict(map["status" := Str("success"),
                                            "data" := Dict(map["templates" := List(items)])]))
    requires |items| > 1 && forall i :: 0 <= i < |items| ==> items[i].Str?
    ensures UpdateFromToolOutput(st, output, loads)
      == st.(availableTemplates := List(items),
             extraContext := st.extraContext + TemplatesIntro + Join(StringItems(items), ", ") + ".")
  {
    RecordManyTemplates(st, items);
    TemplatesOnly(st, List(items));
    SuccessData(st, output, loads, Dict(map["templates" := List(items)]));
  }

  /** The templates step for a list of several names. */
  lemma RecordManyTemplates(st: ConvState, items: seq<Value>)
    requires |items| > 1 && forall i :: 0 <= i < |items| ==> items[i].Str?
    ensures RecordTemplates(st, List(items))
      == Some(st.(availableTemplates := List(items),
                  extraContext := st.extraContext + TemplatesIntro + Join(StringItems(items), ", ") + "."))
  {
    assert JoinedTemplates(List(items)) == Some(Join(StringItems(items), ", "));
    assert SingleTemplate(List(items)).None?;
  }

  /** A listing of exactly one template also makes it the template last
      mentioned, with a second sentence naming it. */
  lemma SingleListingRemembered(st: ConvState, output: string, loads: string -> Option<Value>, name: string)
    requires loads(output) == Some(Dict(map["status" := Str("success"),
                                            "data" := Dict(map["templates" := List([Str(name)])])]))
    ensures var r := UpdateFromToolOutput(st, output, loads);
      && r.availableTemplates == List([Str(name)])
      && r.lastDocumentId == st.lastDocumentId
      && r.lastTemplate == Str(name)
      && r.extraContext == st.extraContext + TemplatesIntro + name + "." + MainTemplateSentence(name)
  {
    var v := List([Str(name)]);
    SuccessData(st, output, loads, Dict(map["templates" := v]));
    assert StringItems(v.items) == [name] by {
      assert v.items[1..] == [];
    }
    TemplatesOnly(st, v);
  }

  /** A created document's id is remembered and nothing else changes. */
  lemma CreatedDocumentRemembered(st: ConvState, output: string, loads: string -> Option<Value>, id: string)
    requires loads(output) == Some(Dict(map["status" := Str("success"),
                                            "data" := Dict(map["document_id" := Str(id)])]))
    requires id != ""
    ensures UpdateFromToolOutput(st, output, loads) == st.(lastDocumentId := Str(id))
  {
    var toolData := Dict(map["document_id" := Str(id)]);
    SuccessData(st, output, loads, toolData);
    assert GetOr(toolData, "templates", Null) == Null;
    assert GetOr(toolData, "document_id", Null) == Str(id);
  }

  /** A templates entry that cannot be joined records the list in the
      in-process state but neither extends the context nor reaches the
      document id; the swallowed `TypeError` also skips the save, so the
      stored memory is unchanged. */
  lemma PartialUpdateOnUnjoinableTemplates(st: ConvState, output: string, loads: string -> Option<Value>,
                                           n: int, id: string)
    requires loads(output) == Some(Dict(map["status" := Str("success"),
                                            "data" := Dict(map["templates" := List([Int(n)]),
                                                               "document_id" := Str(id)])]))
    ensures UpdateFromToolOutput(st, output, loads) == st.(availableTemplates := List([Int(n)]))
    ensures SavedState(st, output, loads) == st
  {
    var toolData := Dict(map["templates" := List([Int(n)]), "document_id" := Str(id)]);
    SuccessData(st, output, loads, toolData);
    assert GetOr(toolData, "templates", Null) == List([Int(n)]);
    assert !List([Int(n)]).items[0].Str?;
  }

  /** The same listing twice appends its sentence twice: the update is not
      idempotent, and the context keeps growing. */
  lemma RepeatedListingGrows(st: ConvState, output: string, loads: string -> Option<Value>, a: string, b: string)
    requires loads(output) == Some(Dict(map["status" := Str("success"),
                                            "data" := Dict(map["templates" := List([Str(a), Str(b)])])]))
    ensures var s1 := UpdateFromToolOutput(st, output, loads);
      var s2 := UpdateFromToolOutput(s1, output, loads);
      && s2.extraContext == s1.extraContext + TemplatesIntro + a + ", " + b + "."
      && |s2.extraContext| > |s1.extraContext| > |st.extraContext|
  {
    var items := [Str(a), Str(b)];
    assert StringItems(items) == [a, b] by {
      assert items[1..] == [Str(b)];
    }
    assert Join([a, b], ", ") == a + ", " + b;
    ListingRemembered(st, output, loads, items);
    ListingRemembered(UpdateFromToolOutput(st, output, loads), output, loads, items);
  }

  /** Only the nested `data` dict is read: an output that carries its
      results at the top level, as the tools' own success dicts do, changes
      nothing. */
  lemma OutputWithoutDataIgnored(st: ConvState, output: string, loads: string -> Option<Value>,
                                 fields: map<string, Value>)
    requires loads(output) == Some(Dict(fields)) && "data" !in fields
    ensures UpdateFromToolOutput(st, output, loads) == st
  {
    if IsSuccessOutput(output, loads) {
      var toolData := GetOr(loads(output).value, "data", Dict(map[]));
      assert toolData == Dict(map[]);
      assert GetOr(toolData, "templates", Null) == Null;
      assert GetOr(toolData, "document_id", Null) == Null;
    }
  }

  /** After any update, the injected text still starts with the history and
      still ends with everything the context held before. */
  lemma InjectAfterUpdate(st: ConvState, output: string, loads: string -> Option<Value>, history: string)
    requires st.extraContext != ""
    ensures var r := InjectContext(UpdateFromToolOutput(st, output, loads), history);
      IsPrefix(history + ContextHeader + st.extraContext, r)
  {
    var u := UpdateFromToolOutput(st, output, loads);
    assert u.extraContext[..|st.extraContext|] == st.extraContext;
    assert u.extraContext != "";
    var r := InjectContext(u, history);
    assert r == history + ContextHeader + u.extraContext;
    assert r[..|history + ContextHeader + st.extraContext|] == history + ContextHeader + st.extraContext;
  }
}

=== FILE: text.dfy ===
/** Python `str` operations the core relies on, written out so that their
    edge cases (what counts as whitespace, how `split` treats separators,
    how `replace` scans) are explicit rather than borrowed from a library. */
module Text {

  /** The characters for which Python's `str.isspace()` holds; the same set
      is what `str.strip()` removes and what the regex class `\s` matches. */
  predicate IsSpace(c: char)
  {
    || c == ' '
    || ('\t' <= c <= '\r')
    || ('\U{1c}' <= c <= '\U{1f}')
    || c == '\U{85}' || c == '\U{a0}' || c == '\U{1680}'
    || ('\U{2000}' <= c <= '\U{200a}')
    || c == '\U{2028}' || c == '\U{2029}' || c == '\U{202f}' || c == '\U{205f}'
    || c == '\U{3000}'
  }

  /** Empty or whitespace-only: the strings for which `s.strip()` is falsy. */
  predicate IsBlank(s: string)
  {
    forall i :: 0 <= i < |s| ==> IsSpace(s[i])
  }

  function TrimLeft(s: string): (r: string)
    ensures |r| <= |s| && r == s[|s| - |r|..]
    ensures r == "" || !IsSpace(r[0])
    ensures IsBlank(s[..|s| - |r|])
  {
    if |s| > 0 && IsSpace(s[0]) then
      var r := TrimLeft(s[1..]);
      assert s[1..][..|s[1..]| - |r|] == s[1..|s| - |r|];
      r
    else s
  }

  function TrimRight(s: string): (r: string)
    ensures |r| <= |s| && r == s[..|r|]
    ensures r == "" || !IsSpace(r[|r| - 1])
    ensures IsBlank(s[|r|..])
  {
    if |s| > 0 && IsSpace(s[|s| - 1]) then
      var t := s[..|s| - 1];
      var r := TrimRight(t);
      assert IsBlank(s[|r|..]) by {
        forall i | 0 <= i < |s| - |r| ensures IsSpace(s[|r|..][i]) {
          if i < |t| - |r| {
            assert s[|r|..][i] == t[|r|..][i];
          }
        }
      }
      r
    else s
  }

  /** Python's `s.strip()` with no argument. */
  function Strip(s: string): (r: string)
    ensures |r| <= |s|
    ensures r == "" <==> IsBlank(s)
    ensures r == "" || (!IsSpace(r[0]) && !IsSpace(r[|r| - 1]))
    ensures |s| > 0 && !IsSpace(s[0]) && !IsSpace(s[|s| - 1]) ==> r == s
  {
    var l := TrimLeft(s);
    var r := TrimRight(l);
    if r == "" then
      assert IsBlank(s) by {
        assert s == s[..|s| - |l|] + l;
        assert IsBlank(l) by { assert l[|r|..] == l; }
      }
      r
    else
      assert !IsBlank(s) by { assert s[|s| - |l|] == l[0]; }
      r
  }

  /** ASCII case mapping of Python's `str.lower()`; other characters are
      left as they are. */
  function LowerChar(c: char): char
  {
    if 'A' <= c <= 'Z' then (c as int + 32) as char else c
  }

  function Lower(s: string): (r: string)
    ensures |r| == |s|
    ensures forall i :: 0 <= i < |s| ==> r[i] == LowerChar(s[i])
  {
    seq(|s|, i requires 0 <= i < |s| => LowerChar(s[i]))
  }

  predicate IsPrefix(p: string, s: string)
  {
    |p| <= |s| && s[..|p|] == p
  }

  /** Python's `sub in s`. */
  predicate Contains(s: string, sub: string)
    decreases |s|
  {
    IsPrefix(sub, s) || (|s| > 0 && Contains(s[1..], sub))
  }

  /** `any(w in s for w in words)`. */
  predicate ContainsAny(s: string, words: seq<string>)
  {
    exists i :: 0 <= i < |words| && Contains(s, words[i])
  }

  /** Python's `'.' in s` for a single character. */
  lemma {:induction false} ContainsChar(s: string, c: char)
    ensures Contains(s, [c]) <==> c in s
    decreases |s|
  {
    if |s| > 0 {
      ContainsChar(s[1..], c);
      assert c in s <==> s[0] == c || c in s[1..] by {
        assert s == [s[0]] + s[1..];
      }
    }
  }

  /** Number of occurrences of character `c` in `s`. */
  function Count(s: string, c: char): nat
  {
    if |s| == 0 then 0 else (if s[0] == c then 1 else 0) + Count(s[1..], c)
  }

  /** Python's `s.split(sep)` for a one-character separator: the segments
      between separators, including empty ones at either end. */
  function Split(s: string, sep: char): (r: seq<string>)
    ensures |r| == Count(s, sep) + 1
    ensures forall i :: 0 <= i < |r| ==> sep !in r[i]
  {
    if |s| == 0 then [""]
    else
      var rest := Split(s[1..], sep);
      if s[0] == sep then [""] + rest
      else [[s[0]] + rest[0]] + rest[1..]
  }

  /** Python's `sep.join(parts)`. */
  function Join(parts: seq<string>, sep: string): string
  {
    if |parts| == 0 then ""
    else if |parts| == 1 then parts[0]
    else parts[0] + sep + Join(parts[1..], sep)
  }

  /** Splitting and re-joining with the same separator gives back the input. */
  lemma {:induction false} JoinSplit(s: string, sep: char)
    ensures Join(Split(s, sep), [sep]) == s
  {
    if |s| > 0 {
      JoinSplit(s[1..], sep);
      var rest := Split(s[1..], sep);
      if s[0] == sep {
        assert Split(s, sep) == [""] + rest;
        assert s == [sep] + s[1..];
      } else {
        if |rest| == 1 {
          assert Split(s, sep) == [[s[0]] + rest[0]];
        } else {
          assert Split(s, sep)[1..] == rest[1..];
          assert s == [s[0]] + s[1..];
        }
      }
    }
  }

  /** The first segment of `s.split(sep)` is the prefix before the first
      separator (all of `s` when there is none). */
  lemma {:induction false} SplitHead(s: string, sep: char)
    ensures IsPrefix(Split(s, sep)[0], s)
    ensures sep in s ==> |Split(s, sep)[0]| < |s| && s[|Split(s, sep)[0]|] == sep
    ensures sep !in s ==> Split(s, sep)[0] == s
  {
    if |s| > 0 {
      var t := s[1..];
      SplitHead(t, sep);
      assert s == [s[0]] + t;
      SplitCons(s[0], t, sep);
      if s[0] != sep {
        var h := Split(t, sep)[0];
        assert Split(s, sep)[0] == [s[0]] + h;
        assert sep in s ==> sep in t;
        assert s[..|h| + 1] == [s[0]] + t[..|h|];
      }
    }
  }

  /** A text without the separator splits into itself alone. */
  lemma {:induction false} SplitWithoutSep(s: string, sep: char)
    requires sep !in s
    ensures Split(s, sep) == [s]
  {
    if |s| > 0 {
      SplitWithoutSep(s[1..], sep);
      assert s == [s[0]] + s[1..];
    }
  }

  /** `(a + sep + b).split(sep)[-1] == b` when `b` has no separator. */
  lemma {:induction false} SplitLastSegment(a: string, sep: char, b: string)
    requires sep !in b
    ensures var p := Split(a + [sep] + b, sep); |p| >= 2 && p[|p| - 1] == b
  {
    var s := a + [sep] + b;
    if |a| == 0 {
      assert s == [sep] + b && s[1..] == b;
      SplitWithoutSep(b, sep);
    } else {
      SplitLastSegment(a[1..], sep, b);
      assert s[1..] == a[1..] + [sep] + b;
    }
  }

  /** Splitting `a + sep + b` gives the segments of `a` followed by those
      of `b`: the separator closes the last segment of `a`. */
  lemma {:induction false} SplitAppend(a: string, sep: char, b: string)
    ensures Split(a + [sep] + b, sep) == Split(a, sep) + Split(b, sep)
  {
    if |a| == 0 {
      assert a + [sep] + b == [sep] + b;
      SplitCons(sep, b, sep);
    } else {
      var c, x := a[0], a[1..];
      SplitAppend(x, sep, b);
      assert a == [c] + x;
      assert a + [sep] + b == [c] + (x + [sep] + b);
      StepFromCons(c, x, x + [sep] + b, sep, Split(b, sep));
    }
  }

  /** `SplitCons` applied to two texts with the same first character whose
      remainders' segments differ by a common suffix. */
  lemma StepFromCons(c: char, x: string, t: string, sep: char, tail: seq<string>)
    requires Split(t, sep) == Split(x, sep) + tail
    ensures Split([c] + t, sep) == Split([c] + x, sep) + tail
  {
    SplitCons(c, t, sep);
    SplitCons(c, x, sep);
    if c != sep {
      ExtendFirst([c], Split(x, sep), tail);
    }
  }

  /** Prefixing the first element of `xs + tail` is prefixing the first
      element of `xs`, when `xs` is not empty. */
  lemma ExtendFirst(p: string, xs: seq<string>, tail: seq<string>)
    requires |xs| > 0
    ensures [p + (xs + tail)[0]] + (xs + tail)[1..] == ([p + xs[0]] + xs[1..]) + tail
  {
    assert (xs + tail)[1..] == xs[1..] + tail;
  }

  /** One step of `split`: a leading separator closes an empty segment, any
      other character starts the first segment. */
  lemma SplitCons(c: char, t: string, sep: char)
    ensures Split([c] + t, sep)
      == if c == sep then [""] + Split(t, sep) else [[c] + Split(t, sep)[0]] + Split(t, sep)[1..]
  {
    assert ([c] + t)[1..] == t;
  }

  /** Python's `s.replace(old, new)`: a left-to-right scan replacing every
      non-overlapping occurrence. */
  function ReplaceAll(s: string, pat: string, repl: string): string
    requires |pat| > 0
    decreases |s|
  {
    if |s| < |pat| then s
    else if s[..|pat|] == pat then repl + ReplaceAll(s[|pat|..], pat, repl)
    else [s[0]] + ReplaceAll(s[1..], pat, repl)
  }

  /** A prefix that does not contain the first character of the pattern passes
      through `replace` untouched. */
  lemma {:induction false} ReplaceAllSkips(a: string, b: string, pat: string, repl: string)
    requires |pat| > 0 && pat[0] !in a
    ensures ReplaceAll(a + b, pat, repl) == a + ReplaceAll(b, pat, repl)
    decreases |a|
  {
    if |a| > 0 {
      assert |a + b| >= |pat| ==> (a + b)[..|pat|] != pat by {
        if |a + b| >= |pat| { assert (a + b)[0] == a[0]; }
      }
      assert (a + b)[1..] == a[1..] + b;
      ReplaceAllSkips(a[1..], b, pat, repl);
    } else {
      assert a + b == b;
    }
  }

  /** Python's `s[-n:]`: the last `n` characters, or all of `s` if shorter. */
  function LastChars(s: string, n: nat): (r: string)
    ensures |r| == if |s| < n then |s| else n
    ensures r == s[|s| - |r|..]
  {
    if |s| <= n then s else s[|s| - n..]
  }

  /** The one-character strings a Python string iterates over. */
  function Chars(s: string): (r: seq<string>)
    ensures |r| == |s|
    ensures forall i :: 0 <= i < |s| ==> r[i] == [s[i]]
  {
    seq(|s|, i requires 0 <= i < |s| => [s[i]])
  }

  /** `str(n)` for a natural number. */
  function Decimal(n: nat): (r: string)
    ensures |r| > 0 && forall i :: 0 <= i < |r| ==> '0' <= r[i] <= '9'
  {
    var d := ['0' + (n % 10) as char];
    if n < 10 then d else Decimal(n / 10) + d
  }

  predicate IsHexDigit(c: char)
  {
    ('0' <= c <= '9') || ('a' <= c <= 'f') || ('A' <= c <= 'F')
  }

  /** 24 hexadecimal digits: the form of the ids the program itself produces
      and passes to `bson.ObjectId`. */
  predicate IsObjectIdString(s: string)
  {
    |s| == 24 && forall i :: 0 <= i < |s| ==> IsHexDigit(s[i])
  }

  // ---------------------------------------------------------------------
  // Python's string ordering (code point by code point) and `sorted(set(..))`.
  // ---------------------------------------------------------------------

  predicate Less(a: string, b: string)
    decreases |a|
  {
    |b| > 0 && (|a| == 0 || a[0] < b[0] || (a[0] == b[0] && Less(a[1..], b[1..])))
  }

  lemma {:induction false} LessIrreflexive(a: string)
    ensures !Less(a, a)
    decreases |a|
  {
    if |a| > 0 { LessIrreflexive(a[1..]); }
  }

  lemma {:induction false} LessTransitive(a: string, b: string, c: string)
    requires Less(a, b) && Less(b, c)
    ensures Less(a, c)
    decreases |a|
  {
    if |a| > 0 && a[0] == b[0] && b[0] == c[0] {
      LessTransitive(a[1..], b[1..], c[1..]);
    }
  }

  lemma {:induction false} LessTotal(a: string, b: string)
    requires a != b
    ensures Less(a, b) || Less(b, a)
    decreases |a|
  {
    if |a| > 0 && |b| > 0 && a[0] == b[0] {
      assert a[1..] != b[1..] by {
        assert a == [a[0]] + a[1..] && b == [b[0]] + b[1..];
      }
      LessTotal(a[1..], b[1..]);
    }
  }

  /** Strictly increasing, hence also free of duplicates. */
  predicate StrictlySorted(s: seq<string>)
  {
    forall i, j :: 0 <= i < j < |s| ==> Less(s[i], s[j])
  }

  lemma StrictlySortedDistinct(s: seq<string>)
    requires StrictlySorted(s)
    ensures forall i, j :: 0 <= i < j < |s| ==> s[i] != s[j]
  {
    forall i, j | 0 <= i < j < |s| ensures s[i] != s[j] {
      LessIrreflexive(s[i]);
    }
  }

  function Insert(x: string, ys: seq<string>): (r: seq<string>)
    requires StrictlySorted(ys)
    ensures StrictlySorted(r)
    ensures forall z :: z in r <==> z == x || z in ys
  {
    if |ys| == 0 then [x]
    else if x == ys[0] then ys
    else if Less(x, ys[0]) then
      assert forall j :: 0 < j < |ys| ==> Less(x, ys[j]) by {
        forall j | 0 < j < |ys| ensures Less(x, ys[j]) { LessTransitive(x, ys[0], ys[j]); }
      }
      [x] + ys
    else
      LessTotal(x, ys[0]);
      var tail := Insert(x, ys[1..]);
      assert forall z :: z in tail ==> Less(ys[0], z);
      [ys[0]] + tail
  }

  /** Python's `sorted(set(xs))` for strings. */
  function SortedSet(xs: seq<string>): (r: seq<string>)
    ensures StrictlySorted(r)
    ensures forall z :: z in r <==> z in xs
  {
    if |xs| == 0 then []
    else
      var r := Insert(xs[|xs| - 1], SortedSet(xs[..|xs| - 1]));
      assert forall z :: z in xs <==> z in xs[..|xs| - 1] || z == xs[|xs| - 1] by {
        assert xs == xs[..|xs| - 1] + [xs[|xs| - 1]];
      }
      r
  }
}

=== FILE: tool_response.dfy ===
/** The standard tool result record, its dict conversion, and the closed set
    of error codes (src/models/tool_response.py). */
module ToolResponses {
  import opened Common
  import opened Json

  datatype ToolResponse = ToolResponse(
    status: string,
    message: Option<string>,
    data: Option<map<string, Value>>,
    errorCode: Option<string>)

  /** Keys of the record with the value each holds, `None` included, in
      declaration order: what `self.dict()` produces before filtering. */
  function Fields(t: ToolResponse): map<string, Option<Value>>
  {
    map[
      "status" := Some(Str(t.status)),
      "message" := if t.message.Some? then Some(Str(t.message.value)) else None,
      "data" := if t.data.Some? then Some(Dict(t.data.value)) else None,
      "error_code" := if t.errorCode.Some? then Some(Str(t.errorCode.value)) else None]
  }

  /** `to_dict`: the record as a dict with every `None`-valued field left out. */
  function ToDict(t: ToolResponse): (r: map<string, Value>)
    ensures forall k :: k in r <==> k in Fields(t) && Fields(t)[k].Some?
    ensures forall k :: k in r ==> Some(r[k]) == Fields(t)[k]
  {
    var f := Fields(t);
    map k | k in f && f[k].Some? :: f[k].value
  }

  /** The dict always carries the status and omits exactly the absent fields. */
  lemma ToDictKeys(t: ToolResponse)
    ensures ToDict(t).Keys
      == {"status"}
         + (if t.message.Some? then {"message"} else {})
         + (if t.data.Some? then {"data"} else {})
         + (if t.errorCode.Some? then {"error_code"} else {})
    ensures ToDict(t)["status"] == Str(t.status)
  {
  }

  /** `ToolResponse.success(message, data)`. */
  function Success(message: Option<string>, data: Option<map<string, Value>>): (r: ToolResponse)
    ensures r.status == "success" && r.errorCode.None?
    ensures r.message == message && r.data == data
    ensures "error_code" !in ToDict(r)
  {
    ToolResponse("success", message, data, None)
  }

  /** `ToolResponse.error(message, error_code, data)`: the message is mandatory. */
  function Error(message: string, errorCode: Option<string>, data: Option<map<string, Value>>): (r: ToolResponse)
    ensures r.status == "error" && r.message == Some(message)
    ensures r.errorCode == errorCode && r.data == data
    ensures ToDict(r)["message"] == Str(message)
  {
    ToolResponse("error", Some(message), data, errorCode)
  }

  /** The `ErrorCodes` class: seven named string constants. */
  datatype ErrorCode =
    | TemplateNotFound
    | DocumentNotFound
    | InvalidObjectId
    | GridfsError
    | PermissionDenied
    | ValidationError
    | UnknownError

  const AllErrorCodes: seq<ErrorCode> :=
    [TemplateNotFound, DocumentNotFound, InvalidObjectId, GridfsError,
     PermissionDenied, ValidationError, UnknownError]

  function CodeString(c: ErrorCode): string
  {
    match c
    case TemplateNotFound => "TEMPLATE_NOT_FOUND"
    case DocumentNotFound => "DOCUMENT_NOT_FOUND"
    case InvalidObjectId => "INVALID_OBJECT_ID"
    case GridfsError => "GRIDFS_ERROR"
    case PermissionDenied => "PERMISSION_DENIED"
    case ValidationError => "VALIDATION_ERROR"
    case UnknownError => "UNKNOWN_ERROR"
  }

  /** Reading a code back from its string; `None` outside the closed set. */
  function ParseCode(s: string): (r: Option<ErrorCode>)
    ensures r.Some? ==> CodeString(r.value) == s
    ensures r.None? ==> forall c: ErrorCode :: CodeString(c) != s
  {
    if s == "TEMPLATE_NOT_FOUND" then Some(TemplateNotFound)
    else if s == "DOCUMENT_NOT_FOUND" then Some(DocumentNotFound)
    else if s == "INVALID_OBJECT_ID" then Some(InvalidObjectId)
    else if s == "GRIDFS_ERROR" then Some(GridfsError)
    else if s == "PERMISSION_DENIED" then Some(PermissionDenied)
    else if s == "VALIDATION_ERROR" then Some(ValidationError)
    else if s == "UNKNOWN_ERROR" then Some(UnknownError)
    else None
  }

  /** The set is closed and its strings are distinct: there are exactly seven
      codes and every one reads back as itself. */
  lemma {:induction false} ErrorCodesClosed()
    ensures |AllErrorCodes| == 7
    ensures forall c: ErrorCode :: c in AllErrorCodes
    ensures forall c: ErrorCode :: ParseCode(CodeString(c)) == Some(c)
    ensures forall i, j :: 0 <= i < j < |AllErrorCodes| ==>
      CodeString(AllErrorCodes[i]) != CodeString(AllErrorCodes[j])
  {
    forall c: ErrorCode ensures c in AllErrorCodes && ParseCode(CodeString(c)) == Some(c) {
      match c
      case TemplateNotFound =>
      case DocumentNotFound =>
      case InvalidObjectId =>
      case GridfsError =>
      case PermissionDenied =>
      case ValidationError =>
      case UnknownError =>
    }
  }
}

=== FILE: tools.dfy ===
/** The deterministic parts of the CrewAI tools (src/tasks/tools.py): the
    context cleaner, the template inspector's block sanitising, the simple
    generator's line and format dispatch, and the filler's output filename.
    Tool results are the plain dicts the tools return, as `Json.Value`s;
    database lookups, GridFS reads and writes, template rendering and the
    clock are parameters. */
module Tools {
  import opened Common
  import opened Text
  import opened Json
  import FileTypes
  import FileGenerators

  // ---------------------------------------------------------------------
  // _limpar_contexto_vazio
  // ---------------------------------------------------------------------

  /** A value the cleaner leaves as it is: no blank string anywhere, and no
      `None` inside a list. Dict values may be `None`. */
  predicate Cleaned(v: Value)
  {
    match v
    case Str(s) => !IsBlank(s)
    case List(xs) => Null !in xs && forall y :: y in xs ==> Cleaned(y)
    case Dict(m) => forall k :: k in m ==> Cleaned(m[k])
    case _ => true
  }

  /** `xs` appears in `ys` in the same relative order. */
  predicate IsSubsequence(xs: seq<Value>, ys: seq<Value>)
  {
    |xs| == 0 || (|ys| > 0 && ((xs[0] == ys[0] && IsSubsequence(xs[1..], ys[1..])) || IsSubsequence(xs, ys[1..])))
  }

  /** `[item for item in xs if item is not None]`. */
  function DropNulls(xs: seq<Value>): (r: seq<Value>)
    ensures |r| <= |xs| && Null !in r
    ensures IsSubsequence(r, xs)
    ensures forall y :: y != Null ==> multiset(r)[y] == multiset(xs)[y]
    ensures forall y :: y in r ==> y in xs
    ensures Null !in xs ==> r == xs
  {
    if |xs| == 0 then []
    else
      var rest := DropNulls(xs[1..]);
      assert xs == [xs[0]] + xs[1..];
      if xs[0] == Null then rest else [xs[0]] + rest
  }

  /** The cleaner applied to every element of a list, before `None`s are dropped. */
  function CleanEach(xs: seq<Value>): (r: seq<Value>)
    ensures |r| == |xs|
    ensures forall i :: 0 <= i < |r| ==> r[i] == Clean(xs[i])
    ensures forall y :: y in r ==> Cleaned(y)
    decreases xs
  {
    if |xs| == 0 then [] else [Clean(xs[0])] + CleanEach(xs[1..])
  }

  /** `_limpar_contexto_vazio`. */
  function Clean(v: Value): (r: Value)
    ensures v.Str? ==> (r == Null <==> IsBlank(v.s)) && (!IsBlank(v.s) ==> r == v)
    ensures v.List? ==> r.List? && |r.items| <= |v.items|
    ensures v.Dict? ==> r.Dict? && r.fields.Keys == v.fields.Keys
    ensures !(v.Str? || v.List? || v.Dict?) ==> r == v
    ensures Cleaned(r)
    decreases v
  {
    match v
    case Str(s) => if Strip(s) != "" then v else Null
    case List(xs) => List(DropNulls(CleanEach(xs)))
    case Dict(m) => Dict(map k | k in m :: Clean(m[k]))
    case _ => v
  }

  /** Lists keep their surviving elements in order: the cleaned list is the
      element-wise cleaning with exactly the `None`s removed. */
  lemma CleanList(xs: seq<Value>)
    ensures var r := Clean(List(xs)).items;
      && IsSubsequence(r, CleanEach(xs))
      && Null !in r
      && forall y :: y != Null ==> multiset(r)[y] == multiset(CleanEach(xs))[y]
  {
  }

  /** Dicts keep every key, also when its value becomes `None`, and each
      value is cleaned in place. */
  lemma CleanDict(m: map<string, Value>, k: string)
    requires k in m
    ensures k in Clean(Dict(m)).fields && Clean(Dict(m)).fields[k] == Clean(m[k])
  {
  }

  /** A value already in cleaned form is returned unchanged. */
  lemma {:induction false} CleanFixesCleaned(v: Value)
    requires Cleaned(v)
    ensures Clean(v) == v
    decreases v
  {
    match v
    case Str(s) =>
    case List(xs) =>
      forall i | 0 <= i < |xs| ensures Clean(xs[i]) == xs[i] {
        assert xs[i] in xs;
        CleanFixesCleaned(xs[i]);
      }
      assert CleanEach(xs) == xs;
    case Dict(m) =>
      forall k | k in m ensures Clean(m[k]) == m[k] {
        CleanFixesCleaned(m[k]);
      }
      assert (map k | k in m :: Clean(m[k])) == m;
    case _ =>
  }

  /** Cleaning twice is cleaning once. */
  lemma CleanIdempotent(v: Value)
    ensures Clean(Clean(v)) == Clean(v)
  {
    CleanFixesCleaned(Clean(v));
  }

  // ---------------------------------------------------------------------
  // TemplateInspectorTool._run
  // ---------------------------------------------------------------------

  /** Characters `re.sub(r'[\{\}\%\s]', '', block)` deletes. */
  predicate IsMarkup(c: char)
  {
    c == '{' || c == '}' || c == '%' || IsSpace(c)
  }

  function RemoveMarkup(s: string): (r: string)
    ensures forall i :: 0 <= i < |r| ==> !IsMarkup(r[i])
    ensures |r| <= |s|
  {
    if |s| == 0 then ""
    else (if IsMarkup(s[0]) then "" else [s[0]]) + RemoveMarkup(s[1..])
  }

  /** The name a Jinja block reports: markup removed, then cut before the
      first '|' and then before the first '.'. */
  function BlockName(block: string): string
  {
    Split(Split(RemoveMarkup(block), '|')[0], '.')[0]
  }

  /** The reported name is the longest prefix of the de-marked block that
      holds neither '|' nor '.'. */
  lemma BlockNameShape(block: string)
    ensures var m := RemoveMarkup(block);
      var r := BlockName(block);
      && IsPrefix(r, m)
      && '|' !in r && '.' !in r
      && (forall i :: 0 <= i < |r| ==> !IsMarkup(r[i]))
      && (|r| < |m| ==> m[|r|] == '|' || m[|r|] == '.')
  {
    var m := RemoveMarkup(block);
    var p := Split(m, '|')[0];
    SplitHead(m, '|');
    SplitHead(p, '.');
  }

  const ControlKeywords: seq<string> := ["if", "for", "in", "endif", "endfor"]

  predicate IsReported(block: string)
  {
    BlockName(block) != "" && BlockName(block) !in ControlKeywords
  }

  function ReportedNames(blocks: seq<string>): (r: seq<string>)
    ensures forall x :: x in r <==> exists b :: b in blocks && IsReported(b) && BlockName(b) == x
  {
    if |blocks| == 0 then []
    else
      var rest := ReportedNames(blocks[1..]);
      assert forall b :: b in blocks <==> b == blocks[0] || b in blocks[1..] by {
        assert blocks == [blocks[0]] + blocks[1..];
      }
      if IsReported(blocks[0]) then [BlockName(blocks[0])] + rest else rest
  }

  function StrList(xs: seq<string>): (r: Value)
    ensures r.List? && |r.items| == |xs|
    ensures forall i :: 0 <= i < |xs| ==> r.items[i] == Str(xs[i])
  {
    List(seq(|xs|, i requires 0 <= i < |xs| => Str(xs[i])))
  }

  function ErrorOutput(message: string): (v: Value)
    ensures HasStatus(v, "error") && !HasStatus(v, "success")
    ensures Get(v, "message") == Some(Str(message))
  {
    Dict(map["status" := Str("error"), "message" := Str(message)])
  }

  function NotFoundMessage(templateName: string): string
  {
    "Template '" + templateName + "' não encontrado."
  }

  /** `TemplateInspectorTool._run`. `found` is the registry lookup;
      `blocks` is what reading `word/document.xml` and the block regex
      produced, or the text of the exception raised on the way. */
  function Inspect(templateName: string, found: bool, blocks: Result<seq<string>, string>): (r: Value)
    ensures !found ==> r == ErrorOutput(NotFoundMessage(templateName))
    ensures found && blocks.Err? ==>
      r == ErrorOutput("Erro ao inspecionar o template: " + blocks.error)
    ensures found && blocks.Ok? ==> HasStatus(r, "success") && Get(r, "variables").Some?
    ensures found && blocks.Ok? ==>
      var names := Strings(Get(r, "variables").value);
      && StrictlySorted(names)
      && (forall x :: x in names <==> exists b :: b in blocks.value && IsReported(b) && BlockName(b) == x)
      && (Get(r, "message").Some? <==> names == [])
  {
    if !found then ErrorOutput(NotFoundMessage(templateName))
    else match blocks
      case Err(e) => ErrorOutput("Erro ao inspecionar o template: " + e)
      case Ok(bs) =>
        var names := SortedSet(ReportedNames(bs));
        assert Strings(StrList(names)) == names by { StringsOfStrList(names); }
        if names == [] then
          Dict(map["status" := Str("success"), "variables" := List([]),
                   "message" := Str("Nenhum placeholder encontrado.")])
        else
          Dict(map["status" := Str("success"), "variables" := StrList(names)])
  }

  lemma {:induction false} StringsOfStrList(xs: seq<string>)
    ensures Strings(StrList(xs)) == xs
  {
    if |xs| > 0 {
      StringsOfStrList(xs[1..]);
      assert StrList(xs).items[1..] == StrList(xs[1..]).items;
    }
  }

  /** Control keywords and blocks that clean to nothing are never reported. */
  lemma KeywordsNotReported(templateName: string, bs: seq<string>, x: string)
    requires x in ControlKeywords || x == ""
    ensures x !in Strings(Get(Inspect(templateName, true, Ok(bs)), "variables").value)
  {
  }

  // ---------------------------------------------------------------------
  // Shared by the generator and the filler
  // ---------------------------------------------------------------------

  function OwnerErrorMessage(ownerId: string): string
  {
    "O owner_id '" + ownerId + "' fornecido não é válido."
  }

  function CreatedMessage(filename: string): string
  {
    "Documento '" + filename + "' gerado com sucesso."
  }

  function CreatedOutput(filename: string, documentId: string): (v: Value)
    ensures HasStatus(v, "success")
    ensures Get(v, "document_id") == Some(Str(documentId))
  {
    Dict(map["status" := Str("success"), "message" := Str(CreatedMessage(filename)),
             "document_id" := Str(documentId)])
  }

  // ---------------------------------------------------------------------
  // TemplateListerTool._run
  // ---------------------------------------------------------------------

  /** `TemplateListerTool._run`. `listing` is the stored templates'
      filenames in query order, or the text of the exception raised while
      reading them. The names are returned at the top level. */
  function ListerOutput(listing: Result<seq<string>, string>): (r: Value)
    ensures listing.Ok? ==> HasStatus(r, "success") && Get(r, "templates") == Some(StrList(listing.value))
    ensures listing.Err? ==> r == ErrorOutput("Erro ao listar os templates: " + listing.error)
    ensures r.Dict? && "data" !in r.fields
  {
    match listing
    case Ok(names) => Dict(map["status" := Str("success"), "templates" := StrList(names)])
    case Err(e) => ErrorOutput("Erro ao listar os templates: " + e)
  }

  // ---------------------------------------------------------------------
  // SimpleDocumentGeneratorTool._run
  // ---------------------------------------------------------------------

  /** A non-empty line with no whitespace at either end. */
  predicate Unpadded(line: string)
  {
    line != "" && !IsSpace(line[0]) && !IsSpace(line[|line| - 1])
  }

  /** The stripped, non-blank lines of the generated content. */
  function ContentLines(content: string): (r: seq<string>)
    ensures |r| <= Count(content, '\n') + 1
    ensures forall i :: 0 <= i < |r| ==> Unpadded(r[i])
  {
    StrippedNonBlank(Split(content, '\n'))
  }

  function StrippedNonBlank(lines: seq<string>): (r: seq<string>)
    ensures |r| <= |lines|
    ensures forall i :: 0 <= i < |r| ==> Unpadded(r[i])
  {
    if |lines| == 0 then []
    else
      var rest := StrippedNonBlank(lines[1..]);
      var head := Strip(lines[0]);
      if head != "" then
        assert !IsSpace(head[0]) && !IsSpace(head[|head| - 1]);
        var r := [head] + rest;
        assert forall i :: 0 < i < |r| ==> r[i] == rest[i - 1];
        r
      else rest
  }

  /** Content made of several pieces gives the lines of each piece, in
      order: the generator keeps neither more nor fewer lines than the
      pieces hold. */
  lemma ContentLinesAppend(a: string, b: string)
    ensures ContentLines(a + "\n" + b) == ContentLines(a) + ContentLines(b)
  {
    SplitAppend(a, '\n', b);
    StrippedNonBlankAppend(Split(a, '\n'), Split(b, '\n'));
  }

  /** A single line is kept, stripped, unless it is blank. */
  lemma ContentLinesOfLine(line: string)
    requires '\n' !in line
    ensures ContentLines(line) == if IsBlank(line) then [] else [Strip(line)]
  {
    SplitWithoutSep(line, '\n');
    StrippedNonBlankOfLine(line);
  }

  lemma {:induction false} StrippedNonBlankAppend(xs: seq<string>, ys: seq<string>)
    ensures StrippedNonBlank(xs + ys) == StrippedNonBlank(xs) + StrippedNonBlank(ys)
  {
    if |xs| == 0 {
      assert xs + ys == ys;
    } else {
      assert (xs + ys)[1..] == xs[1..] + ys && (xs + ys)[0] == xs[0];
      StrippedNonBlankAppend(xs[1..], ys);
    }
  }

  lemma StrippedNonBlankOfLine(line: string)
    ensures StrippedNonBlank([line]) == if IsBlank(line) then [] else [Strip(line)]
  {
    assert [line][1..] == [];
  }

  /** `output_filename.split(".")[-1].lower()`. */
  function FileFormat(filename: string): (r: string)
    ensures '.' !in r
    ensures '.' !in filename ==> r == Lower(filename)
  {
    var parts := Split(filename, '.');
    var last := parts[|parts| - 1];
    assert forall i :: 0 <= i < |last| ==> last[i] != '.';
    assert '.' !in filename ==> parts == [filename] by {
      if '.' !in filename { SplitWithoutSep(filename, '.'); }
    }
    Lower(last)
  }

  /** The format is what follows the last '.', lower-cased. */
  lemma FileFormatAfterLastDot(a: string, b: string)
    requires '.' !in b
    ensures FileFormat(a + "." + b) == Lower(b)
  {
    SplitLastSegment(a, '.', b);
  }

  /** A document handed to storage: its name, format and the lines given to
      the format's writer. */
  datatype StoredDocument = StoredDocument(filename: string, format: FileTypes.FileType, lines: seq<string>)

  datatype GeneratorRun = GeneratorRun(output: Value, stored: Option<StoredDocument>)

  /** `SimpleDocumentGeneratorTool._run`. `storage` is the outcome of writing
      the bytes and the metadata record: the inserted id, or the exception text. */
  function GenerateSimple(outputFilename: string, content: string, ownerId: string,
                          storage: Result<string, string>): (run: GeneratorRun)
    ensures !IsObjectIdString(ownerId) ==>
      run == GeneratorRun(ErrorOutput(OwnerErrorMessage(ownerId)), None)
    ensures IsObjectIdString(ownerId) && FileTypes.Parse(FileFormat(outputFilename)).None? ==>
      run.stored.None? && HasStatus(run.output, "error")
    ensures run.stored.Some? <==>
      IsObjectIdString(ownerId) && FileTypes.Parse(FileFormat(outputFilename)).Some? && storage.Ok?
    ensures run.stored.Some? ==>
      && run.stored.value.filename == outputFilename
      && FileTypes.Extension(run.stored.value.format) == FileFormat(outputFilename)
      && run.stored.value.lines == ContentLines(content)
      && run.output == CreatedOutput(outputFilename, storage.value)
    ensures HasStatus(run.output, "success") <==> run.stored.Some?
  {
    if !IsObjectIdString(ownerId) then GeneratorRun(ErrorOutput(OwnerErrorMessage(ownerId)), None)
    else
      var lines := ContentLines(content);
      var format := FileFormat(outputFilename);
      match FileTypes.Parse(format)
      case None =>
        GeneratorRun(ErrorOutput("Formato '" + format + "' não suportado. Use 'docx', 'xlsx' ou 'pdf'."), None)
      case Some(t) =>
        match storage
        case Err(e) => GeneratorRun(ErrorOutput("Erro excepcional ao gerar documento simples: " + e), None)
        case Ok(id) => GeneratorRun(CreatedOutput(outputFilename, id), Some(StoredDocument(outputFilename, t, lines)))
  }

  /** The spreadsheet a `.xlsx` request stores has exactly one row per
      non-blank content line, in order, each split on ';'. */
  lemma SpreadsheetRows(outputFilename: string, content: string, ownerId: string, id: string)
    requires IsObjectIdString(ownerId) && FileFormat(outputFilename) == "xlsx"
    ensures var run := GenerateSimple(outputFilename, content, ownerId, Ok(id));
      && run.stored.Some? && run.stored.value.format == FileTypes.Xlsx
      && var lines := run.stored.value.lines;
         var rows := FileGenerators.XlsxRows(lines);
         |rows| == |lines| && forall k :: 0 <= k < |rows| ==> rows[k] == FileGenerators.Cells(lines[k])
  {
    StoredAsSpreadsheet(outputFilename, content, ownerId, id);
    RowPerLine(ContentLines(content));
  }

  lemma StoredAsSpreadsheet(outputFilename: string, content: string, ownerId: string, id: string)
    requires IsObjectIdString(ownerId) && FileFormat(outputFilename) == "xlsx"
    ensures GenerateSimple(outputFilename, content, ownerId, Ok(id)).stored
      == Some(StoredDocument(outputFilename, FileTypes.Xlsx, ContentLines(content)))
  {
    assert FileTypes.Parse(FileFormat(outputFilename)) == Some(FileTypes.Xlsx);
  }

  /** Lines with no surrounding whitespace are never skipped by the
      spreadsheet writer: each gives exactly its own row. */
  lemma {:induction false} RowPerLine(lines: seq<string>)
    requires forall i :: 0 <= i < |lines| ==> Unpadded(lines[i])
    ensures FileGenerators.XlsxRows(lines) == FileGenerators.CellsOf(lines)
  {
    if |lines| > 0 {
      var tail := lines[1..];
      assert forall i :: 0 <= i < |tail| ==> Unpadded(tail[i]) by {
        forall i | 0 <= i < |tail| ensures Unpadded(tail[i]) { assert tail[i] == lines[i + 1]; }
      }
      RowPerLine(tail);
      StrippedLineRow(lines);
      CellsOfCons(lines);
    }
  }

  lemma CellsOfCons(lines: seq<string>)
    requires |lines| > 0
    ensures FileGenerators.CellsOf(lines) == [FileGenerators.Cells(lines[0])] + FileGenerators.CellsOf(lines[1..])
  {
  }

  lemma StrippedLineRow(lines: seq<string>)
    requires |lines| > 0 && Unpadded(lines[0])
    ensures FileGenerators.XlsxRows(lines) == [FileGenerators.Cells(lines[0])] + FileGenerators.XlsxRows(lines[1..])
  {
    assert Strip(lines[0]) == lines[0];
  }

  // ---------------------------------------------------------------------
  // TemplateFillerTool._run
  // ---------------------------------------------------------------------

  /** The name used when the caller gives none: the template name with every
      ".docx" and then every ".doc" removed, plus the date stamp. Whatever
      the template is called, the default name is a DOCX name. */
  function DefaultOutputFilename(templateName: string, yyyymmdd: string): (r: string)
    ensures FileFormat(r) == "docx"
    ensures IsPrefix(ReplaceAll(ReplaceAll(templateName, ".docx", ""), ".doc", "") + "_preenchido_" + yyyymmdd, r)
  {
    var stem := ReplaceAll(ReplaceAll(templateName, ".docx", ""), ".doc", "") + "_preenchido_" + yyyymmdd;
    assert stem + ".docx" == stem + "." + "docx";
    assert FileFormat(stem + "." + "docx") == "docx" by {
      FileFormatAfterLastDot(stem, "docx");
    }
    stem + ".docx"
  }

  /** `if not output_filename`: an absent or empty name is replaced. */
  function OutputFilename(given: Option<string>, templateName: string, yyyymmdd: string): (r: string)
    ensures given.Some? && given.value != "" ==> r == given.value
    ensures given.None? || given.value == "" ==> r == DefaultOutputFilename(templateName, yyyymmdd)
  {
    if given.Some? && given.value != "" then given.value else DefaultOutputFilename(templateName, yyyymmdd)
  }

  /** For a template named `base.docx` or `base.doc` whose base has no '.',
      the default name is `base_preenchido_<date>.docx`. */
  lemma DefaultFilenameOfTemplate(base: string, ext: string, yyyymmdd: string)
    requires '.' !in base && (ext == ".docx" || ext == ".doc")
    ensures DefaultOutputFilename(base + ext, yyyymmdd) == base + "_preenchido_" + yyyymmdd + ".docx"
  {
    ReplaceAllSkips(base, ext, ".docx", "");
    ReplaceAllSkips(base, "", ".doc", "");
    assert base + "" == base;
    if ext == ".docx" {
      assert ReplaceAll(ext, ".docx", "") == "" + ReplaceAll("", ".docx", "");
      assert ReplaceAll(base + ext, ".docx", "") == base;
    } else {
      assert ReplaceAll(ext, ".docx", "") == ext;
      ReplaceAllSkips(base, ext, ".doc", "");
      assert ReplaceAll(ext, ".doc", "") == "" + ReplaceAll("", ".doc", "");
    }
  }

  datatype FilledDocument = FilledDocument(filename: string, context: Value)

  datatype FillerRun = FillerRun(output: Value, stored: Option<FilledDocument>)

  /** `TemplateFillerTool._run`. `found` is the registry lookup; `renderAndStore`
      renders the template with a context under a filename and stores the
      result, yielding the inserted id or the exception text. */
  function FillTemplate(templateName: string, context: Value, ownerId: string, outputFilename: Option<string>,
                        found: bool, yyyymmdd: string, renderAndStore: (Value, string) -> Result<string, string>)
    : (run: FillerRun)
    ensures !IsObjectIdString(ownerId) ==>
      run == FillerRun(ErrorOutput(OwnerErrorMessage(ownerId)), None)
    ensures IsObjectIdString(ownerId) && !found ==>
      run == FillerRun(ErrorOutput(NotFoundMessage(templateName)), None)
    ensures run.stored.Some? ==>
      && IsObjectIdString(ownerId) && found
      && run.stored.value.filename == OutputFilename(outputFilename, templateName, yyyymmdd)
      && Cleaned(run.stored.value.context)
      && (context.Dict? ==> run.stored.value.context.Dict?
                            && run.stored.value.context.fields.Keys == context.fields.Keys)
    ensures IsObjectIdString(ownerId) && found && renderAndStore(Clean(context), OutputFilename(outputFilename, templateName, yyyymmdd)).Ok? ==>
      var filename := OutputFilename(outputFilename, templateName, yyyymmdd);
      run == FillerRun(CreatedOutput(filename, renderAndStore(Clean(context), filename).value),
                       Some(FilledDocument(filename, Clean(context))))
    ensures IsObjectIdString(ownerId) && found && renderAndStore(Clean(context), OutputFilename(outputFilename, templateName, yyyymmdd)).Err? ==>
      run == FillerRun(ErrorOutput("Erro excepcional ao preencher o template: "
                                   + renderAndStore(Clean(context), OutputFilename(outputFilename, templateName, yyyymmdd)).error), None)
    ensures HasStatus(run.output, "success") <==> run.stored.Some?
  {
    if !IsObjectIdString(ownerId) then FillerRun(ErrorOutput(OwnerErrorMessage(ownerId)), None)
    else if !found then FillerRun(ErrorOutput(NotFoundMessage(templateName)), None)
    else
      var cleaned := Clean(context);
      var filename := OutputFilename(outputFilename, templateName, yyyymmdd);
      match renderAndStore(cleaned, filename)
      case Err(e) => FillerRun(ErrorOutput("Erro excepcional ao preencher o template: " + e), None)
      case Ok(id) => FillerRun(CreatedOutput(filename, id), Some(FilledDocument(filename, cleaned)))
  }
}
